=== FILE: README.md ===
# life-os: the local-first store and its helpers, in Dafny

life-os is a personal dashboard. It tracks sleep, habits, push-ups, notes and
tasks, one daily log per calendar date. Its client keeps one store:

- `dailyLog` is the log of the selected date.
- `modifiedLogs` is a ledger of unsynced logs, keyed by date.
- `tasks` and `habitDefinitions` hold items. Those not yet on the server
  carry temporary `temp-` ids.
- Two deletion queues hold the ids of server rows to delete.
- Cached windows hold the last 7/28/91/180/365 days of logs.

`loadInitialData` reconciles a dashboard fetch with local unsynced state.
`saveData` pushes everything in phases: habits, then logs, then tasks, then
settings, then a refresh. At its commit it renames temporary ids to the
ids the server assigned.

The project models:

| file | what it models |
|---|---|
| `records.dfy` | the rows, temporary ids and the empty log |
| `text.dfy` | the string operations the code relies on: key order (`localeCompare` on date keys), ASCII lower-casing, `trim`, `split(":")`, decimal rendering and `padStart(2, "0")` |
| `ordering.dfy` | JavaScript's stable `sort` by a string key |
| `habit_dedupe.dfy` | `dedupeHabits`, as a loop and as a specification function |
| `log_merge.dfy` | `getMergedLogs` |
| `dashboard.dfy` | the pure part of `fetchFullDashboardData`: error precedence, the target-date log and the window slicing |
| `save_plan.dfy` | the phases of `saveData` on its snapshot, and the renaming its commit does |
| `store.dfy` | the store as a class: every action, `loadInitialData` and `saveData` split at their awaits, and the rehydrate hook |
| `date_utils.dfy` | the calendar helpers over a proleptic Gregorian date with day numbers and weekdays; "today" is a parameter |
| `sleep_tracker.dfy` | the sleep card's time helpers, its start/stop button (with the short-session discard) and its bed- and wake-time editors |
| `sleep_score.dfy` | the sleep-quality classifier and the "No data yet" guard |
| `todo_list.dfy` | priority grouping, the visible slice, the "show more" flag and task submission |
| `pushup_detector.dfy` | the push-up counter's rep logic (frame hysteresis, confirmed state, cooldown) and its reset, as a class over the component's refs |

Server calls, `crypto.randomUUID()`, `new Date()` and the clock are parameters.
Each server reply is an input: data, an `{ error }` reply, or a thrown exception.

## Model

| member | source | states |
|---|---|---|
| Records.MakeTempId | src/store/useLifeOSStore.ts:20-21 | a generated id is temporary and carries the UUID after the `temp-` prefix |
| Records.TempIdIffPrefixed | src/store/useLifeOSStore.ts:21 | a string is a temporary id exactly when it is `temp-` followed by something |
| Records.EmptyDailyLog | src/store/useLifeOSStore.ts:70-78 | the empty log has the given date, no sleep times, no habits, no notes and zero push-ups |
| Text.LessIrreflexive | src/store/useLifeOSStore.ts:35 | the key order used for sorting is irreflexive |
| Text.LessTransitive | src/store/useLifeOSStore.ts:35 | the key order is transitive |
| Text.LessTotal | src/store/useLifeOSStore.ts:35 | any two distinct keys are ordered one way or the other |
| Text.ToLowerIdempotent | src/store/useLifeOSStore.ts:57 | lower-casing a name key again changes nothing |
| Text.TrimFacts | src/store/useLifeOSStore.ts:545-546 | `trim` is empty exactly for all-whitespace input; otherwise it neither starts nor ends with whitespace |
| Text.SplitAtSep | src/components/dashboard/SleepTracker.tsx:23 | splitting on `:` at its first occurrence yields the part before, then the split of the rest |
| Text.NatToStringRoundTrip | src/lib/date-utils.ts:5-8 | reading back a rendered year gives the year |
| Text.Pad2Shape | src/lib/date-utils.ts:6-7 | a padded month or day is two digits that read back as the number |
| Text.Pad2Less | src/lib/date-utils.ts:6-7 | padding keeps numeric order as string order |
| Text.FourDigitsLess | src/lib/date-utils.ts:5-8 | four-digit years render in string order |
| Ordering.SortByIsSorted | src/app/actions/dashboard.ts:64 | the sort leaves no element whose key is below an earlier element's key |
| Ordering.SortByIsStable | src/app/actions/dashboard.ts:64 | for each key, the elements with that key keep their original relative order |
| Ordering.SortBy | src/store/useLifeOSStore.ts:453 | the sort is a permutation (same multiset, same length) |
| HabitDedupe.DedupeHabits | src/store/useLifeOSStore.ts:54-68 | the loop over a growing map returns `Deduped(habits)` |
| HabitDedupe.DedupedFacts | src/store/useLifeOSStore.ts:54-68 | one habit per lowercased name, the same name set as the input, every output an input element, never longer |
| HabitDedupe.DedupedChoice | src/store/useLifeOSStore.ts:58-65 | each kept habit is the first habit of its name with a permanent id, or the first habit of its name when none has one |
| HabitDedupe.DedupedOrder | src/store/useLifeOSStore.ts:55-67 | habits come out in the order their names first appear |
| HabitDedupe.DedupedIdentity | src/store/useLifeOSStore.ts:54-68 | a list with distinct names is returned unchanged |
| HabitDedupe.DedupedShrinks | src/store/useLifeOSStore.ts:651-656 | a list with a repeated name comes back strictly shorter, so the rehydrate hook's length test detects duplicates |
| HabitDedupe.DedupedIdempotent | src/store/useLifeOSStore.ts:54-68 | deduplicating twice equals deduplicating once |
| HabitDedupe.DedupedAppendDisjoint | src/store/useLifeOSStore.ts:211 | deduplicating two lists with no shared name is deduplicating each |
| LogMerge.FillByDate | src/store/useLifeOSStore.ts:32-34 | the two loops build the server index overlaid with the ledger |
| LogMerge.MergedFacts | src/store/useLifeOSStore.ts:32-34 | one entry per date of the union of server dates and ledger keys; the ledger entry wins on a shared date, and the last server log wins among server duplicates |
| LogMerge.GetMergedLogs | src/store/useLifeOSStore.ts:28-36 | one log per date of the union, no date twice; a ledger log for a ledger date, otherwise the server log; sorted ascending by date |
| Dashboard.LastNSuffix | src/app/actions/dashboard.ts:65-68 | `slice(-n)` is a suffix, and a shorter window of a longer window is the shorter window of the list |
| Dashboard.FetchFullDashboardData | src/app/actions/dashboard.ts:42-89 | data is present exactly when there is no error, and exactly when nothing threw and no read failed. A thrown `Error` reports its message, anything else "Failed to load". On success the tasks and habits are the replies' lists, or empty |
| Dashboard.FailureReported | src/app/actions/dashboard.ts:53-56 | the reported error is the first present one in the order log, tasks, habits, logs, settings, and nothing is reported when all five reads succeed |
| Dashboard.DailyLogForTarget | src/app/actions/dashboard.ts:42-72 | the returned log is dated with the target date; it is the server row or the empty log |
| Dashboard.SettingsForwarded | src/app/actions/dashboard.ts:80 | the settings reach the result exactly when every read succeeded and the settings read returned a row |
| Dashboard.WindowsFacts | src/app/actions/dashboard.ts:61-69 | the full window is the fetched logs as a sorted, stable permutation; each window has min(n, total) logs, is the tail of the next larger one, and no log outside it is dated later than one inside |
| SavePlan.ErrorOf | src/store/useLifeOSStore.ts:511-516 | a failed phase stores its reply's message; a thrown `Error` stores its own message, any other exception "Save failed" |
| SavePlan.PartitionMembership | src/store/useLifeOSStore.ts:348-426 | temporary ids are inserted, permanent ids not queued for deletion are updated, and queued ones are neither |
| SavePlan.PartitionSizes | src/store/useLifeOSStore.ts:348-360 | every item lands in exactly one of the three groups |
| SavePlan.PartitionHabits | src/store/useLifeOSStore.ts:345-360 | the loop yields the insert payloads, the temporary-id order and the update payloads, each in list order |
| SavePlan.PartitionTasks | src/store/useLifeOSStore.ts:402-426 | the same for tasks, with their own payload fields |
| SavePlan.BuildIdMap | src/store/useLifeOSStore.ts:372-375 | the loop builds the temporary-to-inserted id map |
| SavePlan.IdMapFacts | src/store/useLifeOSStore.ts:372-375 | the map's keys are the temporary ids that have a returned row at their position; with distinct temporary ids, each maps to that row's id |
| SavePlan.RemapHabits | src/store/useLifeOSStore.ts:377-384 | every key whose resolved id is not queued for deletion appears under its resolved id, carrying the flag of a key that resolves to it |
| SavePlan.RemapKeepsFlags | src/store/useLifeOSStore.ts:377-384 | when no other key resolves to the same id, the key keeps its own flag |
| SavePlan.BuildBulkEntries | src/store/useLifeOSStore.ts:386-395 | one payload per ledger date, carrying that log's fields with its habit keys remapped |
| SavePlan.PhasesRun | src/store/useLifeOSStore.ts:362-451 | a save makes 1 to 5 calls and stops at the first failing phase; settings are sent only when present |
| SavePlan.RunSavePhases | src/store/useLifeOSStore.ts:362-400 | the calls made, in order (habit sync, bulk logs with remapped keys, then the later phases), the outcome for the replies, and that every sync call deletes exactly the queued ids |
| SavePlan.QueuedPermanentNeverDeleted | src/store/useLifeOSStore.ts:362-366 | when the queues hold only permanent ids, no sync call of a save asks the server to delete a temporary id |
| SavePlan.RunLaterPhases | src/store/useLifeOSStore.ts:428-453 | task sync with the queued task ids, then settings when present, then the 365-day refresh, stopping at the first failure |
| SavePlan.IndexOf | src/store/useLifeOSStore.ts:474-480 | the first position of the id, or -1 when absent |
| SavePlan.ResolveTaskFacts | src/store/useLifeOSStore.ts:472-477 | only a task's id and owner change; a permanent id, or a temporary id the save did not send, is kept; a sent one takes its row's id |
| SavePlan.ResolveHabitFacts | src/store/useLifeOSStore.ts:478-487 | the same for habits |
| SavePlan.RenameConsistent | src/store/useLifeOSStore.ts:478-487 | a habit and the log keys that name it are renamed to the same id |
| SavePlan.SentTasksResolved | src/store/useLifeOSStore.ts:472-477 | when the server returns a permanent row for every insert, no sent task keeps a temporary id |
| LifeStore.DefaultHabits | src/store/useLifeOSStore.ts:45-48 | two defaults, each with a temporary id and the creation time |
| LifeStore.DefaultHabitsDistinct | src/store/useLifeOSStore.ts:45-48 | the defaults have distinct name keys |
| LifeStore.Toggled | src/store/useLifeOSStore.ts:307-315 | the toggled habit becomes the negation of its flag, a missing flag counting as false; other entries are unchanged |
| LifeStore.ToggledTwice | src/store/useLifeOSStore.ts:307-315 | toggling twice restores the flag, with a missing one now stored as false |
| LifeStore.FindByDate | src/store/useLifeOSStore.ts:161 | a found log is the first log in the list with that date; none found means no log has it |
| LifeStore.NewLocalTemps | src/store/useLifeOSStore.ts:207-210 | exactly the local temporary habits whose names the server lacks |
| LifeStore.MergedHabits | src/store/useLifeOSStore.ts:211 | server habits stay first and unchanged; only the rest is deduplicated |
| LifeStore.ChooseHabitsFacts | src/store/useLifeOSStore.ts:199-226 | whatever branch runs, names are distinct; with server habits they come first, followed only by local temporary habits with new names |
| LifeStore.ReconcileHabits | src/store/useLifeOSStore.ts:196-226 | the habit step computes `ChooseHabits` on the deduplicated server list, with distinct names |
| LifeStore.Store.constructor | src/store/useLifeOSStore.ts:134-150 | the initial state: nothing loaded, every list and ledger empty |
| LifeStore.Store.SetSelectedDate | src/store/useLifeOSStore.ts:152-177 | the selected date changes. The log switches to the ledger entry, else a cached window entry (365 before 91, 28 and 7), re-dated. Otherwise a fetch is issued and the log is kept |
| LifeStore.Store.CompleteLogFetch | src/store/useLifeOSStore.ts:171-176 | an error is ignored; otherwise the reply, or an empty log, replaces the log |
| LifeStore.Store.BeginLoad | src/store/useLifeOSStore.ts:181-191 | an empty selected date becomes today with an empty log; a load starts only when none is running, clearing the error |
| LifeStore.Store.AdoptLoadedState | src/store/useLifeOSStore.ts:195-259 | habits, log, tasks and queues after a fetch. Ledger log and temporary tasks are kept only with unsaved changes on an initialized store |
| LifeStore.Store.SetFetched | src/store/useLifeOSStore.ts:228-262 | windows are the fetched ones, or empty. Settings fall back to the defaults. The store is unsaved when changes are kept, a habit is temporary or settings were missing. It ends initialized and not loading, holding the fetch's error |
| LifeStore.Store.FailLoad | src/store/useLifeOSStore.ts:264-269 | a thrown load marks the store initialized, stops loading and stores the message or "Failed to load" |
| LifeStore.Store.LoadInitialData | src/store/useLifeOSStore.ts:179-271 | a load runs only when none is running; otherwise only the selected date and log may change. A rejected server action takes the catch branch: only the flags and the message change. A resolved one leaves every field as the fetched data and the kept local changes dictate: habits, log, tasks, queues, ledger, windows, settings, error, flags |
| LifeStore.Store.FinishLoad | src/store/useLifeOSStore.ts:195-263 | after a settled fetch, every field is stated: the habits chosen, the ledger log or the server log, server tasks plus kept temporary ones, queues and ledger kept or cleared, windows and settings from the data, the error, the flags |
| LifeStore.Store.RecordLog | src/store/useLifeOSStore.ts:118-126 | the new log goes to both the current log and the ledger under the selected date, and the store is unsaved |
| LifeStore.Store.SetSleepStart | src/store/useLifeOSStore.ts:273-281 | only the sleep start changes, and the same log goes to the ledger |
| LifeStore.Store.SetSleepEnd | src/store/useLifeOSStore.ts:282-290 | only the sleep end changes, and the same log goes to the ledger |
| LifeStore.Store.SetSleepStartAt | src/store/useLifeOSStore.ts:291-298 | the start becomes the given time, and the same log goes to the ledger |
| LifeStore.Store.SetSleepEndAt | src/store/useLifeOSStore.ts:299-306 | the end becomes the given time, and the same log goes to the ledger |
| LifeStore.Store.ToggleHabit | src/store/useLifeOSStore.ts:307-316 | only that habit's flag flips, and the same log goes to the ledger |
| LifeStore.Store.AddPushupCount | src/store/useLifeOSStore.ts:317-325 | the push-up count grows by exactly n, and the same log goes to the ledger |
| LifeStore.Store.SetNotes | src/store/useLifeOSStore.ts:326-332 | only the notes change, and the same log goes to the ledger |
| LifeStore.Store.AddTask | src/store/useLifeOSStore.ts:520-535 | a new incomplete task with a temporary id is put first |
| LifeStore.Store.UpdateTaskPriority | src/store/useLifeOSStore.ts:537-542 | only tasks with that id get the priority |
| LifeStore.Store.UpdateTaskTitle | src/store/useLifeOSStore.ts:544-551 | a blank title changes nothing; otherwise tasks with that id get the trimmed title |
| LifeStore.Store.ToggleTaskCompletion | src/store/useLifeOSStore.ts:553-567 | only tasks with that id flip completion; `completed_at` becomes null when un-completing and now otherwise |
| LifeStore.Store.RemoveTask | src/store/useLifeOSStore.ts:569-583 | the matching task is removed; its id is queued for deletion only when permanent |
| LifeStore.Store.AddHabitDefinition | src/store/useLifeOSStore.ts:585-602 | a new habit with a temporary id is appended |
| LifeStore.Store.UpdateHabitDefinition | src/store/useLifeOSStore.ts:604-614 | only habits with that id take the patch; absent fields keep their values |
| LifeStore.Store.RemoveHabitDefinition | src/store/useLifeOSStore.ts:616-630 | the habit is removed and its key deleted from the current log, which goes to the ledger; a permanent id is queued |
| LifeStore.Store.UpdateUserSettings | src/store/useLifeOSStore.ts:632-639 | the patch applies to the settings, or to the defaults when there are none |
| LifeStore.Store.SetError | src/store/useLifeOSStore.ts:641 | only the error changes |
| LifeStore.Store.Rehydrate | src/store/useLifeOSStore.ts:650-657 | habits become their deduplicated list, with distinct names |
| LifeStore.Store.BeginSave | src/store/useLifeOSStore.ts:335-343 | the snapshot is the ledger, tasks, habits and queues before the first await; loading starts and the error clears |
| LifeStore.Store.FailSave | src/store/useLifeOSStore.ts:511-516 | a failed phase changes only loading and error |
| LifeStore.Store.CommitSave | src/store/useLifeOSStore.ts:471-509 | the commit renames sent ids in the live lists, empties the queues and sets the windows from the sorted refresh. It drops only ledger dates captured at the start, and clears unsaved and loading |
| LifeStore.Store.SaveData | src/store/useLifeOSStore.ts:334-518 | success exactly when every phase succeeds. Its frame leaves the log, the selected date, the settings and the initialized flag alone. It makes as many calls as the phases run: the habit sync, then the ledger upload with remapped habit keys, then the task sync. It sends the queued deletions and never a temporary id. On failure, the first failure's message is stored and the data and windows are untouched. On success: no error, nothing unsaved, an empty ledger and queues, ids renamed, windows from the sorted refresh |
| LifeStore.Remaining | src/store/useLifeOSStore.ts:488-494 | the kept ledger entries are exactly those whose date was not captured, unchanged |
| LifeStore.SaveWithEditInFlight | src/store/useLifeOSStore.ts:335-509 | a note edited during a save survives the commit only if its date was not in the ledger at the start; either way the store ends marked saved |
| DateUtils.DaysInMonth | src/lib/date-utils.ts:47-48 | months have 28 to 31 days |
| DateUtils.MonthLengthsTable | src/lib/date-utils.ts:48 | the table holds each month's length, February 29 days exactly in leap years |
| DateUtils.MonthsFillYear | src/lib/date-utils.ts:47-48 | the months add up to the year's 365 or 366 days |
| DateUtils.OrdinalOrder | src/lib/date-utils.ts:68 | day numbers order dates as the calendar does, and equal day numbers mean equal dates |
| DateUtils.NextDayOrdinal | src/lib/date-utils.ts:68 | the next day is one day number later |
| DateUtils.AddDaysOrdinal | src/lib/date-utils.ts:25-38 | adding n days adds n to the day number, for negative n too |
| DateUtils.AddDaysAdd | src/lib/date-utils.ts:25-26 | adding days composes |
| DateUtils.DayOfWeekAdd | src/lib/date-utils.ts:64-66 | n days later is n weekdays later, modulo 7 |
| DateUtils.DateKeyOrder | src/lib/date-utils.ts:4-9 | for four-digit years, keys sort as their dates |
| DateUtils.DurationHours | src/lib/date-utils.ts:12-18 | never negative; 0 when either timestamp is missing |
| DateUtils.DurationBounds | src/lib/date-utils.ts:12-18 | a session ending before it starts lasts 0 hours; otherwise whole minutes divided by 60 |
| DateUtils.TruncDivSymmetric | src/lib/date-utils.ts:16 | `differenceInMinutes` truncates toward zero, symmetrically |
| DateUtils.KeysFromIndex | src/lib/date-utils.ts:21-30 | position i of a run of day keys is the key of the start plus i days |
| DateUtils.KeysFromAscending | src/lib/date-utils.ts:21-30 | the keys of consecutive days are strictly ascending within four-digit years |
| DateUtils.LastNDateStrings | src/lib/date-utils.ts:21-30 | the loop yields the keys of the max(days, 0) consecutive days ending today |
| DateUtils.LastNEndsToday | src/lib/date-utils.ts:21-30 | the last key is today's |
| DateUtils.DateStringsCenteredOnToday | src/lib/date-utils.ts:33-42 | the loop yields the keys from daysBack days ago through daysFwd days ahead |
| DateUtils.CenteredOnToday | src/lib/date-utils.ts:33-42 | today's key sits at position daysBack |
| DateUtils.DayOfYear | src/lib/date-utils.ts:49-53 | the month-by-month position of a date is its distance from the first of January |
| DateUtils.DateStringsForYear | src/lib/date-utils.ts:45-56 | the nested loops yield the keys of every day of the year in order; 366 exactly in leap years |
| DateUtils.PushMonth | src/lib/date-utils.ts:50-53 | the inner loop appends exactly the month's days |
| DateUtils.YearKeysIndex | src/lib/date-utils.ts:45-56 | every date of the year has its key at its day of the year |
| DateUtils.YearKeysInYear | src/lib/date-utils.ts:45-56 | every key is a date of that year |
| DateUtils.YearKeysAscending | src/lib/date-utils.ts:45-56 | for a four-digit year the keys are strictly ascending |
| DateUtils.WeeksStart | src/lib/date-utils.ts:61-64 | the starting Sunday is a valid date |
| DateUtils.WeeksEnd | src/lib/date-utils.ts:62-66 | the ending Saturday is a valid date |
| DateUtils.WeeksSpan | src/lib/date-utils.ts:61-66 | the span runs from the Sunday on or before the first of January to the Saturday on or after the thirty-first of December; years 0 to 99 are read as 1900 to 1999 |
| DateUtils.DateStringsForYearByWeeks | src/lib/date-utils.ts:59-72 | the loop yields the keys of every day from the starting Sunday through the ending Saturday |
| DateUtils.WeeksShape | src/lib/date-utils.ts:59-72 | the list starts on a Sunday, ends on a Saturday, is whole weeks, and has between the year's length and 12 more days |
| DateUtils.WeeksCoverYear | src/lib/date-utils.ts:59-72 | every date of the year appears, at its distance from the starting Sunday |
| DateUtils.LastNMonthKeys | src/lib/date-utils.ts:83-91 | the loop yields the keys of the max(n, 0) months ending with the current one |
| DateUtils.LastMonthIsCurrent | src/lib/date-utils.ts:83-91 | the last key is the current year and month |
| DateUtils.MonthKeysAscending | src/lib/date-utils.ts:83-91 | the month keys run strictly ascending within four-digit years |
| SleepTracker.ClockMinutes | src/components/dashboard/SleepTracker.tsx:22-35 | reading back a rendered clock time gives hours times 60 plus minutes |
| SleepTracker.HoursOnly | src/components/dashboard/SleepTracker.tsx:22-25 | a time without a minute part counts the minutes as 0 |
| SleepTracker.IsoForDateAndTime | src/components/dashboard/SleepTracker.tsx:27-29 | the result is the date, `T`, the time and `:00`, each readable back at its position |
| SleepTracker.BedMinutes | src/components/dashboard/SleepTracker.tsx:31-35 | a missing start reads as 22:00; a present one as its local clock time |
| SleepTracker.WakeNextDayClocks | src/components/dashboard/SleepTracker.tsx:42-44 | waking counts as the next day exactly when the wake minutes are at most the bed minutes, so equal times count |
| SleepTracker.StartStopDisabled | src/components/dashboard/SleepTracker.tsx:73-75 | the button is enabled exactly when the store is initialized, not loading, and showing today |
| SleepTracker.DiscardRule | src/components/dashboard/SleepTracker.tsx:112-116 | a session is discarded exactly when its truncated minutes are in [0, 10), or below -1430 (after the one-day correction); ten minutes or more is kept |
| SleepTracker.HandleSleep | src/components/dashboard/SleepTracker.tsx:104-134 | while sleeping, a short session clears both times and a longer one records the end; otherwise the start is recorded. The log also goes to the ledger. Sleeping always stops, and starting begins a session unless an end is already set |
| SleepTracker.ParseDateKeyRoundTrip | src/components/dashboard/SleepTracker.tsx:142 | a date key of a four-digit year parses back to its date |
| SleepTracker.WakeDateForKey | src/components/dashboard/SleepTracker.tsx:137-143 | the wake date is the bed date when waking later in the day, else the calendar day after |
| SleepTracker.HandleStartChange | src/components/dashboard/SleepTracker.tsx:227 | the start is set on the selected date at the chosen time, and the log goes to the ledger |
| SleepTracker.HandleEndChange | src/components/dashboard/SleepTracker.tsx:136-145 | the end is set on the wake date at the chosen time, and the log goes to the ledger |
| SleepScore.SleepQuality | src/components/sleep/SleepScoreCard.tsx:45-50 | under 6 hours is insufficient, under 7 fair, up to 9 inclusive optimal, above 9 excessive, each as an if-and-only-if |
| SleepScore.SleepQualityMonotone | src/components/sleep/SleepScoreCard.tsx:45-50 | more hours never give an earlier band |
| SleepScore.ScoreCard | src/components/sleep/SleepScoreCard.tsx:56-76 | "No data yet" exactly when either time is missing; otherwise the band and label of non-negative hours |
| SleepScore.BackwardsNightInsufficient | src/components/sleep/SleepScoreCard.tsx:56-59 | a night ending before it starts is rated insufficient on 0 hours |
| TodoList.SortedIsPermutation | src/components/dashboard/TodoList.tsx:41-43 | the display order is a permutation of the store's tasks, a missing priority counting as normal |
| TodoList.SortedGrouped | src/components/dashboard/TodoList.tsx:13-43 | urgent tasks precede high ones, which precede normal ones |
| TodoList.SortedStable | src/components/dashboard/TodoList.tsx:41-43 | within a priority, tasks keep their store order |
| TodoList.VisibleFacts | src/components/dashboard/TodoList.tsx:12-47 | the visible tasks lead the display order: all of them when expanded, else the first min(10, n). "Show more" appears exactly when some are hidden |
| TodoList.HandleSubmit | src/components/dashboard/TodoList.tsx:28-38 | a blank title is ignored; otherwise the trimmed title is added with the chosen priority |
| TodoList.NewTaskLeadsItsGroup | src/components/dashboard/TodoList.tsx:41-43 | a new task shows first within its priority and leaves the other groups alone |
| PushupDetector.StepCountRule | src/components/pushups/PushupDetector.tsx:223-233 | a rep is counted exactly on a posed frame that turns a confirmed DOWN into UP after more than 400 ms; the count then grows by one and the rep time becomes now, otherwise neither changes |
| PushupDetector.StepHysteresis | src/components/pushups/PushupDetector.tsx:196-221 | UP and DOWN show only on the second consecutive frame beyond the threshold. A frame between thresholds clears both counters; an invalid body leaves them alone |
| PushupDetector.EarlyReturnsUntouched | src/components/pushups/PushupDetector.tsx:128-177 | frames without a pose or an arm only show INVALID; an ignored frame changes nothing |
| PushupDetector.InitialInv | src/components/pushups/PushupDetector.tsx:112-123 | the counter starts at zero, INVALID, satisfying the invariant |
| PushupDetector.StepPreservesInv | src/components/pushups/PushupDetector.tsx:196-241 | the confirmed state is never TRANSITION, and at most one frame counter runs |
| PushupDetector.ResetPreservesInv | src/components/pushups/PushupDetector.tsx:374-378 | a reset keeps the invariant and zeroes the count |
| PushupDetector.DownInvalidUpNoRep | src/components/pushups/PushupDetector.tsx:199-241 | DOWN, then an out-of-plank frame, then UP does not count a rep |
| PushupDetector.NoBackToBackReps | src/components/pushups/PushupDetector.tsx:225-241 | the frame after a rep never counts another |
| PushupDetector.ResetNeedsDown | src/components/pushups/PushupDetector.tsx:374-378 | right after a reset, no frame can count a rep |
| PushupDetector.RunPreservesInv | src/components/pushups/PushupDetector.tsx:196-241 | the invariant holds along any run of frames |
| PushupDetector.RunRepBound | src/components/pushups/PushupDetector.tsx:223-241 | the count never decreases, and n frames add at most half of n reps (rounded up when DOWN is confirmed) |
| PushupDetector.PushupCounter.constructor | src/components/pushups/PushupDetector.tsx:112-123 | the refs and the count start at their initial values |
| PushupDetector.PushupCounter.ProcessResults | src/components/pushups/PushupDetector.tsx:125-247 | updating the refs in place performs exactly one step of the rep logic |
| PushupDetector.PushupCounter.HandleReset | src/components/pushups/PushupDetector.tsx:374-378 | count 0, confirmed state INVALID and rep time 0; the displayed state and the frame counters are kept |

## Left out

- Network and database calls (the server actions, Supabase, authentication) are replies passed in. Only the order and content of the calls `saveData` makes are modelled.
- `crypto.randomUUID()`, `new Date()`, `toISOString()` and time zones are left out. Fresh ids, "now", today's date and the local clock time of a stored instant are parameters. Parsing arbitrary ISO strings into instants is not modelled, and neither are the `NaN` durations of unparsable ones.
- `loadInitialData` reaches its catch branch when the server action itself rejects (the `Settled` input). An exception thrown by the store's own processing of a reply is not modelled, because that code does not throw on well-formed data.
- Asynchronous interleaving is not modelled beyond the split of `loadInitialData` and `saveData` at their awaits. `SaveWithEditInFlight` shows one edit between the snapshot and the commit.
- The fallback to merged windows when the refresh returns null (src/store/useLifeOSStore.ts:463-469, 500-504) is not modelled. `slice` never returns null, so the fallback never applies.
- The `!dailyLog.sleep_start` branch of `handleSleep` (src/components/dashboard/SleepTracker.tsx:106-109) is not modelled, because `isSleeping` already implies a start.
- If a finished session exists and the button is pressed, `HandleSleep` records a new start and keeps the old end. Its contract states this, as the code does it.
- zustand's `persist`, localStorage and `partialize` are library code. Only the rehydrate hook's deduplication is modelled.
- Object and Map key order is not modelled: entries are visited in any order. `getMergedLogs` leaves unspecified the order of two logs whose `date` fields are equal but are stored under different keys.
- `localeCompare` is modelled as code-unit order, and `toLowerCase` and `trim` on ASCII only. The date keys and names the code compares are ASCII.
- `Number()` on a time part is read as decimal digits. Non-digit parts, which give `NaN` in the source, are not modelled. Neither is `parseInt`.
- `TimeFromIso`: the clock time of a present timestamp is a parameter, because it comes from `new Date(iso)` in the local time zone.
- `DateUtils.LastMonthIsCurrent`, `DateUtils.DateKeyOrder` and `SleepTracker.ParseDateKeyRoundTrip`: the key properties are stated for years from 100 or 1000 up to 9999. Outside that range `new Date` and the key format change meaning.
- `CompleteLogFetch`: the late `getLogForDate` reply applies whatever date is selected by then, as in the code. The resulting stale log is not ruled out.
- PushupDetector frames are given as plank flag plus elbow angle. `calculateAngle`, `isVisible`, the averaging of two arms, the body-alignment test, drawing, feedback strings, MediaPipe and the webcam are not modelled.
- Components' display formatting is not modelled: `formatTime`, `defaultWakeTime`, `formatChartLabel`, charts and toasts.
- The daily log's `focus_start`, `focus_end` and `focus_minutes` fields (src/types/database.ts:18-20) are not modelled. The store never reads them, and the bulk save does not send them.
- The focus, streak and push-up-per-date actions that components call are not defined in the store, so they are not part of this model.

=== FILE: dashboard.dfy ===
/**
 * `fetchFullDashboardData`: five reads issued together; the first failure
 * wins, otherwise the one-year log list is sorted by date and cut into the
 * 7/28/91/180-day windows the charts use.
 */
module Dashboard {
  import opened Wrappers
  import opened Text
  import opened Ordering
  import opened Records

  const FailedToLoad := "Failed to load"

  /** What a server read returns: `data`, and the message of its `error` if any. */
  datatype Read<T> = Read(data: Option<T>, error: Option<string>)

  /** The settled `Promise.all`: the five replies in order, or the exception it
      threw (`Some(message)` when the exception is an `Error`). */
  datatype Replies =
    | Replies(log: Read<DailyLog>, tasks: Read<seq<Task>>, habits: Read<seq<Habit>>,
              logs365: Read<seq<DailyLog>>, settings: Read<UserSettings>)
    | Threw(message: Option<string>)

  datatype DashboardData = DashboardData(
    dailyLog: DailyLog,
    tasks: seq<Task>,
    habitDefinitions: seq<Habit>,
    last7: seq<DailyLog>,
    last28: seq<DailyLog>,
    last91: seq<DailyLog>,
    last180: seq<DailyLog>,
    last365: seq<DailyLog>,
    userSettings: Option<UserSettings>)

  datatype FetchResult = FetchResult(data: Option<DashboardData>, error: Option<string>)

  /** `s.slice(-n)` for a positive n: the last n elements, or all of them. */
  function LastN<T>(s: seq<T>, n: nat): (r: seq<T>)
    requires n > 0
    ensures |r| == if |s| < n then |s| else n
  {
    if |s| <= n then s else s[|s| - n..]
  }

  /** The window is a suffix of the list, and a shorter window taken from a
      longer one is the same as the shorter window of the whole list. */
  lemma LastNSuffix<T>(s: seq<T>, m: nat, n: nat)
    requires 0 < n <= m
    ensures LastN(s, n) == s[|s| - |LastN(s, n)|..]
    ensures LastN(LastN(s, m), n) == LastN(s, n)
  {
    var w := LastN(s, m);
    if |s| > n {
      assert w[|w| - n..] == s[|s| - n..];
    }
  }

  /** `logRes.error ?? tasksRes.error ?? habitsRes.error ?? logs365Res.error ?? settingsRes.error` */
  function FirstError(rs: Replies): Option<string>
    requires rs.Replies?
  {
    if rs.log.error.Some? then rs.log.error
    else if rs.tasks.error.Some? then rs.tasks.error
    else if rs.habits.error.Some? then rs.habits.error
    else if rs.logs365.error.Some? then rs.logs365.error
    else rs.settings.error
  }

  /** The five read errors in the order the code tests them. */
  function ReadErrors(rs: Replies): (errs: seq<Option<string>>)
    requires rs.Replies?
    ensures |errs| == 5
  {
    [rs.log.error, rs.tasks.error, rs.habits.error, rs.logs365.error, rs.settings.error]
  }

  predicate AnyFailed(rs: Replies)
    requires rs.Replies?
  {
    rs.log.error.Some? || rs.tasks.error.Some? || rs.habits.error.Some?
      || rs.logs365.error.Some? || rs.settings.error.Some?
  }

  /** The data built from five successful replies for the target date. */
  function Assemble(target: string, rs: Replies): DashboardData
    requires rs.Replies?
  {
    var sorted := SortBy(rs.logs365.data.GetOr([]), LogDate);
    var log := rs.log.data.GetOr(EmptyDailyLog(target));
    DashboardData(
      log.(date := target),
      rs.tasks.data.GetOr([]),
      rs.habits.data.GetOr([]),
      LastN(sorted, 7), LastN(sorted, 28), LastN(sorted, 91), LastN(sorted, 180),
      sorted,
      rs.settings.data)
  }

  /** `date` is the caller's date key; `serverToday` stands for the server's
      `new Date().toISOString().slice(0, 10)` used when no date is given. */
  function FetchFullDashboardData(date: Option<string>, serverToday: string, rs: Replies): (r: FetchResult)
    ensures r.data.Some? <==> r.error.None?
    ensures r.data.Some? <==> rs.Replies? && !AnyFailed(rs)
    ensures rs.Threw? && rs.message.Some? ==> r.error == rs.message
    ensures rs.Threw? && rs.message.None? ==> r.error == Some(FailedToLoad)
    ensures r.data.Some? ==> r.data.value.tasks == rs.tasks.data.GetOr([])
                             && r.data.value.habitDefinitions == rs.habits.data.GetOr([])
  {
    var target := date.GetOr(serverToday);
    if rs.Threw? then FetchResult(None, Some(rs.message.GetOr(FailedToLoad)))
    else if AnyFailed(rs) then FetchResult(None, FirstError(rs))
    else FetchResult(Some(Assemble(target, rs)), None)
  }

  /** A failed read is reported by its own message, and it is the earliest
      failed read in the order log, tasks, habits, logs, settings. */
  lemma FailureReported(date: Option<string>, serverToday: string, rs: Replies)
    requires rs.Replies? && AnyFailed(rs)
    ensures var e := FetchFullDashboardData(date, serverToday, rs).error;
            e.Some? &&
            (e == rs.log.error || e == rs.tasks.error || e == rs.habits.error
             || e == rs.logs365.error || e == rs.settings.error)
    ensures rs.log.error.Some? ==> FetchFullDashboardData(date, serverToday, rs).error == rs.log.error
    ensures rs.log.error.None? && rs.tasks.error.None? && rs.habits.error.None? && rs.logs365.error.None?
            ==> FetchFullDashboardData(date, serverToday, rs).error == rs.settings.error
    ensures forall k :: 0 <= k < 5 && ReadErrors(rs)[k].Some? && (forall j :: 0 <= j < k ==> ReadErrors(rs)[j].None?)
              ==> FetchFullDashboardData(date, serverToday, rs).error == ReadErrors(rs)[k]
  {
    var errs := ReadErrors(rs);
    forall k | 0 <= k < 5 && errs[k].Some? && (forall j :: 0 <= j < k ==> errs[j].None?)
      ensures FetchFullDashboardData(date, serverToday, rs).error == errs[k]
    {
      if k > 0 { assert errs[0].None?; }
      if k > 1 { assert errs[1].None?; }
      if k > 2 { assert errs[2].None?; }
      if k > 3 { assert errs[3].None?; }
    }
  }

  /** The log returned is always for the target date; its other fields come
      from the server row if there is one, otherwise it is empty. */
  lemma DailyLogForTarget(date: Option<string>, serverToday: string, rs: Replies)
    requires rs.Replies? && !AnyFailed(rs)
    ensures var d := FetchFullDashboardData(date, serverToday, rs).data.value;
            d.dailyLog.date == date.GetOr(serverToday) &&
            (rs.log.data.Some? ==> d.dailyLog == rs.log.data.value.(date := date.GetOr(serverToday))) &&
            (rs.log.data.None? ==> d.dailyLog == EmptyDailyLog(date.GetOr(serverToday)))
  {
  }

  /** The settings row reaches the result exactly when every read succeeded
      and the settings read returned a row. */
  lemma SettingsForwarded(date: Option<string>, serverToday: string, rs: Replies)
    ensures var d := FetchFullDashboardData(date, serverToday, rs).data;
            (d.Some? && d.value.userSettings.Some?) <==> rs.Replies? && !AnyFailed(rs) && rs.settings.data.Some?
    ensures var d := FetchFullDashboardData(date, serverToday, rs).data;
            d.Some? ==> d.value.userSettings == rs.settings.data
  {
  }

  /** The windows: the full list is the fetched logs in date order (a stable
      permutation), each shorter window is the latest part of every longer
      one, and no log left out of a window is dated after one inside it. */
  lemma WindowsFacts(date: Option<string>, serverToday: string, rs: Replies)
    requires rs.Replies? && !AnyFailed(rs)
    ensures var d := FetchFullDashboardData(date, serverToday, rs).data.value;
            var all := rs.logs365.data.GetOr([]);
            multiset(d.last365) == multiset(all) &&
            SortedBy(d.last365, LogDate) &&
            (forall k :: WithKey(d.last365, LogDate, k) == WithKey(all, LogDate, k)) &&
            |d.last7| == Min(7, |all|) && |d.last28| == Min(28, |all|) &&
            |d.last91| == Min(91, |all|) && |d.last180| == Min(180, |all|) &&
            d.last7 == LastN(d.last28, 7) && d.last28 == LastN(d.last91, 28) &&
            d.last91 == LastN(d.last180, 91) && d.last180 == LastN(d.last365, 180)
    ensures var d := FetchFullDashboardData(date, serverToday, rs).data.value;
            LatestFirstOut(d.last365, 7) && LatestFirstOut(d.last365, 28) &&
            LatestFirstOut(d.last365, 91) && LatestFirstOut(d.last365, 180)
  {
    var all := rs.logs365.data.GetOr([]);
    var sorted := SortBy(all, LogDate);
    SortByIsSorted(all, LogDate);
    forall k ensures WithKey(sorted, LogDate, k) == WithKey(all, LogDate, k) {
      SortByIsStable(all, LogDate, k);
    }
    LastNSuffix(sorted, 28, 7);
    LastNSuffix(sorted, 91, 28);
    LastNSuffix(sorted, 180, 91);
    LastNSuffix(sorted, 365, 180);
    WindowLatest(sorted, 7);
    WindowLatest(sorted, 28);
    WindowLatest(sorted, 91);
    WindowLatest(sorted, 180);
  }

  function Min(a: int, b: int): int
  {
    if a < b then a else b
  }

  /** Every log outside the last n is dated no later than every log inside. */
  ghost predicate LatestFirstOut(s: seq<DailyLog>, n: nat)
    requires n > 0
  {
    var w := LastN(s, n);
    forall i, j :: 0 <= i < |s| - |w| <= j < |s| ==> !Less(s[j].date, s[i].date)
  }

  lemma WindowLatest(s: seq<DailyLog>, n: nat)
    requires n > 0 && SortedBy(s, LogDate)
    ensures LatestFirstOut(s, n)
  {
    var w := LastN(s, n);
    LastNSuffix(s, n, n);
    forall i, j | 0 <= i < |s| - |w| <= j < |s| ensures !Less(s[j].date, s[i].date) {
      assert LogDate(s[j]) == s[j].date && LogDate(s[i]) == s[i].date;
    }
  }
}

=== FILE: date_utils.dfy ===
/**
 * Calendar helpers: local date keys ("YYYY-MM-DD"), durations and the lists
 * of date and month keys the charts and heatmaps iterate over. Dates are
 * proleptic Gregorian calendar dates; "today" and the current month are
 * parameters.
 */
module DateUtils {
  import opened Wrappers
  import opened Text

  /** A calendar date; `month` is 1-based, as in the keys. */
  datatype Date = Date(year: int, month: nat, day: nat)

  /** `(y % 4 === 0 && y % 100 !== 0) || y % 400 === 0` */
  predicate IsLeap(y: int)
  {
    (y % 4 == 0 && y % 100 != 0) || y % 400 == 0
  }

  function YearLength(y: int): int
  {
    if IsLeap(y) then 366 else 365
  }

  /** The `daysInMonth` table of `getDateStringsForYear`. */
  function MonthLengths(y: int): seq<int>
  {
    [31, if IsLeap(y) then 29 else 28, 31, 30, 31, 30, 31, 31, 30, 31, 30, 31]
  }

  function DaysInMonth(y: int, m: int): (n: int)
    requires 1 <= m <= 12
    ensures 28 <= n <= 31
  {
    if m == 2 then (if IsLeap(y) then 29 else 28)
    else if m == 4 || m == 6 || m == 9 || m == 11 then 30
    else 31
  }

  lemma MonthLengthsTable(y: int, m: int)
    requires 1 <= m <= 12
    ensures MonthLengths(y)[m - 1] == DaysInMonth(y, m)
  {
  }

  predicate Valid(d: Date)
  {
    1 <= d.month <= 12 && 1 <= d.day <= DaysInMonth(d.year, d.month)
  }

  /** Days of the year before the first of month m (m = 13: the whole year). */
  function DaysBeforeMonth(y: int, m: int): int
    requires 1 <= m <= 13
  {
    if m == 1 then 0 else DaysBeforeMonth(y, m - 1) + DaysInMonth(y, m - 1)
  }

  lemma MonthsFillYear(y: int)
    ensures DaysBeforeMonth(y, 13) == YearLength(y)
  {
    var f := if IsLeap(y) then 29 else 28;
    assert DaysBeforeMonth(y, 2) == 31;
    assert DaysBeforeMonth(y, 3) == 31 + f;
    assert DaysBeforeMonth(y, 4) == 62 + f;
    assert DaysBeforeMonth(y, 5) == 92 + f;
    assert DaysBeforeMonth(y, 6) == 123 + f;
    assert DaysBeforeMonth(y, 7) == 153 + f;
    assert DaysBeforeMonth(y, 8) == 184 + f;
    assert DaysBeforeMonth(y, 9) == 215 + f;
    assert DaysBeforeMonth(y, 10) == 245 + f;
    assert DaysBeforeMonth(y, 11) == 276 + f;
    assert DaysBeforeMonth(y, 12) == 306 + f;
  }

  lemma {:induction false} DaysBeforeMonthMono(y: int, m: int, n: int)
    requires 1 <= m <= n <= 13
    ensures DaysBeforeMonth(y, m) <= DaysBeforeMonth(y, n)
    decreases n - m
  {
    if m < n {
      DaysBeforeMonthMono(y, m, n - 1);
    }
  }

  /** Days from 2000-01-01 to the first of January of year y. */
  function DaysBeforeYear(y: int): int
    decreases if y >= 2000 then y - 2000 else 2000 - y
  {
    if y == 2000 then 0
    else if y > 2000 then DaysBeforeYear(y - 1) + YearLength(y - 1)
    else DaysBeforeYear(y + 1) - YearLength(y)
  }

  lemma DaysBeforeNextYear(y: int)
    ensures DaysBeforeYear(y + 1) == DaysBeforeYear(y) + YearLength(y)
  {
  }

  lemma {:induction false} DaysBeforeYearMono(y: int, z: int)
    requires y < z
    ensures DaysBeforeYear(y) + YearLength(y) <= DaysBeforeYear(z)
    decreases z - y
  {
    DaysBeforeNextYear(y);
    if y + 1 < z {
      DaysBeforeYearMono(y + 1, z);
    }
  }

  /** Day number of a date, counted from 2000-01-01 (day 0). */
  function Ordinal(d: Date): int
    requires Valid(d)
  {
    DaysBeforeYear(d.year) + DaysBeforeMonth(d.year, d.month) + d.day - 1
  }

  /** A date's day number lies within its year. */
  lemma OrdinalInYear(d: Date)
    requires Valid(d)
    ensures DaysBeforeYear(d.year) <= Ordinal(d) < DaysBeforeYear(d.year) + YearLength(d.year)
  {
    assert DaysBeforeMonth(d.year, d.month + 1) == DaysBeforeMonth(d.year, d.month) + DaysInMonth(d.year, d.month);
    DaysBeforeMonthMono(d.year, d.month + 1, 13);
    MonthsFillYear(d.year);
    assert Ordinal(d) == DaysBeforeYear(d.year) + DaysBeforeMonth(d.year, d.month) + d.day - 1;
    assert DaysBeforeMonth(d.year, d.month) >= 0 by { DaysBeforeMonthMono(d.year, 1, d.month); }
  }

  /** Calendar order. */
  predicate Before(a: Date, b: Date)
  {
    a.year < b.year || (a.year == b.year && (a.month < b.month || (a.month == b.month && a.day < b.day)))
  }

  lemma BeforeOrdinal(a: Date, b: Date)
    requires Valid(a) && Valid(b) && Before(a, b)
    ensures Ordinal(a) < Ordinal(b)
  {
    OrdinalInYear(a);
    OrdinalInYear(b);
    if a.year < b.year {
      DaysBeforeYearMono(a.year, b.year);
    } else if a.month < b.month {
      DaysBeforeMonthMono(a.year, a.month + 1, b.month);
    }
  }

  /** Day numbers order dates as the calendar does, and tell them apart. */
  lemma OrdinalOrder(a: Date, b: Date)
    requires Valid(a) && Valid(b)
    ensures Ordinal(a) < Ordinal(b) <==> Before(a, b)
    ensures Ordinal(a) == Ordinal(b) <==> a == b
  {
    if Before(a, b) {
      BeforeOrdinal(a, b);
    } else if Before(b, a) {
      BeforeOrdinal(b, a);
    }
  }

  /** Different dates have different day numbers. */
  lemma OrdinalInjective(a: Date, b: Date)
    requires Valid(a) && Valid(b) && Ordinal(a) == Ordinal(b)
    ensures a == b
  {
    if Before(a, b) {
      BeforeOrdinal(a, b);
    } else if Before(b, a) {
      BeforeOrdinal(b, a);
    }
  }

  /** `d.setDate(d.getDate() + 1)` */
  function NextDay(d: Date): (r: Date)
    requires Valid(d)
    ensures Valid(r)
  {
    if d.day < DaysInMonth(d.year, d.month) then d.(day := d.day + 1)
    else if d.month < 12 then Date(d.year, d.month + 1, 1)
    else Date(d.year + 1, 1, 1)
  }

  lemma NextDayOrdinal(d: Date)
    requires Valid(d)
    ensures Ordinal(NextDay(d)) == Ordinal(d) + 1
  {
    if d.day == DaysInMonth(d.year, d.month) && d.month == 12 {
      MonthsFillYear(d.year);
      DaysBeforeNextYear(d.year);
    }
  }

  /** `d.setDate(d.getDate() - 1)` */
  function PrevDay(d: Date): (r: Date)
    requires Valid(d)
    ensures Valid(r)
  {
    if d.day > 1 then d.(day := d.day - 1)
    else if d.month > 1 then Date(d.year, d.month - 1, DaysInMonth(d.year, d.month - 1))
    else Date(d.year - 1, 12, 31)
  }

  lemma PrevDayOrdinal(d: Date)
    requires Valid(d)
    ensures Ordinal(PrevDay(d)) == Ordinal(d) - 1
  {
    if d.day == 1 && d.month == 1 {
      MonthsFillYear(d.year - 1);
      DaysBeforeNextYear(d.year - 1);
    }
  }

  /** `d.setDate(d.getDate() + n)`: n days later (earlier for negative n). */
  function AddDays(d: Date, n: int): (r: Date)
    requires Valid(d)
    ensures Valid(r)
    decreases if n >= 0 then n else -n
  {
    if n == 0 then d
    else if n > 0 then NextDay(AddDays(d, n - 1))
    else PrevDay(AddDays(d, n + 1))
  }

  /** n days later is n day numbers later. */
  lemma {:induction false} AddDaysOrdinal(d: Date, n: int)
    requires Valid(d)
    ensures Ordinal(AddDays(d, n)) == Ordinal(d) + n
    decreases if n >= 0 then n else -n
  {
    if n > 0 {
      AddDaysOrdinal(d, n - 1);
      NextDayOrdinal(AddDays(d, n - 1));
    } else if n < 0 {
      AddDaysOrdinal(d, n + 1);
      PrevDayOrdinal(AddDays(d, n + 1));
    }
  }

  /** Adding days composes. */
  lemma AddDaysAdd(d: Date, m: int, n: int)
    requires Valid(d)
    ensures AddDays(AddDays(d, m), n) == AddDays(d, m + n)
  {
    AddDaysOrdinal(d, m);
    AddDaysOrdinal(AddDays(d, m), n);
    AddDaysOrdinal(d, m + n);
    OrdinalInjective(AddDays(AddDays(d, m), n), AddDays(d, m + n));
  }

  /** `getDay()`: 0 for Sunday through 6 for Saturday; 2000-01-01 was a Saturday. */
  function DayOfWeek(d: Date): (w: int)
    requires Valid(d)
    ensures 0 <= w < 7
  {
    (Ordinal(d) + 6) % 7
  }

  lemma DayOfWeekAdd(d: Date, n: int)
    requires Valid(d)
    ensures DayOfWeek(AddDays(d, n)) == (DayOfWeek(d) + n) % 7
  {
    AddDaysOrdinal(d, n);
    var x := Ordinal(d) + 6;
    ModAdd(x, n);
  }

  lemma ModAdd(x: int, n: int)
    ensures (x + n) % 7 == (x % 7 + n) % 7
  {
    var q := x / 7;
    assert x == 7 * q + x % 7;
    assert x + n == 7 * q + (x % 7 + n);
  }

  // ---------------------------------------------------------------------
  // Keys

  /** `getLocalDateKey`: the year, then month and day padded to two digits. */
  function DateKey(d: Date): string
  {
    IntToString(d.year) + ("-" + (Pad2(d.month) + ("-" + Pad2(d.day))))
  }

  /** Keys of dates in four-digit years sort as the dates do: this is why the
      store may order logs by comparing their date strings. */
  lemma DateKeyOrder(a: Date, b: Date)
    requires Valid(a) && Valid(b) && 1000 <= a.year <= 9999 && 1000 <= b.year <= 9999
    requires Before(a, b)
    ensures Less(DateKey(a), DateKey(b))
  {
    var ya, yb := IntToString(a.year), IntToString(b.year);
    var ra := Pad2(a.month) + ("-" + Pad2(a.day));
    var rb := Pad2(b.month) + ("-" + Pad2(b.day));
    if a.year < b.year {
      FourDigits(a.year);
      FourDigits(b.year);
      FourDigitsLess(a.year, b.year);
      LessExtend(ya, yb, "-" + ra, "-" + rb);
    } else {
      LessPrefix(ya, "-" + ra, "-" + rb);
      LessPrefix("-", ra, rb);
      if a.month < b.month {
        Pad2Shape(a.month);
        Pad2Shape(b.month);
        Pad2Less(a.month, b.month);
        LessExtend(Pad2(a.month), Pad2(b.month), "-" + Pad2(a.day), "-" + Pad2(b.day));
      } else {
        LessPrefix(Pad2(a.month), "-" + Pad2(a.day), "-" + Pad2(b.day));
        LessPrefix("-", Pad2(a.day), Pad2(b.day));
        Pad2Less(a.day, b.day);
      }
    }
  }

  /** `calculateDurationHours` on instants given in milliseconds; `None`
      stands for a missing (null or empty) timestamp. `differenceInMinutes`
      truncates toward zero. */
  function DurationHours(start: Option<int>, end: Option<int>): (h: real)
    ensures h >= 0.0
    ensures start.None? || end.None? ==> h == 0.0
  {
    if start.None? || end.None? then 0.0
    else
      var minutes := TruncDiv(end.value - start.value, 60000);
      if minutes <= 0 then 0.0 else minutes as real / 60.0
  }

  /** Integer division rounding toward zero, as `Math.trunc(a / b)`. */
  function TruncDiv(a: int, b: int): (q: int)
    requires b > 0
    ensures a >= 0 ==> q >= 0
    ensures a <= 0 ==> q <= 0
  {
    if a >= 0 then a / b else -((-a) / b)
  }

  /** Unlike Dafny's `/`, truncation is symmetric around zero. */
  lemma TruncDivSymmetric(a: int, b: int)
    requires b > 0
    ensures TruncDiv(-a, b) == -TruncDiv(a, b)
  {
  }

  /** A session is as long as whole minutes between its ends allow, and one
      that ends before it starts lasts nothing. */
  lemma DurationBounds(start: int, end: int)
    ensures end <= start ==> DurationHours(Some(start), Some(end)) == 0.0
    ensures end - start >= 60000 ==>
              DurationHours(Some(start), Some(end)) == TruncDiv(end - start, 60000) as real / 60.0
  {
  }

  // ---------------------------------------------------------------------
  // Lists of date keys

  /** f applied to n consecutive days starting at `start`. */
  function DayRun<T>(f: Date -> T, start: Date, n: nat): (r: seq<T>)
    requires Valid(start)
    ensures |r| == n
  {
    if n == 0 then [] else DayRun(f, start, n - 1) + [f(AddDays(start, n - 1))]
  }

  /** The keys of n consecutive days starting at `start`. */
  function KeysFrom(start: Date, n: nat): (r: seq<string>)
    requires Valid(start)
  {
    DayRun(DateKey, start, n)
  }

  lemma {:induction false} DayRunIndex<T>(f: Date -> T, start: Date, n: nat, i: nat)
    requires Valid(start) && i < n
    ensures DayRun(f, start, n)[i] == f(AddDays(start, i))
  {
    if i < n - 1 {
      DayRunIndex(f, start, n - 1, i);
    }
  }

  lemma KeysFromIndex(start: Date, n: nat, i: nat)
    requires Valid(start) && i < n
    ensures |KeysFrom(start, n)| == n && KeysFrom(start, n)[i] == DateKey(AddDays(start, i))
  {
    DayRunIndex(DateKey, start, n, i);
  }

  /** Consecutive day keys are strictly ascending while the years have four digits. */
  lemma KeysFromAscending(start: Date, n: nat)
    requires Valid(start) && 0 < n && 1000 <= start.year && AddDays(start, n - 1).year <= 9999
    ensures forall i, j :: 0 <= i < j < n ==> Less(KeysFrom(start, n)[i], KeysFrom(start, n)[j])
  {
    forall i, j | 0 <= i < j < n ensures Less(KeysFrom(start, n)[i], KeysFrom(start, n)[j]) {
      KeysFromIndex(start, n, i);
      KeysFromIndex(start, n, j);
      DaysInOrder(start, n - 1, i, j);
    }
  }

  /** Two days within a run whose ends have four-digit years have keys in order. */
  lemma DaysInOrder(start: Date, last: nat, i: nat, j: nat)
    requires Valid(start) && i < j <= last && 1000 <= start.year && AddDays(start, last).year <= 9999
    ensures Less(DateKey(AddDays(start, i)), DateKey(AddDays(start, j)))
  {
    var a, b, z := AddDays(start, i), AddDays(start, j), AddDays(start, last);
    AddDaysOrdinal(start, i);
    AddDaysOrdinal(start, j);
    AddDaysOrdinal(start, last);
    OrdinalOrder(a, b);
    assert start.year <= a.year by { if i > 0 { OrdinalOrder(start, a); } }
    assert b.year <= z.year by { if j < last { OrdinalOrder(b, z); } }
    DateKeyOrder(a, b);
  }

  /** `dates.push(getLocalDateKey(d))` where d is the next day of the run of
      keys that starts at `start`. */
  method PushKey(dates: seq<string>, d: Date, ghost start: Date) returns (r: seq<string>)
    requires Valid(start) && Valid(d) && AddDays(start, |dates|) == d
    requires dates == KeysFrom(start, |dates|)
    ensures |r| == |dates| + 1 && r == KeysFrom(start, |r|)
  {
    r := dates + [DateKey(d)];
  }

  /** `getLastNDateStrings(days)` for the given today. */
  method LastNDateStrings(today: Date, days: int) returns (dates: seq<string>)
    requires Valid(today)
    ensures var n := if days > 0 then days else 0;
            dates == KeysFrom(AddDays(today, 1 - n), n)
  {
    ghost var n := if days > 0 then days else 0;
    ghost var start := AddDays(today, 1 - n);
    dates := [];
    var i := days - 1;
    while i >= 0
      invariant |dates| <= n && i == days - 1 - |dates|
      invariant dates == KeysFrom(start, |dates|)
    {
      var d := AddDays(today, -i);
      AddDaysAdd(today, 1 - n, |dates|);
      dates := PushKey(dates, d, start);
      i := i - 1;
    }
  }

  /** The last N days end today, one key per day. */
  lemma LastNEndsToday(today: Date, n: nat)
    requires Valid(today) && n > 0
    ensures KeysFrom(AddDays(today, 1 - n), n)[n - 1] == DateKey(today)
  {
    AddDaysAdd(today, 1 - n, n - 1);
    assert AddDays(today, 0) == today;
  }

  /** `getDateStringsCenteredOnToday(daysBack, daysFwd)`. */
  method DateStringsCenteredOnToday(today: Date, daysBack: int, daysFwd: int) returns (dates: seq<string>)
    requires Valid(today)
    ensures var n := if daysBack + daysFwd + 1 > 0 then daysBack + daysFwd + 1 else 0;
            dates == KeysFrom(AddDays(today, -daysBack), n)
  {
    ghost var n := if daysBack + daysFwd + 1 > 0 then daysBack + daysFwd + 1 else 0;
    ghost var start := AddDays(today, -daysBack);
    dates := [];
    var i := -daysBack;
    while i <= daysFwd
      invariant |dates| <= n && i == |dates| - daysBack
      invariant dates == KeysFrom(start, |dates|)
    {
      var d := AddDays(today, i);
      AddDaysAdd(today, -daysBack, |dates|);
      dates := PushKey(dates, d, start);
      i := i + 1;
    }
  }

  /** Today sits at index daysBack, with daysFwd keys after it. */
  lemma CenteredOnToday(today: Date, daysBack: nat, daysFwd: nat)
    requires Valid(today)
    ensures KeysFrom(AddDays(today, 0 - daysBack), daysBack + daysFwd + 1)[daysBack] == DateKey(today)
  {
    KeysFromIndex(AddDays(today, 0 - daysBack), daysBack + daysFwd + 1, daysBack);
    AddDaysAdd(today, 0 - daysBack, daysBack);
    assert AddDays(today, 0) == today;
  }

  /** The first of January is day 0 of its year: day k of the year is
      `DaysBeforeMonth + day - 1`. */
  lemma DayOfYear(d: Date)
    requires Valid(d)
    ensures AddDays(Date(d.year, 1, 1), DaysBeforeMonth(d.year, d.month) + d.day - 1) == d
  {
    var jan1 := Date(d.year, 1, 1);
    var k := DaysBeforeMonth(d.year, d.month) + d.day - 1;
    assert Ordinal(jan1) == DaysBeforeYear(d.year);
    assert Ordinal(d) == Ordinal(jan1) + k;
    AddDaysOrdinal(jan1, k);
    OrdinalInjective(AddDays(jan1, k), d);
  }

  /** A date whose day number falls within year y is in year y. */
  lemma YearOfOrdinal(x: Date, y: int)
    requires Valid(x) && DaysBeforeYear(y) <= Ordinal(x) < DaysBeforeYear(y) + YearLength(y)
    ensures x.year == y
  {
    OrdinalInYear(x);
    if x.year < y {
      DaysBeforeYearMono(x.year, y);
    } else if x.year > y {
      DaysBeforeYearMono(y, x.year);
    }
  }

  /** `getDateStringsForYear(year)`: month by month through the
      `daysInMonth` table, `${year}-${pad(m + 1)}-${pad(d)}`. */
  method DateStringsForYear(year: int) returns (dates: seq<string>)
    ensures dates == KeysFrom(Date(year, 1, 1), YearLength(year))
    ensures |dates| == 366 <==> IsLeap(year)
  {
    var daysInMonth := MonthLengths(year);
    dates := [];
    var m := 0;
    while m < 12
      invariant 0 <= m <= 12
      invariant |dates| == DaysBeforeMonth(year, m + 1) && dates == KeysFrom(Date(year, 1, 1), |dates|)
    {
      MonthLengthsTable(year, m + 1);
      dates := PushMonth(dates, year, m + 1, daysInMonth[m]);
      m := m + 1;
    }
    MonthsFillYear(year);
  }

  /** The inner loop of `getDateStringsForYear`: the days 1 to `len` of a month. */
  method PushMonth(dates: seq<string>, year: int, month: int, len: int) returns (r: seq<string>)
    requires 1 <= month <= 12 && len == DaysInMonth(year, month)
    requires |dates| == DaysBeforeMonth(year, month) && dates == KeysFrom(Date(year, 1, 1), |dates|)
    ensures |r| == DaysBeforeMonth(year, month + 1) && r == KeysFrom(Date(year, 1, 1), |r|)
  {
    r := dates;
    var d := 1;
    while d <= len
      invariant 1 <= d <= len + 1
      invariant |r| == DaysBeforeMonth(year, month) + d - 1 && r == KeysFrom(Date(year, 1, 1), |r|)
    {
      DayOfYear(Date(year, month, d));
      r := PushKey(r, Date(year, month, d), Date(year, 1, 1));
      d := d + 1;
    }
  }

  /** Every date of the year has its key in the list, at its day of the year. */
  lemma YearKeysIndex(d: Date)
    requires Valid(d)
    ensures var k := DaysBeforeMonth(d.year, d.month) + d.day - 1;
            0 <= k < YearLength(d.year) && KeysFrom(Date(d.year, 1, 1), YearLength(d.year))[k] == DateKey(d)
  {
    var k := DaysBeforeMonth(d.year, d.month) + d.day - 1;
    OrdinalInYear(d);
    DayOfYear(d);
    KeysFromIndex(Date(d.year, 1, 1), YearLength(d.year), k);
  }

  /** Every key of the list is a date of that year. */
  lemma YearKeysInYear(year: int, k: nat)
    requires k < YearLength(year)
    ensures AddDays(Date(year, 1, 1), k).year == year
    ensures KeysFrom(Date(year, 1, 1), YearLength(year))[k] == DateKey(AddDays(Date(year, 1, 1), k))
  {
    var jan1 := Date(year, 1, 1);
    AddDaysOrdinal(jan1, k);
    YearOfOrdinal(AddDays(jan1, k), year);
    KeysFromIndex(jan1, YearLength(year), k);
  }

  /** For a four-digit year the keys are strictly ascending. */
  lemma YearKeysAscending(year: int)
    requires 1000 <= year <= 9999
    ensures var keys := KeysFrom(Date(year, 1, 1), YearLength(year));
            forall i, j :: 0 <= i < j < |keys| ==> Less(keys[i], keys[j])
  {
    YearKeysInYear(year, YearLength(year) - 1);
    KeysFromAscending(Date(year, 1, 1), YearLength(year));
  }

  // ---------------------------------------------------------------------
  // Heatmap weeks

  /** `new Date(year, month, day)` reads a year from 0 to 99 as 1900 + year. */
  function JsYear(year: int): int
  {
    if 0 <= year <= 99 then 1900 + year else year
  }

  /** The Sunday on or before the first of January. */
  function WeeksStart(year: int): (d: Date)
    ensures Valid(d)
  {
    var jan1 := Date(JsYear(year), 1, 1);
    AddDays(jan1, -DayOfWeek(jan1))
  }

  /** The Saturday on or after the thirty-first of December. */
  function WeeksEnd(year: int): (d: Date)
    ensures Valid(d)
  {
    var dec31 := Date(JsYear(year), 12, 31);
    AddDays(dec31, 6 - DayOfWeek(dec31))
  }

  /** The span runs from the start of the Sunday week of the first of
      January, through the year, to the end of the Saturday week of the
      thirty-first of December. */
  lemma WeeksSpan(year: int)
    ensures var y := JsYear(year);
            Ordinal(WeeksStart(year)) == DaysBeforeYear(y) - DayOfWeek(Date(y, 1, 1)) &&
            Ordinal(WeeksEnd(year)) == DaysBeforeYear(y) + YearLength(y) - 1 + 6 - DayOfWeek(Date(y, 12, 31))
  {
    var y := JsYear(year);
    var jan1, dec31 := Date(y, 1, 1), Date(y, 12, 31);
    AddDaysOrdinal(jan1, -DayOfWeek(jan1));
    AddDaysOrdinal(dec31, 6 - DayOfWeek(dec31));
    MonthsFillYear(y);
    assert DaysBeforeMonth(y, 13) == DaysBeforeMonth(y, 12) + 31;
  }

  /** Number of days from `WeeksStart` through `WeeksEnd`. */
  function WeeksLength(year: int): (n: nat)
  {
    WeeksSpan(year);
    Ordinal(WeeksEnd(year)) - Ordinal(WeeksStart(year)) + 1
  }

  /** `getDateStringsForYearByWeeks(year)`: from the Sunday before the first
      of January to the Saturday after the thirty-first of December, one day
      at a time. */
  method DateStringsForYearByWeeks(year: int) returns (dates: seq<string>)
    ensures dates == KeysFrom(WeeksStart(year), WeeksLength(year))
  {
    var startSun := WeeksStart(year);
    var endSat := WeeksEnd(year);
    ghost var n := WeeksLength(year);
    dates := [];
    var d := startSun;
    while Ordinal(d) <= Ordinal(endSat)
      invariant Valid(d) && d == AddDays(startSun, |dates|) && Ordinal(d) == Ordinal(startSun) + |dates|
      invariant |dates| <= n && dates == KeysFrom(startSun, |dates|)
      decreases Ordinal(endSat) - Ordinal(d)
    {
      dates := PushKey(dates, d, startSun);
      NextDayOrdinal(d);
      d := NextDay(d);
    }
  }

  lemma WeeksStartSunday(year: int)
    ensures DayOfWeek(WeeksStart(year)) == 0
  {
    var jan1 := Date(JsYear(year), 1, 1);
    DayOfWeekAdd(jan1, -DayOfWeek(jan1));
  }

  lemma WeeksEndSaturday(year: int)
    ensures DayOfWeek(WeeksEnd(year)) == 6
  {
    var dec31 := Date(JsYear(year), 12, 31);
    DayOfWeekAdd(dec31, 6 - DayOfWeek(dec31));
  }

  /** The span starts on a Sunday, ends on a Saturday, is made of whole
      weeks, and adds fewer than a week on either side of the year. */
  lemma WeeksShape(year: int)
    ensures DayOfWeek(WeeksStart(year)) == 0 && DayOfWeek(WeeksEnd(year)) == 6
    ensures WeeksLength(year) % 7 == 0
    ensures YearLength(JsYear(year)) <= WeeksLength(year) <= YearLength(JsYear(year)) + 12
  {
    WeeksStartSunday(year);
    WeeksEndSaturday(year);
    WeeksSpan(year);
    var s, e := WeeksStart(year), WeeksEnd(year);
    WholeWeeks(s, e);
    assert WeeksLength(year) == Ordinal(e) - Ordinal(s) + 1;
  }

  /** From a Sunday to a later Saturday is a whole number of weeks. */
  lemma WholeWeeks(s: Date, e: Date)
    requires Valid(s) && Valid(e) && DayOfWeek(s) == 0 && DayOfWeek(e) == 6
    ensures (Ordinal(e) - Ordinal(s) + 1) % 7 == 0
  {
    var a, b := Ordinal(s) + 6, Ordinal(e) + 6;
    var p, q := a / 7, b / 7;
    assert a == 7 * p;
    assert b == 7 * q + 6;
    assert Ordinal(e) - Ordinal(s) + 1 == 7 * (q - p + 1);
  }

  /** Every date of the year appears, at its distance from the starting Sunday. */
  lemma WeeksCoverYear(year: int, d: Date)
    requires Valid(d) && d.year == JsYear(year)
    ensures var k := Ordinal(d) - Ordinal(WeeksStart(year));
            0 <= k < WeeksLength(year) && KeysFrom(WeeksStart(year), WeeksLength(year))[k] == DateKey(d)
  {
    var start := WeeksStart(year);
    var k := Ordinal(d) - Ordinal(start);
    WeeksSpan(year);
    OrdinalInYear(d);
    AddDaysOrdinal(start, k);
    OrdinalInjective(AddDays(start, k), d);
    KeysFromIndex(start, WeeksLength(year), k);
  }

  // ---------------------------------------------------------------------
  // Month keys

  /** `${m.getFullYear()}-${pad(m.getMonth() + 1)}` for the month with index
      `year * 12 + month0`; Euclidean division by 12 carries month overflow
      into the year as the `Date` constructor does. */
  function MonthKey(index: int): string
  {
    IntToString(index / 12) + ("-" + Pad2(index % 12 + 1))
  }

  /** f at n consecutive integers starting at `first`. */
  function IntRun<T>(f: int -> T, first: int, n: nat): (r: seq<T>)
    ensures |r| == n
  {
    if n == 0 then [] else IntRun(f, first, n - 1) + [f(first + n - 1)]
  }

  lemma {:induction false} IntRunIndex<T>(f: int -> T, first: int, n: nat, i: nat)
    requires i < n
    ensures IntRun(f, first, n)[i] == f(first + i)
  {
    if i < n - 1 {
      IntRunIndex(f, first, n - 1, i);
    }
  }

  /** `keys.push(...)` for the month index that follows the run. */
  method PushMonthKey(keys: seq<string>, index: int, ghost first: int) returns (r: seq<string>)
    requires index == first + |keys| && keys == IntRun(MonthKey, first, |keys|)
    ensures |r| == |keys| + 1 && r == IntRun(MonthKey, first, |r|)
  {
    r := keys + [MonthKey(index)];
  }

  /** The month index of the month that contains `today`. */
  function MonthIndex(today: Date): int
  {
    JsYear(today.year) * 12 + today.month - 1
  }

  /** `getLastNMonthKeys(n)` for the given today. */
  method LastNMonthKeys(today: Date, n: int) returns (keys: seq<string>)
    requires Valid(today)
    ensures var c := if n > 0 then n else 0;
            keys == IntRun(MonthKey, MonthIndex(today) - c + 1, c)
  {
    ghost var c := if n > 0 then n else 0;
    var base := JsYear(today.year) * 12 + (today.month - 1);
    keys := [];
    var i := n - 1;
    while i >= 0
      invariant |keys| <= c && i == n - 1 - |keys|
      invariant keys == IntRun(MonthKey, base - c + 1, |keys|)
    {
      keys := PushMonthKey(keys, base - i, base - c + 1);
      i := i - 1;
    }
  }

  /** The last key is the current month's. */
  lemma LastMonthIsCurrent(today: Date, n: nat)
    requires Valid(today) && n > 0 && today.year >= 100
    ensures IntRun(MonthKey, MonthIndex(today) - n + 1, n)[n - 1] == IntToString(today.year) + ("-" + Pad2(today.month))
  {
    IntRunIndex(MonthKey, MonthIndex(today) - n + 1, n, n - 1);
    var x := MonthIndex(today);
    assert x == today.year * 12 + (today.month - 1);
    assert x / 12 == today.year && x % 12 == today.month - 1;
  }

  /** Within four-digit years, month keys sort as their indices. */
  lemma MonthKeyOrder(a: int, b: int)
    requires a < b && 1000 <= a / 12 && b / 12 <= 9999
    ensures Less(MonthKey(a), MonthKey(b))
  {
    var ya, yb := IntToString(a / 12), IntToString(b / 12);
    if a / 12 < b / 12 {
      FourDigits(a / 12);
      FourDigits(b / 12);
      FourDigitsLess(a / 12, b / 12);
      LessExtend(ya, yb, "-" + Pad2(a % 12 + 1), "-" + Pad2(b % 12 + 1));
    } else {
      LessPrefix(ya, "-" + Pad2(a % 12 + 1), "-" + Pad2(b % 12 + 1));
      LessPrefix("-", Pad2(a % 12 + 1), Pad2(b % 12 + 1));
      Pad2Less(a % 12 + 1, b % 12 + 1);
    }
  }

  /** The keys run from oldest to newest: strictly ascending while the
      years have four digits. */
  lemma MonthKeysAscending(first: int, n: nat)
    requires 0 < n && 1000 <= first / 12 && (first + n - 1) / 12 <= 9999
    ensures forall i, j :: 0 <= i < j < n ==> Less(IntRun(MonthKey, first, n)[i], IntRun(MonthKey, first, n)[j])
  {
    forall i, j | 0 <= i < j < n ensures Less(IntRun(MonthKey, first, n)[i], IntRun(MonthKey, first, n)[j]) {
      IntRunIndex(MonthKey, first, n, i);
      IntRunIndex(MonthKey, first, n, j);
      MonthKeyOrder(first + i, first + j);
    }
  }
}

=== FILE: habit_dedupe.dfy ===
/**
 * `dedupeHabits`: one habit definition per case-insensitive name. A habit with
 * a server (permanent) id replaces a first-seen habit with a temporary id;
 * otherwise the first-seen habit stays. `created_at` is never compared.
 */
module HabitDedupe {
  import opened Wrappers
  import opened Records

  /** `seen.get(key)`: the position of the entry with that name key, or -1. */
  function FindKey(seen: seq<Habit>, k: string): (i: int)
    ensures -1 <= i < |seen|
    ensures i >= 0 ==> NameKey(seen[i]) == k && forall j :: 0 <= j < i ==> NameKey(seen[j]) != k
    ensures i < 0 ==> forall j :: 0 <= j < |seen| ==> NameKey(seen[j]) != k
  {
    if |seen| == 0 then -1
    else if NameKey(seen[0]) == k then 0
    else var r := FindKey(seen[1..], k); if r < 0 then -1 else r + 1
  }

  /** One iteration of the loop: `seen` holds the map's entries in insertion order. */
  function Step(seen: seq<Habit>, h: Habit): seq<Habit>
  {
    var i := FindKey(seen, NameKey(h));
    if i < 0 then seen + [h]
    else if IsTempId(seen[i].id) && !IsTempId(h.id) then seen[i := h]
    else seen
  }

  /** The value `dedupeHabits(habits)` returns. */
  function Deduped(habits: seq<Habit>): seq<Habit>
  {
    if |habits| == 0 then []
    else Step(Deduped(habits[..|habits| - 1]), habits[|habits| - 1])
  }

  method DedupeHabits(habits: seq<Habit>) returns (r: seq<Habit>)
    ensures r == Deduped(habits)
  {
    var seen: seq<Habit> := [];
    for n := 0 to |habits|
      invariant seen == Deduped(habits[..n])
    {
      assert habits[..n + 1][..n] == habits[..n];
      var h := habits[n];
      var key := NameKey(h);
      var existing := FindKey(seen, key);
      if existing < 0 {
        seen := seen + [h];
      } else if IsTempId(seen[existing].id) && !IsTempId(h.id) {
        // Prefer real ID over temp ID
        seen := seen[existing := h];
      }
    }
    assert habits[..|habits|] == habits;
    r := seen;
  }

  // -----------------------------------------------------------------------
  // What the result is

  ghost predicate DistinctNames(hs: seq<Habit>)
  {
    forall i, j :: 0 <= i < j < |hs| ==> NameKey(hs[i]) != NameKey(hs[j])
  }

  function NameKeys(hs: seq<Habit>): set<string>
  {
    set h | h in hs :: NameKey(h)
  }

  /** The first habit with name key k that is permanent (when `permanentOnly`),
      or the first with that key at all. */
  function FirstWith(hs: seq<Habit>, k: string, permanentOnly: bool): (r: Option<Habit>)
    ensures r.Some? ==> exists i :: 0 <= i < |hs| && hs[i] == r.value && NameKey(hs[i]) == k
                                   && (permanentOnly ==> !IsTempId(hs[i].id))
                                   && forall j :: 0 <= j < i ==> !(NameKey(hs[j]) == k && (permanentOnly ==> !IsTempId(hs[j].id)))
    ensures r.None? ==> forall j :: 0 <= j < |hs| ==> !(NameKey(hs[j]) == k && (permanentOnly ==> !IsTempId(hs[j].id)))
  {
    if |hs| == 0 then None
    else
      var q := FirstWith(hs[..|hs| - 1], k, permanentOnly);
      var h := hs[|hs| - 1];
      if q.Some? then q
      else if NameKey(h) == k && (permanentOnly ==> !IsTempId(h.id)) then Some(h)
      else None
  }

  /** The habit that stands for name key k: the first permanent one, else the first one. */
  function Chosen(hs: seq<Habit>, k: string): Option<Habit>
  {
    var p := FirstWith(hs, k, true);
    if p.Some? then p else FirstWith(hs, k, false)
  }

  /** One step keeps names distinct, adds h's name key, and keeps or adds only h. */
  lemma StepFacts(acc: seq<Habit>, h: Habit)
    requires DistinctNames(acc)
    ensures DistinctNames(Step(acc, h))
    ensures NameKeys(Step(acc, h)) == NameKeys(acc) + {NameKey(h)}
    ensures forall x :: x in Step(acc, h) ==> x in acc || x == h
    ensures |Step(acc, h)| <= |acc| + 1
  {
    var i := FindKey(acc, NameKey(h));
    var r := Step(acc, h);
    if i < 0 {
      assert NameKeys(acc + [h]) == NameKeys(acc) + {NameKey(h)};
    } else if IsTempId(acc[i].id) && !IsTempId(h.id) {
      forall x | x in r ensures x in acc || x == h {
        var m :| 0 <= m < |r| && r[m] == x;
        if m != i { assert acc[m] == x; }
      }
      forall key | key in NameKeys(acc) ensures key in NameKeys(r) {
        var y :| y in acc && NameKey(y) == key;
        var m :| 0 <= m < |acc| && acc[m] == y;
        if m == i { assert NameKey(r[m]) == key; } else { assert r[m] == y; }
      }
      forall key | key in NameKeys(r) ensures key in NameKeys(acc) {
        var y :| y in r && NameKey(y) == key;
        var m :| 0 <= m < |r| && r[m] == y;
        if m == i { assert NameKey(acc[m]) == key; } else { assert acc[m] == y; }
      }
    } else {
      assert NameKey(acc[i]) == NameKey(h);
    }
  }

  lemma {:induction false} DedupedFacts(hs: seq<Habit>)
    ensures DistinctNames(Deduped(hs))
    ensures NameKeys(Deduped(hs)) == NameKeys(hs)
    ensures |Deduped(hs)| <= |hs|
    ensures forall x :: x in Deduped(hs) ==> x in hs
  {
    if |hs| > 0 {
      var p := hs[..|hs| - 1];
      var h := hs[|hs| - 1];
      assert hs == p + [h];
      DedupedFacts(p);
      StepFacts(Deduped(p), h);
      assert NameKeys(hs) == NameKeys(p) + {NameKey(h)};
    } else {
      assert NameKeys(hs) == {};
    }
  }

  /** Each habit kept stands for its name as `Chosen` says: the first habit
      with that name that has a server id, or failing that the first one. */
  lemma {:induction false} DedupedChoice(hs: seq<Habit>)
    ensures forall x :: x in Deduped(hs) ==> Chosen(hs, NameKey(x)) == Some(x)
  {
    if |hs| > 0 {
      var p := hs[..|hs| - 1];
      var h := hs[|hs| - 1];
      DedupedChoice(p);
      DedupedFacts(p);
      var acc := Deduped(p);
      var k := NameKey(h);
      var i := FindKey(acc, k);
      var r := Deduped(hs);
      assert r == Step(acc, h);
      forall x | x in r ensures Chosen(hs, NameKey(x)) == Some(x) {
        if NameKey(x) != k {
          assert x in acc by {
            StepFacts(acc, h);
          }
          assert Chosen(hs, NameKey(x)) == Chosen(p, NameKey(x));
        } else if i < 0 {
          assert k !in NameKeys(p);
          assert FirstWith(p, k, false) == None && FirstWith(p, k, true) == None;
          StepFacts(acc, h);
        } else if IsTempId(acc[i].id) && !IsTempId(h.id) {
          assert Chosen(p, k) == Some(acc[i]);
          assert FirstWith(p, k, true) == None;
          assert x == h by {
            var m :| 0 <= m < |r| && r[m] == x;
          }
        } else {
          assert Chosen(p, k) == Some(acc[i]);
          assert x == acc[i] by {
            var m :| 0 <= m < |r| && r[m] == x;
            assert NameKey(acc[m]) == k;
          }
        }
      }
    }
  }

  /** A list whose names are already distinct comes back unchanged. */
  lemma {:induction false} DedupedIdentity(hs: seq<Habit>)
    requires DistinctNames(hs)
    ensures Deduped(hs) == hs
  {
    if |hs| > 0 {
      var p := hs[..|hs| - 1];
      DedupedIdentity(p);
      var h := hs[|hs| - 1];
      assert FindKey(p, NameKey(h)) < 0 by {
        forall j | 0 <= j < |p| ensures NameKey(p[j]) != NameKey(h) { assert p[j] == hs[j]; }
      }
      assert p + [h] == hs;
    }
  }

  /** A list with a repeated name comes back strictly shorter. */
  lemma DedupedShrinks(hs: seq<Habit>)
    requires !DistinctNames(hs)
    ensures |Deduped(hs)| < |hs|
  {
    DedupedFacts(hs);
    var i, j :| 0 <= i < j < |hs| && NameKey(hs[i]) == NameKey(hs[j]);
    KeyCountBound(hs, i, j);
    DistinctNamesCount(Deduped(hs));
  }

  lemma {:induction false} DistinctNamesCount(hs: seq<Habit>)
    requires DistinctNames(hs)
    ensures |NameKeys(hs)| == |hs|
  {
    if |hs| > 0 {
      var p := hs[..|hs| - 1];
      var h := hs[|hs| - 1];
      assert hs == p + [h];
      DistinctNamesCount(p);
      assert NameKey(h) !in NameKeys(p) by {
        forall y | y in p ensures NameKey(y) != NameKey(h) {
          var m :| 0 <= m < |p| && p[m] == y;
          assert hs[m] == y;
        }
      }
      assert NameKeys(hs) == NameKeys(p) + {NameKey(h)};
    } else {
      assert NameKeys(hs) == {};
    }
  }

  lemma {:induction false} KeyCountAtMost(hs: seq<Habit>)
    ensures |NameKeys(hs)| <= |hs|
  {
    if |hs| > 0 {
      var p := hs[..|hs| - 1];
      assert hs == p + [hs[|hs| - 1]];
      KeyCountAtMost(p);
      assert NameKeys(hs) == NameKeys(p) + {NameKey(hs[|hs| - 1])};
    } else {
      assert NameKeys(hs) == {};
    }
  }

  lemma KeyCountBound(hs: seq<Habit>, i: nat, j: nat)
    requires i < j < |hs| && NameKey(hs[i]) == NameKey(hs[j])
    ensures |NameKeys(hs)| < |hs|
  {
    var rest := hs[..j] + hs[j + 1..];
    assert NameKeys(hs) == NameKeys(rest) by {
      assert hs == hs[..j] + [hs[j]] + hs[j + 1..];
      assert hs[i] in rest by { assert rest[i] == hs[i]; }
    }
    KeyCountAtMost(rest);
  }

  /** Deduplicating twice is deduplicating once (as the rehydrate pass relies on). */
  lemma DedupedIdempotent(hs: seq<Habit>)
    ensures Deduped(Deduped(hs)) == Deduped(hs)
  {
    DedupedFacts(hs);
    DedupedIdentity(Deduped(hs));
  }

  /** `seen.get` on a map whose earlier entries do not hold the key looks only at the later ones. */
  lemma StepAfterPrefix(x: seq<Habit>, y: seq<Habit>, h: Habit)
    requires NameKey(h) !in NameKeys(x)
    ensures Step(x + y, h) == x + Step(y, h)
  {
    var k := NameKey(h);
    var i := FindKey(x + y, k);
    var j := FindKey(y, k);
    forall m | 0 <= m < |y| ensures (x + y)[m + |x|] == y[m] {}
    if i >= 0 {
      assert (x + y)[i] == y[i - |x|];
      assert j >= 0 && j <= i - |x|;
      assert (x + y)[j + |x|] == y[j];
      assert i == j + |x|;
      if IsTempId(y[j].id) && !IsTempId(h.id) {
        assert (x + y)[i := h] == x + y[j := h];
      }
    } else {
      assert (x + y) + [h] == x + (y + [h]);
    }
  }

  /** Deduplicating two lists that share no name is deduplicating each. */
  lemma {:induction false} DedupedAppendDisjoint(a: seq<Habit>, b: seq<Habit>)
    requires NameKeys(a) !! NameKeys(b)
    ensures Deduped(a + b) == Deduped(a) + Deduped(b)
  {
    if |b| == 0 {
      assert a + b == a;
    } else {
      var b' := b[..|b| - 1];
      var h := b[|b| - 1];
      assert b == b' + [h];
      assert NameKeys(b') <= NameKeys(b);
      assert NameKey(h) in NameKeys(b);
      DedupedAppendDisjoint(a, b');
      assert (a + b)[..|a + b| - 1] == a + b' && (a + b)[|a + b| - 1] == h;
      DedupedFacts(a);
      StepAfterPrefix(Deduped(a), Deduped(b'), h);
    }
  }

  lemma FindKeyExtend(p: seq<Habit>, h: Habit, k: string)
    ensures k in NameKeys(p) ==> FindKey(p + [h], k) == FindKey(p, k)
    ensures k !in NameKeys(p) && k == NameKey(h) ==> FindKey(p + [h], k) == |p|
  {
    forall j | 0 <= j < |p| ensures (p + [h])[j] == p[j] && NameKey(p[j]) in NameKeys(p) {
      assert p[j] in p;
    }
    assert (p + [h])[|p|] == h;
    if k in NameKeys(p) {
      var y :| y in p && NameKey(y) == k;
      var m :| 0 <= m < |p| && p[m] == y;
    }
  }

  /** The habits of r have distinct names that first appear in hs in r's order. */
  ghost predicate InFirstSeenOrder(r: seq<Habit>, hs: seq<Habit>)
  {
    forall i, j :: 0 <= i < j < |r| ==> FindKey(hs, NameKey(r[i])) < FindKey(hs, NameKey(r[j]))
  }

  /** Appending to hs does not move the first occurrence of a name already in it. */
  lemma OrderKeptOnExtend(acc: seq<Habit>, p: seq<Habit>, h: Habit)
    requires InFirstSeenOrder(acc, p) && NameKeys(acc) <= NameKeys(p)
    ensures InFirstSeenOrder(acc, p + [h])
    ensures forall m :: 0 <= m < |acc| ==> FindKey(p + [h], NameKey(acc[m])) < |p|
  {
    forall m | 0 <= m < |acc| ensures FindKey(p + [h], NameKey(acc[m])) == FindKey(p, NameKey(acc[m])) {
      assert acc[m] in acc;
      FindKeyExtend(p, h, NameKey(acc[m]));
    }
  }

  /** Replacing habits by ones with the same names keeps the order. */
  lemma OrderSameKeys(acc: seq<Habit>, r: seq<Habit>, hs: seq<Habit>)
    requires InFirstSeenOrder(acc, hs) && |r| == |acc|
    requires forall m :: 0 <= m < |r| ==> NameKey(r[m]) == NameKey(acc[m])
    ensures InFirstSeenOrder(r, hs)
  {
  }

  /** Habits come out in the order their names first appear. */
  lemma {:induction false} DedupedOrder(hs: seq<Habit>)
    ensures InFirstSeenOrder(Deduped(hs), hs)
  {
    if |hs| > 0 {
      var p := hs[..|hs| - 1];
      var h := hs[|hs| - 1];
      assert hs == p + [h];
      DedupedOrder(p);
      DedupedFacts(p);
      var acc := Deduped(p);
      var r := Deduped(hs);
      var k := NameKey(h);
      OrderKeptOnExtend(acc, p, h);
      if FindKey(acc, k) < 0 {
        assert k !in NameKeys(p);
        FindKeyExtend(p, h, k);
        assert r == acc + [h];
        forall i, j | 0 <= i < j < |r| ensures FindKey(hs, NameKey(r[i])) < FindKey(hs, NameKey(r[j])) {
          assert r[i] == acc[i];
          if j < |acc| { assert r[j] == acc[j]; }
        }
      } else {
        OrderSameKeys(acc, r, hs);
      }
    }
  }
}

=== FILE: log_merge.dfy ===
/**
 * `getMergedLogs`: the view every chart reads, made by overlaying the pending
 * edits (`modifiedLogs`, keyed by date) on the logs fetched from the server.
 */
module LogMerge {
  import opened Text
  import opened Ordering
  import opened Records

  /** The `Map` filled from the server logs: a later log with the same date
      replaces an earlier one. */
  function IndexByDate(logs: seq<DailyLog>): (m: map<string, DailyLog>)
  {
    if |logs| == 0 then map[]
    else IndexByDate(logs[..|logs| - 1])[logs[|logs| - 1].date := logs[|logs| - 1]]
  }

  function DatesOf(logs: seq<DailyLog>): set<string>
  {
    set l | l in logs :: l.date
  }

  /** logs[i] is the last log dated d. */
  predicate LastWithDate(logs: seq<DailyLog>, i: int, d: string)
  {
    0 <= i < |logs| && logs[i].date == d && forall j :: i < j < |logs| ==> logs[j].date != d
  }

  lemma {:induction false} IndexByDateKeys(logs: seq<DailyLog>)
    ensures IndexByDate(logs).Keys == DatesOf(logs)
  {
    if |logs| > 0 {
      var p := logs[..|logs| - 1];
      IndexByDateKeys(p);
      assert logs == p + [logs[|logs| - 1]];
      assert DatesOf(logs) == DatesOf(p) + {logs[|logs| - 1].date};
    } else {
      assert DatesOf(logs) == {};
    }
  }

  /** The entry for a date is the last log with that date. */
  lemma {:induction false} IndexByDateEntry(logs: seq<DailyLog>, d: string) returns (i: int)
    requires d in IndexByDate(logs)
    ensures LastWithDate(logs, i, d) && logs[i] == IndexByDate(logs)[d]
  {
    var last := |logs| - 1;
    if logs[last].date == d {
      i := last;
    } else {
      var p := logs[..last];
      i := IndexByDateEntry(p, d);
      assert logs[i] == p[i];
    }
  }

  /** The index holds one entry per server date, and the entry is the last
      server log with that date. */
  lemma IndexByDateFacts(logs: seq<DailyLog>)
    ensures IndexByDate(logs).Keys == DatesOf(logs)
    ensures forall d :: d in IndexByDate(logs) ==>
              exists i :: LastWithDate(logs, i, d) && logs[i] == IndexByDate(logs)[d]
  {
    IndexByDateKeys(logs);
    forall d | d in IndexByDate(logs) ensures exists i :: LastWithDate(logs, i, d) && logs[i] == IndexByDate(logs)[d] {
      var i := IndexByDateEntry(logs, d);
    }
  }

  /** The `byDate` map once both loops of `getMergedLogs` have run. */
  function Merged(serverLogs: seq<DailyLog>, modifiedLogs: map<string, DailyLog>): map<string, DailyLog>
  {
    IndexByDate(serverLogs) + modifiedLogs
  }

  /** One entry per date of the union; a pending edit wins over the server row. */
  lemma MergedFacts(serverLogs: seq<DailyLog>, modifiedLogs: map<string, DailyLog>)
    ensures Merged(serverLogs, modifiedLogs).Keys == DatesOf(serverLogs) + modifiedLogs.Keys
    ensures forall d :: d in modifiedLogs ==> Merged(serverLogs, modifiedLogs)[d] == modifiedLogs[d]
    ensures forall d :: d in DatesOf(serverLogs) && d !in modifiedLogs ==>
              Merged(serverLogs, modifiedLogs)[d] == IndexByDate(serverLogs)[d]
  {
    IndexByDateFacts(serverLogs);
  }

  function EntryDate(e: (string, DailyLog)): string
  {
    e.1.date
  }

  predicate DistinctKeys(es: seq<(string, DailyLog)>)
  {
    forall i, j :: 0 <= i < j < |es| ==> es[i].0 != es[j].0
  }

  ghost predicate NoDup<T>(s: seq<T>)
  {
    forall i, j :: 0 <= i < j < |s| ==> s[i] != s[j]
  }

  lemma {:induction false} NoDupCount<T>(s: seq<T>)
    ensures NoDup(s) <==> forall x :: multiset(s)[x] <= 1
    decreases |s|
  {
    if |s| > 0 {
      var p := s[..|s| - 1];
      var y := s[|s| - 1];
      assert s == p + [y];
      NoDupCount(p);
      if NoDup(s) {
        assert NoDup(p);
      } else {
        var i, j :| 0 <= i < j < |s| && s[i] == s[j];
        assert s == s[..j] + s[j..];
        assert s[i] in multiset(s[..j]) by { assert s[..j][i] == s[i]; }
        assert s[j] in multiset(s[j..]) by { assert s[j..][0] == s[j]; }
        assert multiset(s)[s[i]] == multiset(s[..j])[s[i]] + multiset(s[j..])[s[i]];
      }
    }
  }

  /** A permutation of a sequence without repetitions has none either. */
  lemma NoDupPermutation<T>(s: seq<T>, t: seq<T>)
    requires NoDup(s) && multiset(s) == multiset(t)
    ensures NoDup(t)
  {
    NoDupCount(s);
    NoDupCount(t);
  }

  /** `Array.from(byDate.entries())`, in some order. */
  method MapEntries(m: map<string, DailyLog>) returns (es: seq<(string, DailyLog)>)
    ensures DistinctKeys(es)
    ensures forall e :: e in es ==> e.0 in m && e.1 == m[e.0]
    ensures forall k :: k in m ==> exists e :: e in es && e.0 == k
  {
    es := [];
    var rest := m.Keys;
    while rest != {}
      invariant rest <= m.Keys
      invariant forall e :: e in es ==> e.0 in m && e.0 !in rest && e.1 == m[e.0]
      invariant forall k :: k in m ==> k in rest || exists e :: e in es && e.0 == k
      invariant DistinctKeys(es)
      decreases rest
    {
      var k :| k in rest;
      es := es + [(k, m[k])];
      rest := rest - {k};
    }
  }

  /** Reordering entries with distinct keys keeps the keys distinct and the
      entries the same. */
  lemma PermutedEntries(es: seq<(string, DailyLog)>, t: seq<(string, DailyLog)>, m: map<string, DailyLog>)
    requires multiset(es) == multiset(t)
    requires DistinctKeys(es)
    requires forall e :: e in es ==> e.0 in m && e.1 == m[e.0]
    ensures DistinctKeys(t)
    ensures forall e :: e in t <==> e in es
  {
    forall e | e in t ensures e in es { assert e in multiset(t); }
    forall e | e in es ensures e in t { assert e in multiset(es); }
    assert NoDup(es);
    NoDupPermutation(es, t);
  }

  /** The two loops of `getMergedLogs` that fill `byDate`. */
  method FillByDate(serverLogs: seq<DailyLog>, modifiedLogs: map<string, DailyLog>)
    returns (byDate: map<string, DailyLog>)
    ensures byDate == Merged(serverLogs, modifiedLogs)
  {
    byDate := map[];
    for i := 0 to |serverLogs|
      invariant byDate == IndexByDate(serverLogs[..i])
    {
      assert serverLogs[..i + 1][..i] == serverLogs[..i];
      byDate := byDate[serverLogs[i].date := serverLogs[i]];
    }
    assert serverLogs[..|serverLogs|] == serverLogs;
    var pending := modifiedLogs.Keys;
    while pending != {}
      invariant pending <= modifiedLogs.Keys
      invariant byDate == IndexByDate(serverLogs) + map k | k in modifiedLogs.Keys - pending :: modifiedLogs[k]
      decreases pending
    {
      var k :| k in pending;
      byDate := byDate[k := modifiedLogs[k]];
      pending := pending - {k};
    }
  }

  function EntryValues(es: seq<(string, DailyLog)>): (r: seq<DailyLog>)
    ensures |r| == |es| && forall i :: 0 <= i < |es| ==> r[i] == es[i].1
  {
    seq(|es|, i requires 0 <= i < |es| => es[i].1)
  }

  function EntryKeys(es: seq<(string, DailyLog)>): (r: seq<string>)
    ensures |r| == |es| && forall i :: 0 <= i < |es| ==> r[i] == es[i].0
  {
    seq(|es|, i requires 0 <= i < |es| => es[i].0)
  }

  /** What the sorted entries of `byDate` give once split into logs and keys. */
  lemma SortedEntriesFacts(sorted: seq<(string, DailyLog)>, m: map<string, DailyLog>)
    requires DistinctKeys(sorted) && SortedBy(sorted, EntryDate)
    requires forall e :: e in sorted ==> e.0 in m && e.1 == m[e.0]
    requires forall k :: k in m ==> exists e :: e in sorted && e.0 == k
    ensures forall i, j :: 0 <= i < j < |sorted| ==> EntryKeys(sorted)[i] != EntryKeys(sorted)[j]
    ensures forall k :: k in EntryKeys(sorted) <==> k in m
    ensures forall i :: 0 <= i < |sorted| ==> EntryValues(sorted)[i] == m[EntryKeys(sorted)[i]]
    ensures SortedBy(EntryValues(sorted), LogDate)
  {
    var r, dates := EntryValues(sorted), EntryKeys(sorted);
    forall k | k in m ensures k in dates {
      var e :| e in sorted && e.0 == k;
      var i :| 0 <= i < |sorted| && sorted[i] == e;
      assert dates[i] == k;
    }
    forall i, j | 0 <= i < j < |r| ensures !Less(LogDate(r[j]), LogDate(r[i])) {
      assert LogDate(r[j]) == EntryDate(sorted[j]) && LogDate(r[i]) == EntryDate(sorted[i]);
    }
  }

  /**
   * Returns the merged logs sorted by date. The ghost `dates` names, for each
   * result position, the date key (a server date or a `modifiedLogs` key) the
   * log was stored under; the order among logs whose `date` fields are equal
   * is not specified.
   */
  method GetMergedLogs(serverLogs: seq<DailyLog>, modifiedLogs: map<string, DailyLog>)
    returns (r: seq<DailyLog>, ghost dates: seq<string>)
    ensures |dates| == |r|
    ensures forall i, j :: 0 <= i < j < |dates| ==> dates[i] != dates[j]
    ensures forall d :: d in dates <==> d in DatesOf(serverLogs) || d in modifiedLogs
    ensures forall i :: 0 <= i < |r| && dates[i] in modifiedLogs ==> r[i] == modifiedLogs[dates[i]]
    ensures forall i :: 0 <= i < |r| && dates[i] !in modifiedLogs ==>
              dates[i] in IndexByDate(serverLogs) && r[i] == IndexByDate(serverLogs)[dates[i]]
    ensures SortedBy(r, LogDate)
  {
    var byDate := FillByDate(serverLogs, modifiedLogs);
    var entries := MapEntries(byDate);
    var sorted := SortBy(entries, EntryDate);
    SortByIsSorted(entries, EntryDate);
    PermutedEntries(entries, sorted, byDate);
    SortedEntriesFacts(sorted, byDate);
    r := EntryValues(sorted);
    dates := EntryKeys(sorted);
    MergedFacts(serverLogs, modifiedLogs);
  }
}

=== FILE: ordering.dfy ===
/**
 * `[...xs].sort((a, b) => key(a).localeCompare(key(b)))`: JavaScript's sort is
 * stable, so it is modelled as an insertion sort that places each element
 * after every element whose key is not greater.
 */
module Ordering {
  import opened Text

  predicate SortedBy<T>(s: seq<T>, key: T -> string)
  {
    forall i, j :: 0 <= i < j < |s| ==> !Less(key(s[j]), key(s[i]))
  }

  /** Insert x into s just before the first element with a strictly greater key. */
  function InsertBy<T>(x: T, s: seq<T>, key: T -> string): (r: seq<T>)
    ensures |r| == |s| + 1
    ensures multiset(r) == multiset(s) + multiset{x}
  {
    if |s| == 0 then [x]
    else if Less(key(x), key(s[0])) then [x] + s
    else
      assert s == [s[0]] + s[1..];
      [s[0]] + InsertBy(x, s[1..], key)
  }

  function SortBy<T>(s: seq<T>, key: T -> string): (r: seq<T>)
    ensures |r| == |s|
    ensures multiset(r) == multiset(s)
  {
    if |s| == 0 then []
    else
      assert s == s[..|s| - 1] + [s[|s| - 1]];
      InsertBy(s[|s| - 1], SortBy(s[..|s| - 1], key), key)
  }

  /** The elements of s whose key is k, in their order in s. */
  function WithKey<T>(s: seq<T>, key: T -> string, k: string): seq<T>
  {
    if |s| == 0 then []
    else WithKey(s[..|s| - 1], key, k) + (if key(s[|s| - 1]) == k then [s[|s| - 1]] else [])
  }

  lemma {:induction false} WithKeyConcat<T>(a: seq<T>, b: seq<T>, key: T -> string, k: string)
    ensures WithKey(a + b, key, k) == WithKey(a, key, k) + WithKey(b, key, k)
    decreases |b|
  {
    if |b| > 0 {
      assert (a + b)[..|a + b| - 1] == a + b[..|b| - 1];
      WithKeyConcat(a, b[..|b| - 1], key, k);
    } else {
      assert a + b == a;
    }
  }

  lemma {:induction false} WithKeyNone<T>(s: seq<T>, key: T -> string, k: string)
    requires forall i :: 0 <= i < |s| ==> key(s[i]) != k
    ensures WithKey(s, key, k) == []
    decreases |s|
  {
    if |s| > 0 {
      WithKeyNone(s[..|s| - 1], key, k);
    }
  }

  /** In a sorted sequence, a key below the first key is below every key. */
  lemma BelowHeadBelowAll<T>(x: T, s: seq<T>, key: T -> string)
    requires SortedBy(s, key) && |s| > 0 && Less(key(x), key(s[0]))
    ensures forall j :: 0 <= j < |s| ==> Less(key(x), key(s[j]))
  {
    forall j | 0 < j < |s| ensures Less(key(x), key(s[j])) {
      LessTotal(key(s[0]), key(s[j]));
      if Less(key(s[0]), key(s[j])) { LessTransitive(key(x), key(s[0]), key(s[j])); }
    }
  }

  lemma {:induction false} InsertSorted<T>(x: T, s: seq<T>, key: T -> string)
    requires SortedBy(s, key)
    ensures SortedBy(InsertBy(x, s, key), key)
    decreases |s|
  {
    var r := InsertBy(x, s, key);
    if |s| == 0 {
    } else if Less(key(x), key(s[0])) {
      BelowHeadBelowAll(x, s, key);
      forall i, j | 0 <= i < j < |r| ensures !Less(key(r[j]), key(r[i])) {
        if i == 0 && Less(key(r[j]), key(x)) {
          LessTransitive(key(x), key(r[j]), key(x));
          LessIrreflexive(key(x));
        }
      }
    } else {
      var t := s[1..];
      InsertSorted(x, t, key);
      var rt := InsertBy(x, t, key);
      assert r == [s[0]] + rt;
      forall j | 0 <= j < |rt| ensures !Less(key(rt[j]), key(s[0])) {
        if rt[j] != x {
          assert rt[j] in multiset(rt);
          assert rt[j] in multiset(t);
          var m :| 0 <= m < |t| && t[m] == rt[j];
          assert s[m + 1] == t[m];
        }
      }
    }
  }

  lemma WithKeySingle<T>(x: T, key: T -> string, k: string)
    ensures WithKey([x], key, k) == if key(x) == k then [x] else []
  {
    assert [x][..0] == [];
  }

  lemma SortedTail<T>(s: seq<T>, key: T -> string)
    requires SortedBy(s, key) && |s| > 0
    ensures SortedBy(s[1..], key)
  {
    var t := s[1..];
    forall i, j | 0 <= i < j < |t| ensures !Less(key(t[j]), key(t[i])) {
      assert t[i] == s[i + 1] && t[j] == s[j + 1];
    }
  }

  /** Inserting in front of a sorted list whose keys are all greater. */
  lemma InsertFrontWithKey<T>(x: T, s: seq<T>, key: T -> string, k: string)
    requires SortedBy(s, key) && |s| > 0 && Less(key(x), key(s[0]))
    ensures WithKey([x] + s, key, k) == WithKey(s, key, k) + (if key(x) == k then [x] else [])
  {
    WithKeyConcat([x], s, key, k);
    WithKeySingle(x, key, k);
    if key(x) == k {
      BelowHeadBelowAll(x, s, key);
      forall j | 0 <= j < |s| ensures key(s[j]) != k { LessIrreflexive(key(x)); }
      WithKeyNone(s, key, k);
    }
  }

  lemma InsertBehindWithKey<T>(y: T, t: seq<T>, rt: seq<T>, extra: seq<T>, key: T -> string, k: string)
    requires WithKey(rt, key, k) == WithKey(t, key, k) + extra
    ensures WithKey([y] + rt, key, k) == WithKey([y] + t, key, k) + extra
  {
    WithKeyConcat([y], rt, key, k);
    WithKeyConcat([y], t, key, k);
  }

  lemma {:induction false} InsertWithKey<T>(x: T, s: seq<T>, key: T -> string, k: string)
    requires SortedBy(s, key)
    ensures WithKey(InsertBy(x, s, key), key, k) == WithKey(s, key, k) + (if key(x) == k then [x] else [])
    decreases |s|
  {
    if |s| == 0 {
      WithKeySingle(x, key, k);
    } else if Less(key(x), key(s[0])) {
      assert InsertBy(x, s, key) == [x] + s;
      InsertFrontWithKey(x, s, key, k);
    } else {
      var t := s[1..];
      SortedTail(s, key);
      InsertWithKey(x, t, key, k);
      var rt := InsertBy(x, t, key);
      assert InsertBy(x, s, key) == [s[0]] + rt;
      InsertBehindWithKey(s[0], t, rt, if key(x) == k then [x] else [], key, k);
      assert [s[0]] + t == s;
    }
  }

  /** The sort orders by key. */
  lemma {:induction false} SortByIsSorted<T>(s: seq<T>, key: T -> string)
    ensures SortedBy(SortBy(s, key), key)
    decreases |s|
  {
    if |s| > 0 {
      SortByIsSorted(s[..|s| - 1], key);
      InsertSorted(s[|s| - 1], SortBy(s[..|s| - 1], key), key);
    }
  }

  /** The sort is stable: elements with equal keys keep their relative order. */
  lemma {:induction false} SortByIsStable<T>(s: seq<T>, key: T -> string, k: string)
    ensures WithKey(SortBy(s, key), key, k) == WithKey(s, key, k)
    decreases |s|
  {
    if |s| > 0 {
      var p := s[..|s| - 1];
      SortByIsStable(p, key, k);
      SortByIsSorted(p, key);
      InsertWithKey(s[|s| - 1], SortBy(p, key), key, k);
    }
  }
}

=== FILE: pushup_detector.dfy ===
/**
 * The camera push-up counter's rep logic. Each processed camera frame has
 * already been reduced to what the counter looks at: whether a pose and an
 * arm were seen, whether the body is in plank position, and the elbow
 * angle in degrees. Timestamps are integer milliseconds.
 */
module PushupDetector {

  datatype PushupState = Up | Down | Transition | Invalid

  /** One processed frame. */
  datatype Frame =
    | NoCanvas                             // no drawing surface: frame ignored
    | NoPose                               // no landmarks found
    | NoArm                                // no arm with shoulder, elbow and wrist visible
    | Posed(plank: bool, elbowAngle: real) // the body check and the elbow angle

  const ElbowUp: real := 155.0
  const ElbowDown: real := 95.0
  const CooldownMs: int := 400

  /** The counter's state: the displayed state, the last confirmed state,
      the time of the last rep, the consecutive-frame counters and the rep
      count. */
  datatype Detector = Detector(state: PushupState, prevState: PushupState, lastCountTime: int,
                               consecutiveUp: nat, consecutiveDown: nat, count: nat)

  const Initial := Detector(Invalid, Invalid, 0, 0, 0, 0)

  /** The state a posed frame yields and the counters after it. */
  datatype Reading = Reading(newState: PushupState, up: nat, down: nat)

  function Read(d: Detector, plank: bool, angle: real): Reading
  {
    if !plank then Reading(Invalid, d.consecutiveUp, d.consecutiveDown)
    else if angle > ElbowUp then
      Reading(if d.consecutiveUp + 1 >= 2 then Up else Transition, d.consecutiveUp + 1, 0)
    else if angle < ElbowDown then
      Reading(if d.consecutiveDown + 1 >= 2 then Down else Transition, 0, d.consecutiveDown + 1)
    else Reading(Transition, 0, 0)
  }

  /** A rep is counted on a confirmed DOWN to UP change once the cooldown
      since the previous rep has passed. */
  predicate CountsRep(d: Detector, newState: PushupState, now: int)
  {
    d.prevState == Down && newState == Up && now - d.lastCountTime > CooldownMs
  }

  /** `processResults` on one frame at time `now`. */
  function Step(d: Detector, f: Frame, now: int): Detector
  {
    match f
    case NoCanvas => d
    case NoPose => d.(state := Invalid)
    case NoArm => d.(state := Invalid)
    case Posed(plank, angle) =>
      var r := Read(d, plank, angle);
      var counts := CountsRep(d, r.newState, now);
      Detector(r.newState,
               if r.newState != Transition then r.newState else d.prevState,
               if counts then now else d.lastCountTime,
               r.up, r.down,
               if counts then d.count + 1 else d.count)
  }

  /** `handleReset`: the count, the confirmed state and the cooldown clock
      start over; the displayed state and the frame counters are kept. */
  function Reset(d: Detector): Detector
  {
    d.(count := 0, prevState := Invalid, lastCountTime := 0)
  }

  /** What every reachable counter satisfies: the confirmed state is never
      TRANSITION, and at most one of the frame counters is running. */
  predicate Inv(d: Detector)
  {
    d.prevState != Transition && (d.consecutiveUp == 0 || d.consecutiveDown == 0)
  }

  // ---------------------------------------------------------------------
  // One frame

  /** A rep is counted exactly on a posed frame that turns a confirmed DOWN
      into a displayed UP after the cooldown; the count then grows by one
      and the rep time becomes `now`. Otherwise neither changes. */
  lemma StepCountRule(d: Detector, f: Frame, now: int)
    ensures var e := Step(d, f, now);
            (e.count == d.count + 1 && e.lastCountTime == now) <==>
              (f.Posed? && d.prevState == Down && e.state == Up && now - d.lastCountTime > CooldownMs)
    ensures var e := Step(d, f, now);
            e.count == d.count + 1 || (e.count == d.count && e.lastCountTime == d.lastCountTime)
  {
  }

  /** UP (DOWN) is shown only on the second consecutive frame above (below)
      the threshold; a frame between the thresholds clears both counters,
      an invalid body leaves them alone. */
  lemma StepHysteresis(d: Detector, plank: bool, angle: real, now: int)
    ensures var e := Step(d, Posed(plank, angle), now);
            (e.state == Up <==> plank && angle > ElbowUp && d.consecutiveUp >= 1) &&
            (e.state == Down <==> plank && angle < ElbowDown && d.consecutiveDown >= 1) &&
            (e.state == Invalid <==> !plank) &&
            (!plank ==> e.consecutiveUp == d.consecutiveUp && e.consecutiveDown == d.consecutiveDown) &&
            (plank && angle > ElbowUp ==> e.consecutiveUp == d.consecutiveUp + 1 && e.consecutiveDown == 0) &&
            (plank && angle < ElbowDown ==> e.consecutiveDown == d.consecutiveDown + 1 && e.consecutiveUp == 0) &&
            (plank && ElbowDown <= angle <= ElbowUp ==> e.consecutiveUp == 0 && e.consecutiveDown == 0)
  {
  }

  /** Frames without a pose or an arm only show INVALID; an ignored frame
      changes nothing. */
  lemma EarlyReturnsUntouched(d: Detector, f: Frame, now: int)
    requires !f.Posed?
    ensures Step(d, f, now) == if f.NoCanvas? then d else d.(state := Invalid)
    ensures Step(d, f, now).prevState == d.prevState && Step(d, f, now).count == d.count
  {
  }

  lemma InitialInv()
    ensures Inv(Initial) && Initial.count == 0 && Initial.state == Invalid
  {
  }

  lemma StepPreservesInv(d: Detector, f: Frame, now: int)
    requires Inv(d)
    ensures Inv(Step(d, f, now))
  {
  }

  lemma ResetPreservesInv(d: Detector)
    requires Inv(d)
    ensures Inv(Reset(d)) && Reset(d).count == 0
  {
  }

  /** A DOWN, then a frame out of plank, then UP: the invalid frame replaces
      the confirmed DOWN, so the UP counts nothing. */
  lemma DownInvalidUpNoRep(d: Detector, angle: real, f: Frame, t1: int, t2: int)
    ensures Step(Step(d, Posed(false, angle), t1), f, t2).count == d.count
  {
    var e := Step(d, Posed(false, angle), t1);
    assert e.prevState == Invalid && e.count == d.count;
  }

  /** The frame right after a rep never counts another one. */
  lemma NoBackToBackReps(d: Detector, f: Frame, now: int, g: Frame, later: int)
    requires Step(d, f, now).count == d.count + 1
    ensures Step(Step(d, f, now), g, later).count == d.count + 1
  {
    var e := Step(d, f, now);
    assert e.prevState == Up;
  }

  /** After a reset, a rep needs a fresh DOWN. */
  lemma ResetNeedsDown(d: Detector, f: Frame, now: int)
    ensures Step(Reset(d), f, now).count == 0
  {
  }

  // ---------------------------------------------------------------------
  // A run of frames

  datatype Tick = Tick(frame: Frame, now: int)

  function Run(d: Detector, ticks: seq<Tick>): Detector
    decreases |ticks|
  {
    if |ticks| == 0 then d else Run(Step(d, ticks[0].frame, ticks[0].now), ticks[1..])
  }

  lemma {:induction false} RunPreservesInv(d: Detector, ticks: seq<Tick>)
    requires Inv(d)
    ensures Inv(Run(d, ticks))
    decreases |ticks|
  {
    if |ticks| > 0 {
      StepPreservesInv(d, ticks[0].frame, ticks[0].now);
      RunPreservesInv(Step(d, ticks[0].frame, ticks[0].now), ticks[1..]);
    }
  }

  function Pending(d: Detector): nat
  {
    if d.prevState == Down then 1 else 0
  }

  /** Reps never disappear, and since a rep leaves UP confirmed, no two
      consecutive frames both count: n frames add at most half of n reps
      (rounded up when DOWN is already confirmed). */
  lemma {:induction false} RunRepBound(d: Detector, ticks: seq<Tick>)
    ensures d.count <= Run(d, ticks).count <= d.count + (|ticks| + Pending(d)) / 2
    decreases |ticks|
  {
    if |ticks| > 0 {
      var e := Step(d, ticks[0].frame, ticks[0].now);
      StepCountRule(d, ticks[0].frame, ticks[0].now);
      RunRepBound(e, ticks[1..]);
      if e.count == d.count + 1 {
        assert Pending(d) == 1 && Pending(e) == 0;
      }
    }
  }

  // ---------------------------------------------------------------------
  // The component's mutable references

  /** The refs and the count state of the detector component. */
  class PushupCounter {
    var state: PushupState
    var prevState: PushupState
    var lastCountTime: int
    var consecutiveUp: nat
    var consecutiveDown: nat
    var count: nat

    function Current(): Detector
      reads this
    {
      Detector(state, prevState, lastCountTime, consecutiveUp, consecutiveDown, count)
    }

    constructor ()
      ensures Current() == Initial
    {
      state := Invalid;
      prevState := Invalid;
      lastCountTime := 0;
      consecutiveUp := 0;
      consecutiveDown := 0;
      count := 0;
    }

    /** `processResults` for one frame seen at `now`. */
    method ProcessResults(f: Frame, now: int)
      modifies this
      ensures Current() == Step(old(Current()), f, now)
    {
      if f.NoCanvas? {
        return;
      }
      if f.NoPose? || f.NoArm? {
        state := Invalid;
        return;
      }
      var newState := Transition;
      if !f.plank {
        newState := Invalid;
      } else if f.elbowAngle > ElbowUp {
        consecutiveUp := consecutiveUp + 1;
        consecutiveDown := 0;
        if consecutiveUp >= 2 {
          newState := Up;
        }
      } else if f.elbowAngle < ElbowDown {
        consecutiveDown := consecutiveDown + 1;
        consecutiveUp := 0;
        if consecutiveDown >= 2 {
          newState := Down;
        }
      } else {
        consecutiveUp := 0;
        consecutiveDown := 0;
      }
      if prevState == Down && newState == Up && now - lastCountTime > CooldownMs {
        count := count + 1;
        lastCountTime := now;
      }
      if newState != Transition {
        prevState := newState;
      }
      state := newState;
    }

    /** `handleReset` */
    method HandleReset()
      modifies this
      ensures Current() == Reset(old(Current()))
    {
      count := 0;
      prevState := Invalid;
      lastCountTime := 0;
    }
  }
}

=== FILE: records.dfy ===
/**
 * The rows the store keeps (daily logs, tasks, habit definitions, user
 * settings) and the client-side temporary identifiers.
 */
module Records {
  import opened Wrappers
  import opened Text

  datatype Priority = Urgent | High | Normal

  /** One row per calendar date. `sleepStart`/`sleepEnd` are ISO timestamps. */
  datatype DailyLog = DailyLog(
    userId: string,
    date: string,
    sleepStart: Option<string>,
    sleepEnd: Option<string>,
    habitsStatus: map<string, bool>,
    pushupCount: int,
    notes: Option<string>)

  datatype Task = Task(
    id: string,
    userId: string,
    title: string,
    isCompleted: bool,
    priority: Option<Priority>,
    dueDate: Option<string>,
    createdAt: string,
    completedAt: Option<string>)

  datatype Habit = Habit(
    id: string,
    userId: string,
    name: string,
    icon: Option<string>,
    color: Option<string>,
    createdAt: string)

  datatype UserSettings = UserSettings(
    userId: string,
    pushupGoal: int,
    targetSleepHours: Option<real>,
    targetFocusHours: Option<real>,
    createdAt: string)

  /** A row the server returned from an insert: its permanent id and owner. */
  datatype InsertedRow = InsertedRow(id: string, userId: string)

  const TempPrefix: string := "temp-"

  /** `id.startsWith("temp-")` */
  predicate IsTempId(id: string)
  {
    |id| >= |TempPrefix| && id[..|TempPrefix|] == TempPrefix
  }

  /** The id `addTask`, `addHabitDefinition` and the default habits receive. */
  function MakeTempId(uuid: string): (id: string)
    ensures IsTempId(id)
    ensures id[|TempPrefix|..] == uuid
  {
    TempPrefix + uuid
  }

  /** The prefix test is the whole predicate: a string is temporary exactly
      when it is the prefix followed by something. */
  lemma TempIdIffPrefixed(id: string)
    ensures IsTempId(id) <==> exists u :: id == MakeTempId(u)
  {
    if IsTempId(id) {
      assert id == MakeTempId(id[|TempPrefix|..]);
    }
  }

  /** `emptyDailyLog(date)` */
  function EmptyDailyLog(date: string): (l: DailyLog)
    ensures l.date == date && l.habitsStatus == map[]
    ensures l.sleepStart == None && l.sleepEnd == None && l.notes == None && l.pushupCount == 0
  {
    DailyLog("", date, None, None, map[], 0, None)
  }

  /** A timestamp counts as set when it is neither null nor the empty string. */
  predicate Present(s: Option<string>)
  {
    s.Some? && s.value != ""
  }

  /** The name key habits are deduplicated by. */
  function NameKey(h: Habit): string
  {
    ToLower(h.name)
  }

  function LogDate(l: DailyLog): string
  {
    l.date
  }
}

=== FILE: save_plan.dfy ===
/**
 * The parts of `saveData` that work on the snapshot taken before its first
 * await: splitting habits and tasks into inserts and updates, the
 * temporary-id map, the re-keyed daily-log payloads, and the order of the
 * gateway calls with the early exit on the first failure. What the gateway
 * answers is an input.
 */
module SavePlan {
  import opened Wrappers
  import opened Ordering
  import opened Records

  // -----------------------------------------------------------------------
  // Payloads and gateway calls

  datatype HabitInsert = HabitInsert(name: string, icon: Option<string>, color: Option<string>)
  datatype HabitUpdate = HabitUpdate(id: string, name: string, icon: Option<string>, color: Option<string>)

  datatype TaskInsert = TaskInsert(
    title: string, isCompleted: bool, priority: Option<Priority>,
    dueDate: Option<string>, createdAt: string, completedAt: Option<string>)
  datatype TaskUpdate = TaskUpdate(
    id: string, title: string, isCompleted: bool, priority: Option<Priority>,
    dueDate: Option<string>, completedAt: Option<string>)

  /** A daily log as `saveDailyLogsBulk` receives it (date is the entry's key). */
  datatype LogPayload = LogPayload(
    sleepStart: Option<string>, sleepEnd: Option<string>,
    habitsStatus: map<string, bool>, pushupCount: int, notes: Option<string>)

  datatype GatewayCall =
    | SyncHabits(deletedIds: seq<string>, habitInserts: seq<HabitInsert>, habitUpdates: seq<HabitUpdate>)
    | SaveLogsBulk(entries: map<string, LogPayload>)
    | SyncTasks(deletedTaskIds: seq<string>, taskInserts: seq<TaskInsert>, taskUpdates: seq<TaskUpdate>)
    | UpsertSettings(pushupGoal: int, targetSleepHours: real)
    | FetchLogs(days: int, asOf: string)

  /** A gateway answer: success, an `{ error }` reply, or a thrown exception
      (`Some(message)` when it is an `Error`). */
  datatype Reply<T> = Ok(value: T) | Failed(message: string) | Threw(thrown: Option<string>)

  datatype SaveReplies = SaveReplies(
    habits: Reply<seq<InsertedRow>>,
    logs: Reply<()>,
    tasks: Reply<seq<InsertedRow>>,
    settings: Reply<()>,
    refresh: Reply<seq<DailyLog>>)

  /** The state `saveData` reads before its first await. */
  datatype Snapshot = Snapshot(
    modifiedLogs: map<string, DailyLog>,
    tasks: seq<Task>,
    deletedTaskIds: seq<string>,
    habitDefinitions: seq<Habit>,
    deletedHabitIds: seq<string>)

  /** What the phases hand to the commit: the position-aligned temporary ids
      and inserted rows, and the refreshed one-year log list sorted by date. */
  datatype SaveOutcome =
    | NotSaved(error: string)
    | Saved(habitTempOrder: seq<string>, habitInserted: seq<InsertedRow>,
            taskTempOrder: seq<string>, taskInserted: seq<InsertedRow>,
            sortedLogs: seq<DailyLog>)

  const SaveFailedMessage := "Save failed"
  const DefaultTargetSleepHours: real := 8.0
  const RefreshDays := 365

  /** The message a failed phase stores in `error`. */
  function ErrorOf<T>(r: Reply<T>): (e: string)
    requires !r.Ok?
    ensures r.Failed? ==> e == r.message
    ensures r.Threw? && r.thrown.Some? ==> e == r.thrown.value
    ensures r.Threw? && r.thrown.None? ==> e == SaveFailedMessage
  {
    if r.Failed? then r.message else r.thrown.GetOr(SaveFailedMessage)
  }

  // -----------------------------------------------------------------------
  // Partitioning by id

  function HabitId(h: Habit): string { h.id }
  function TaskId(t: Task): string { t.id }

  function AsHabitInsert(h: Habit): HabitInsert { HabitInsert(h.name, h.icon, h.color) }
  function AsHabitUpdate(h: Habit): HabitUpdate { HabitUpdate(h.id, h.name, h.icon, h.color) }
  function AsTaskInsert(t: Task): TaskInsert
  {
    TaskInsert(t.title, t.isCompleted, t.priority, t.dueDate, t.createdAt, t.completedAt)
  }
  function AsTaskUpdate(t: Task): TaskUpdate
  {
    TaskUpdate(t.id, t.title, t.isCompleted, t.priority, t.dueDate, t.completedAt)
  }

  function MapSeq<T, U>(s: seq<T>, f: T -> U): (r: seq<U>)
    ensures |r| == |s|
  {
    if |s| == 0 then [] else MapSeq(s[..|s| - 1], f) + [f(s[|s| - 1])]
  }

  lemma {:induction false} MapSeqAt<T, U>(s: seq<T>, f: T -> U)
    ensures forall i :: 0 <= i < |s| ==> MapSeq(s, f)[i] == f(s[i])
  {
    if |s| > 0 {
      MapSeqAt(s[..|s| - 1], f);
    }
  }

  /** The elements with a temporary id, in order. */
  function Temps<T(!new)>(s: seq<T>, id: T -> string): (r: seq<T>)
    ensures |r| <= |s|
  {
    if |s| == 0 then []
    else
      var p := s[..|s| - 1];
      assert s == p + [s[|s| - 1]];
      if IsTempId(id(s[|s| - 1])) then Temps(p, id) + [s[|s| - 1]] else Temps(p, id)
  }

  /** The elements with a permanent id that is not queued for deletion, in order. */
  function Kept<T(!new)>(s: seq<T>, id: T -> string, deleted: seq<string>): (r: seq<T>)
    ensures |r| <= |s|
  {
    if |s| == 0 then []
    else
      var p := s[..|s| - 1];
      var x := s[|s| - 1];
      assert s == p + [x];
      if !IsTempId(id(x)) && id(x) !in deleted then Kept(p, id, deleted) + [x] else Kept(p, id, deleted)
  }

  /** The elements with a permanent id queued for deletion: neither sent nor kept. */
  function Skipped<T(!new)>(s: seq<T>, id: T -> string, deleted: seq<string>): (r: seq<T>)
    ensures |r| <= |s|
  {
    if |s| == 0 then []
    else
      var p := s[..|s| - 1];
      var x := s[|s| - 1];
      assert s == p + [x];
      if !IsTempId(id(x)) && id(x) in deleted then Skipped(p, id, deleted) + [x] else Skipped(p, id, deleted)
  }

  /** Temporary ids are sent as inserts, permanent ones not queued as updates,
      and the rest are skipped. */
  lemma {:induction false} PartitionMembership<T(!new)>(s: seq<T>, id: T -> string, deleted: seq<string>)
    ensures forall x :: x in Temps(s, id) <==> x in s && IsTempId(id(x))
    ensures forall x :: x in Kept(s, id, deleted) <==> x in s && !IsTempId(id(x)) && id(x) !in deleted
    ensures forall x :: x in Skipped(s, id, deleted) <==> x in s && !IsTempId(id(x)) && id(x) in deleted
  {
    if |s| > 0 {
      var p := s[..|s| - 1];
      assert s == p + [s[|s| - 1]];
      PartitionMembership(p, id, deleted);
    }
  }

  /** One more element extends exactly one of the three lists. */
  lemma FilterStep<T(!new)>(s: seq<T>, n: nat, id: T -> string, deleted: seq<string>)
    requires n < |s|
    ensures Temps(s[..n + 1], id) == Temps(s[..n], id) + (if IsTempId(id(s[n])) then [s[n]] else [])
    ensures Kept(s[..n + 1], id, deleted) ==
              Kept(s[..n], id, deleted) + (if !IsTempId(id(s[n])) && id(s[n]) !in deleted then [s[n]] else [])
  {
    assert s[..n + 1][..n] == s[..n];
  }

  lemma MapSeqSnoc<T, U>(s: seq<T>, x: T, f: T -> U)
    ensures MapSeq(s + [x], f) == MapSeq(s, f) + [f(x)]
  {
    assert (s + [x])[..|s|] == s;
  }

  /** Every element lands in exactly one of the three lists. */
  lemma {:induction false} PartitionSizes<T(!new)>(s: seq<T>, id: T -> string, deleted: seq<string>)
    ensures |Temps(s, id)| + |Kept(s, id, deleted)| + |Skipped(s, id, deleted)| == |s|
  {
    if |s| > 0 {
      PartitionSizes(s[..|s| - 1], id, deleted);
    }
  }

  method PartitionHabits(habits: seq<Habit>, deletedHabitIds: seq<string>)
    returns (toInsert: seq<HabitInsert>, toUpdate: seq<HabitUpdate>, tempOrder: seq<string>)
    ensures toInsert == MapSeq(Temps(habits, HabitId), AsHabitInsert)
    ensures tempOrder == MapSeq(Temps(habits, HabitId), HabitId)
    ensures toUpdate == MapSeq(Kept(habits, HabitId, deletedHabitIds), AsHabitUpdate)
  {
    toInsert, toUpdate, tempOrder := [], [], [];
    for n := 0 to |habits|
      invariant toInsert == MapSeq(Temps(habits[..n], HabitId), AsHabitInsert)
      invariant tempOrder == MapSeq(Temps(habits[..n], HabitId), HabitId)
      invariant toUpdate == MapSeq(Kept(habits[..n], HabitId, deletedHabitIds), AsHabitUpdate)
    {
      var h := habits[n];
      FilterStep(habits, n, HabitId, deletedHabitIds);
      ghost var temps := Temps(habits[..n], HabitId);
      ghost var kept := Kept(habits[..n], HabitId, deletedHabitIds);
      if IsTempId(h.id) {
        tempOrder := tempOrder + [h.id];
        toInsert := toInsert + [AsHabitInsert(h)];
        MapSeqSnoc(temps, h, HabitId);
        MapSeqSnoc(temps, h, AsHabitInsert);
        assert kept + [] == kept;
      } else if h.id !in deletedHabitIds {
        toUpdate := toUpdate + [AsHabitUpdate(h)];
        MapSeqSnoc(kept, h, AsHabitUpdate);
        assert temps + [] == temps;
      } else {
        assert temps + [] == temps && kept + [] == kept;
      }
    }
    assert habits[..|habits|] == habits;
  }

  method PartitionTasks(tasks: seq<Task>, deletedTaskIds: seq<string>)
    returns (toInsert: seq<TaskInsert>, toUpdate: seq<TaskUpdate>, tempOrder: seq<string>)
    ensures toInsert == MapSeq(Temps(tasks, TaskId), AsTaskInsert)
    ensures tempOrder == MapSeq(Temps(tasks, TaskId), TaskId)
    ensures toUpdate == MapSeq(Kept(tasks, TaskId, deletedTaskIds), AsTaskUpdate)
  {
    toInsert, toUpdate, tempOrder := [], [], [];
    for n := 0 to |tasks|
      invariant toInsert == MapSeq(Temps(tasks[..n], TaskId), AsTaskInsert)
      invariant tempOrder == MapSeq(Temps(tasks[..n], TaskId), TaskId)
      invariant toUpdate == MapSeq(Kept(tasks[..n], TaskId, deletedTaskIds), AsTaskUpdate)
    {
      var t := tasks[n];
      FilterStep(tasks, n, TaskId, deletedTaskIds);
      ghost var temps := Temps(tasks[..n], TaskId);
      ghost var kept := Kept(tasks[..n], TaskId, deletedTaskIds);
      if IsTempId(t.id) {
        tempOrder := tempOrder + [t.id];
        toInsert := toInsert + [AsTaskInsert(t)];
        MapSeqSnoc(temps, t, TaskId);
        MapSeqSnoc(temps, t, AsTaskInsert);
        assert kept + [] == kept;
      } else if t.id !in deletedTaskIds {
        toUpdate := toUpdate + [AsTaskUpdate(t)];
        MapSeqSnoc(kept, t, AsTaskUpdate);
        assert temps + [] == temps;
      } else {
        assert temps + [] == temps && kept + [] == kept;
      }
    }
    assert tasks[..|tasks|] == tasks;
  }

  // -----------------------------------------------------------------------
  // Temporary id → inserted id

  /** `habitIdMap` after `habitTempOrder.forEach`: each temporary id whose
      position has an inserted row maps to that row's id (a later duplicate
      overwrites an earlier one). */
  function IdMap(tempOrder: seq<string>, inserted: seq<InsertedRow>): map<string, string>
  {
    if |tempOrder| == 0 then map[]
    else
      var n := |tempOrder| - 1;
      var m := IdMap(tempOrder[..n], inserted);
      if n < |inserted| then m[tempOrder[n] := inserted[n].id] else m
  }

  method BuildIdMap(tempOrder: seq<string>, inserted: seq<InsertedRow>) returns (m: map<string, string>)
    ensures m == IdMap(tempOrder, inserted)
  {
    m := map[];
    for i := 0 to |tempOrder|
      invariant m == IdMap(tempOrder[..i], inserted)
    {
      assert tempOrder[..i + 1][..i] == tempOrder[..i];
      if i < |inserted| {
        m := m[tempOrder[i] := inserted[i].id];
      }
    }
    assert tempOrder[..|tempOrder|] == tempOrder;
  }

  ghost predicate Distinct(s: seq<string>)
  {
    forall i, j :: 0 <= i < j < |s| ==> s[i] != s[j]
  }

  /** The map's keys are the temporary ids that have a row at their position,
      and with distinct temporary ids each maps to the row at its own position. */
  lemma {:induction false} IdMapFacts(tempOrder: seq<string>, inserted: seq<InsertedRow>)
    ensures forall k :: k in IdMap(tempOrder, inserted) <==>
              exists i :: 0 <= i < |tempOrder| && i < |inserted| && tempOrder[i] == k
    ensures Distinct(tempOrder) ==>
              forall i :: 0 <= i < |tempOrder| && i < |inserted| ==> IdMap(tempOrder, inserted)[tempOrder[i]] == inserted[i].id
  {
    if |tempOrder| > 0 {
      var n := |tempOrder| - 1;
      var p := tempOrder[..n];
      IdMapFacts(p, inserted);
      forall k | k in IdMap(tempOrder, inserted)
        ensures exists i :: 0 <= i < |tempOrder| && i < |inserted| && tempOrder[i] == k
      {
        if k in IdMap(p, inserted) {
          var i :| 0 <= i < |p| && i < |inserted| && p[i] == k;
          assert tempOrder[i] == k;
        } else {
          assert tempOrder[n] == k;
        }
      }
      forall k | exists i :: 0 <= i < |tempOrder| && i < |inserted| && tempOrder[i] == k
        ensures k in IdMap(tempOrder, inserted)
      {
        var i :| 0 <= i < |tempOrder| && i < |inserted| && tempOrder[i] == k;
        if i < n { assert p[i] == k; }
      }
      if Distinct(tempOrder) {
        assert Distinct(p);
        forall i | 0 <= i < |tempOrder| && i < |inserted|
          ensures IdMap(tempOrder, inserted)[tempOrder[i]] == inserted[i].id
        {
          if i < n {
            assert p[i] == tempOrder[i] && tempOrder[i] != tempOrder[n];
          }
        }
      }
    }
  }

  /** `habitIdMap[k] ?? k` */
  function Resolve(idMap: map<string, string>, k: string): string
  {
    if k in idMap then idMap[k] else k
  }

  // -----------------------------------------------------------------------
  // remapHabits and the bulk payload

  /** No other key of `status` resolves to the same id as k. */
  ghost predicate Unshared(status: map<string, bool>, idMap: map<string, string>, k: string)
  {
    forall k' :: k' in status && k' != k ==> Resolve(idMap, k') != Resolve(idMap, k)
  }

  /** `out` is a result `remapHabits(status)` can give: keys are the resolved
      ids not queued for deletion, each carrying the flag of a key that
      resolves to it. */
  ghost predicate IsRemap(out: map<string, bool>, status: map<string, bool>,
                          idMap: map<string, string>, deleted: seq<string>)
  {
    (forall k :: k in status && Resolve(idMap, k) !in deleted ==> Resolve(idMap, k) in out)
    && (forall r :: r in out ==>
          r !in deleted && exists k :: k in status && Resolve(idMap, k) == r && out[r] == status[k])
  }

  /** With no two keys resolving to the same id, every surviving key keeps its own flag. */
  lemma RemapKeepsFlags(out: map<string, bool>, status: map<string, bool>,
                        idMap: map<string, string>, deleted: seq<string>, k: string)
    requires IsRemap(out, status, idMap, deleted)
    requires k in status && Resolve(idMap, k) !in deleted && Unshared(status, idMap, k)
    ensures Resolve(idMap, k) in out && out[Resolve(idMap, k)] == status[k]
  {
    var r := Resolve(idMap, k);
    var k' :| k' in status && Resolve(idMap, k') == r && out[r] == status[k'];
  }

  /** Object key order is not modelled, so the keys are visited in any order. */
  method RemapHabits(status: map<string, bool>, idMap: map<string, string>, deleted: seq<string>)
    returns (out: map<string, bool>)
    ensures IsRemap(out, status, idMap, deleted)
  {
    out := map[];
    var todo := status.Keys;
    while todo != {}
      invariant todo <= status.Keys
      invariant forall k :: k in status && k !in todo && Resolve(idMap, k) !in deleted ==> Resolve(idMap, k) in out
      invariant forall r :: r in out ==>
                  r !in deleted && exists k :: k in status && Resolve(idMap, k) == r && out[r] == status[k]
      decreases todo
    {
      var k :| k in todo;
      var realId := Resolve(idMap, k);
      if realId !in deleted {
        ghost var prev := out;
        out := out[realId := status[k]];
        forall r | r in out
          ensures r !in deleted && exists k0 :: k0 in status && Resolve(idMap, k0) == r && out[r] == status[k0]
        {
          if r == realId {
            assert Resolve(idMap, k) == r && out[r] == status[k];
          } else {
            var k0 :| k0 in status && Resolve(idMap, k0) == r && prev[r] == status[k0];
          }
        }
      }
      todo := todo - {k};
    }
  }

  /** The payload carries the log's fields with its habit keys remapped. */
  ghost predicate Carries(p: LogPayload, l: DailyLog, idMap: map<string, string>, deleted: seq<string>)
  {
    p.sleepStart == l.sleepStart && p.sleepEnd == l.sleepEnd && p.pushupCount == l.pushupCount
    && p.notes == l.notes && IsRemap(p.habitsStatus, l.habitsStatus, idMap, deleted)
  }

  method BuildBulkEntries(modifiedLogs: map<string, DailyLog>, idMap: map<string, string>, deleted: seq<string>)
    returns (bulk: map<string, LogPayload>)
    ensures bulk.Keys == modifiedLogs.Keys
    ensures forall d :: d in bulk ==> Carries(bulk[d], modifiedLogs[d], idMap, deleted)
  {
    bulk := map[];
    var todo := modifiedLogs.Keys;
    while todo != {}
      invariant todo <= modifiedLogs.Keys
      invariant bulk.Keys == modifiedLogs.Keys - todo
      invariant forall d :: d in bulk ==> Carries(bulk[d], modifiedLogs[d], idMap, deleted)
      decreases todo
    {
      var d :| d in todo;
      var log := modifiedLogs[d];
      var status := RemapHabits(log.habitsStatus, idMap, deleted);
      bulk := bulk[d := LogPayload(log.sleepStart, log.sleepEnd, status, log.pushupCount, log.notes)];
      todo := todo - {d};
    }
  }

  // -----------------------------------------------------------------------
  // The phases

  function HabitSyncCall(snap: Snapshot): GatewayCall
  {
    SyncHabits(snap.deletedHabitIds,
               MapSeq(Temps(snap.habitDefinitions, HabitId), AsHabitInsert),
               MapSeq(Kept(snap.habitDefinitions, HabitId, snap.deletedHabitIds), AsHabitUpdate))
  }

  function TaskSyncCall(snap: Snapshot): GatewayCall
  {
    SyncTasks(snap.deletedTaskIds,
              MapSeq(Temps(snap.tasks, TaskId), AsTaskInsert),
              MapSeq(Kept(snap.tasks, TaskId, snap.deletedTaskIds), AsTaskUpdate))
  }

  function SettingsCall(s: UserSettings): GatewayCall
  {
    UpsertSettings(s.pushupGoal, s.targetSleepHours.GetOr(DefaultTargetSleepHours))
  }

  function HabitTempOrder(snap: Snapshot): seq<string>
  {
    MapSeq(Temps(snap.habitDefinitions, HabitId), HabitId)
  }

  function TaskTempOrder(snap: Snapshot): seq<string>
  {
    MapSeq(Temps(snap.tasks, TaskId), TaskId)
  }

  /** The logs call saves every snapshot date, habit keys re-keyed by `idMap`. */
  ghost predicate IsLogsCall(c: GatewayCall, snap: Snapshot, idMap: map<string, string>)
  {
    c.SaveLogsBulk? && c.entries.Keys == snap.modifiedLogs.Keys
    && forall d :: d in c.entries ==> Carries(c.entries[d], snap.modifiedLogs[d], idMap, snap.deletedHabitIds)
  }

  /** `logs365Res.data ?? []`: a refresh error is ignored. */
  function Refreshed(r: Reply<seq<DailyLog>>): seq<DailyLog>
    requires !r.Threw?
  {
    if r.Ok? then r.value else []
  }

  /** The refreshed logs sorted by date (`localeCompare` on the date keys). */
  function SortedRefresh(r: Reply<seq<DailyLog>>): seq<DailyLog>
    requires !r.Threw?
  {
    SortBy(Refreshed(r), LogDate)
  }

  /** Whether a save gets through every phase it runs. */
  predicate Succeeds(replies: SaveReplies, hasSettings: bool)
  {
    replies.habits.Ok? && replies.logs.Ok? && replies.tasks.Ok?
    && (hasSettings ==> replies.settings.Ok?) && !replies.refresh.Threw?
  }

  /** The message of the first phase that fails. */
  function FirstFailure(replies: SaveReplies, hasSettings: bool): string
    requires !Succeeds(replies, hasSettings)
  {
    if !replies.habits.Ok? then ErrorOf(replies.habits)
    else if !replies.logs.Ok? then ErrorOf(replies.logs)
    else if !replies.tasks.Ok? then ErrorOf(replies.tasks)
    else if hasSettings && !replies.settings.Ok? then ErrorOf(replies.settings)
    else ErrorOf(replies.refresh)
  }

  /** How many gateway calls a save makes: one per phase up to and including
      the first that fails; the settings phase runs only with settings. */
  function PhasesRun(replies: SaveReplies, hasSettings: bool): (n: nat)
    ensures 1 <= n <= 5
    ensures n == 1 <==> !replies.habits.Ok?
    ensures n >= 2 <==> replies.habits.Ok?
    ensures n >= 3 <==> replies.habits.Ok? && replies.logs.Ok?
    ensures n == 5 ==> hasSettings
    ensures n == 2 <==> replies.habits.Ok? && !replies.logs.Ok?
    ensures n == 3 <==> replies.habits.Ok? && replies.logs.Ok? && !replies.tasks.Ok?
    ensures n == 4 <==> replies.habits.Ok? && replies.logs.Ok? && replies.tasks.Ok?
                        && (!hasSettings || !replies.settings.Ok?)
    ensures n == 5 <==> replies.habits.Ok? && replies.logs.Ok? && replies.tasks.Ok?
                        && hasSettings && replies.settings.Ok?
  {
    if !replies.habits.Ok? then 1
    else if !replies.logs.Ok? then 2
    else if !replies.tasks.Ok? then 3
    else if hasSettings then (if replies.settings.Ok? then 5 else 4)
    else 4
  }

  /** What a save hands to the commit, given every phase's reply. */
  function PhaseOutcome(snap: Snapshot, hasSettings: bool, replies: SaveReplies): SaveOutcome
  {
    if Succeeds(replies, hasSettings)
    then Saved(HabitTempOrder(snap), replies.habits.value, TaskTempOrder(snap), replies.tasks.value,
               SortedRefresh(replies.refresh))
    else NotSaved(FirstFailure(replies, hasSettings))
  }

  /** A sync call asks to delete exactly the ids queued in the snapshot. */
  predicate DeletesQueued(snap: Snapshot, c: GatewayCall)
  {
    (c.SyncHabits? ==> c.deletedIds == snap.deletedHabitIds)
    && (c.SyncTasks? ==> c.deletedTaskIds == snap.deletedTaskIds)
  }

  /** Every sync call of a save asks to delete exactly the ids queued in its snapshot. */
  ghost predicate DeletesOnlyQueued(snap: Snapshot, calls: seq<GatewayCall>)
    decreases |calls|
  {
    |calls| == 0 || (DeletesQueued(snap, calls[0]) && DeletesOnlyQueued(snap, calls[1..]))
  }

  lemma {:induction false} DeletesOnlyQueuedAppend(snap: Snapshot, a: seq<GatewayCall>, b: seq<GatewayCall>)
    requires DeletesOnlyQueued(snap, a) && DeletesOnlyQueued(snap, b)
    ensures DeletesOnlyQueued(snap, a + b)
    decreases |a|
  {
    if |a| > 0 {
      assert (a + b)[1..] == a[1..] + b;
      DeletesOnlyQueuedAppend(snap, a[1..], b);
    } else {
      assert a + b == b;
    }
  }

  /** No sync call asks the server to delete a row by a temporary id. */
  ghost predicate SendsNoTempDeletion(calls: seq<GatewayCall>)
  {
    forall k :: 0 <= k < |calls| ==>
      (calls[k].SyncHabits? ==> forall id :: id in calls[k].deletedIds ==> !IsTempId(id))
      && (calls[k].SyncTasks? ==> forall id :: id in calls[k].deletedTaskIds ==> !IsTempId(id))
  }

  /** A save whose queues hold only permanent ids never asks for a temporary
      one to be deleted. */
  lemma {:induction false} QueuedPermanentNeverDeleted(snap: Snapshot, calls: seq<GatewayCall>)
    requires forall id :: id in snap.deletedTaskIds ==> !IsTempId(id)
    requires forall id :: id in snap.deletedHabitIds ==> !IsTempId(id)
    requires DeletesOnlyQueued(snap, calls)
    ensures SendsNoTempDeletion(calls)
    decreases |calls|
  {
    if |calls| > 0 {
      QueuedPermanentNeverDeleted(snap, calls[1..]);
      forall k | 0 <= k < |calls|
        ensures calls[k].SyncHabits? ==> forall id :: id in calls[k].deletedIds ==> !IsTempId(id)
        ensures calls[k].SyncTasks? ==> forall id :: id in calls[k].deletedTaskIds ==> !IsTempId(id)
      {
        if k > 0 { assert calls[k] == calls[1..][k - 1]; }
      }
    }
  }

  /** habits → logs → tasks → settings (only when the store has settings, read
      at that point) → refresh; the first failure ends the save. */
  method RunSavePhases(snap: Snapshot, settings: Option<UserSettings>, today: string, replies: SaveReplies)
    returns (outcome: SaveOutcome, calls: seq<GatewayCall>)
    ensures outcome == PhaseOutcome(snap, settings.Some?, replies)
    ensures |calls| == PhasesRun(replies, settings.Some?) && calls[0] == HabitSyncCall(snap)
    ensures replies.habits.Ok? ==> IsLogsCall(calls[1], snap, IdMap(HabitTempOrder(snap), replies.habits.value))
    ensures |calls| >= 3 ==> calls[2] == TaskSyncCall(snap)
    ensures DeletesOnlyQueued(snap, calls)
    ensures |calls| >= 4 && settings.Some? ==> calls[3] == SettingsCall(settings.value)
    ensures |calls| == (if settings.Some? then 5 else 4) ==> calls[|calls| - 1] == FetchLogs(RefreshDays, today)
  {
    var habitToInsert, habitToUpdate, habitTempOrder := PartitionHabits(snap.habitDefinitions, snap.deletedHabitIds);
    calls := [SyncHabits(snap.deletedHabitIds, habitToInsert, habitToUpdate)];
    if !replies.habits.Ok? {
      return NotSaved(ErrorOf(replies.habits)), calls;
    }
    var habitIdMap := BuildIdMap(habitTempOrder, replies.habits.value);
    var bulkEntries := BuildBulkEntries(snap.modifiedLogs, habitIdMap, snap.deletedHabitIds);
    DeletesOnlyQueuedAppend(snap, calls, [SaveLogsBulk(bulkEntries)]);
    calls := calls + [SaveLogsBulk(bulkEntries)];
    if !replies.logs.Ok? {
      return NotSaved(ErrorOf(replies.logs)), calls;
    }

    var later;
    outcome, later := RunLaterPhases(snap, settings, today, replies);
    DeletesOnlyQueuedAppend(snap, calls, later);
    calls := calls + later;
  }

  /** The phases after the logs have been saved: tasks, settings, refresh. */
  method RunLaterPhases(snap: Snapshot, settings: Option<UserSettings>, today: string, replies: SaveReplies)
    returns (outcome: SaveOutcome, calls: seq<GatewayCall>)
    requires replies.habits.Ok? && replies.logs.Ok?
    ensures outcome == PhaseOutcome(snap, settings.Some?, replies)
    ensures |calls| == PhasesRun(replies, settings.Some?) - 2 && calls[0] == TaskSyncCall(snap)
    ensures |calls| >= 2 && settings.Some? ==> calls[1] == SettingsCall(settings.value)
    ensures DeletesOnlyQueued(snap, calls)
    ensures |calls| == (if settings.Some? then 3 else 2) ==> calls[|calls| - 1] == FetchLogs(RefreshDays, today)
  {
    var toInsert, toUpdate, tempOrder := PartitionTasks(snap.tasks, snap.deletedTaskIds);
    calls := [SyncTasks(snap.deletedTaskIds, toInsert, toUpdate)];
    if !replies.tasks.Ok? {
      return NotSaved(ErrorOf(replies.tasks)), calls;
    }
    var inserted := replies.tasks.value;

    if settings.Some? {
      DeletesOnlyQueuedAppend(snap, calls, [SettingsCall(settings.value)]);
      calls := calls + [SettingsCall(settings.value)];
      if !replies.settings.Ok? {
        return NotSaved(ErrorOf(replies.settings)), calls;
      }
    }

    DeletesOnlyQueuedAppend(snap, calls, [FetchLogs(RefreshDays, today)]);
    calls := calls + [FetchLogs(RefreshDays, today)];
    if replies.refresh.Threw? {
      return NotSaved(ErrorOf(replies.refresh)), calls;
    }
    outcome := Saved(HabitTempOrder(snap), replies.habits.value, tempOrder, inserted, SortedRefresh(replies.refresh));
  }

  // -----------------------------------------------------------------------
  // Renaming at commit: `tempOrder.indexOf(t.id)` and `inserted[idx]`

  /** First position of x in s, or -1. */
  function IndexOf(s: seq<string>, x: string): (i: int)
    ensures -1 <= i < |s|
    ensures i >= 0 ==> s[i] == x && x !in s[..i]
    ensures i < 0 ==> x !in s
  {
    if |s| == 0 then -1
    else if s[0] == x then 0
    else
      var j := IndexOf(s[1..], x);
      assert s[1..][..j + 1] == s[..j + 2][1..] by {}
      if j < 0 then -1 else j + 1
  }

  function ResolveTask(t: Task, tempOrder: seq<string>, inserted: seq<InsertedRow>): Task
  {
    if !IsTempId(t.id) then t
    else
      var idx := IndexOf(tempOrder, t.id);
      if idx < 0 || idx >= |inserted| then t
      else t.(id := inserted[idx].id, userId := inserted[idx].userId)
  }

  function ResolveHabit(h: Habit, tempOrder: seq<string>, inserted: seq<InsertedRow>): Habit
  {
    if !IsTempId(h.id) then h
    else
      var idx := IndexOf(tempOrder, h.id);
      if idx < 0 || idx >= |inserted| then h
      else h.(id := inserted[idx].id, userId := inserted[idx].userId)
  }

  function RemapTaskIds(ts: seq<Task>, tempOrder: seq<string>, inserted: seq<InsertedRow>): (r: seq<Task>)
    ensures |r| == |ts| && forall i :: 0 <= i < |ts| ==> r[i] == ResolveTask(ts[i], tempOrder, inserted)
  {
    seq(|ts|, i requires 0 <= i < |ts| => ResolveTask(ts[i], tempOrder, inserted))
  }

  function RemapHabitIds(hs: seq<Habit>, tempOrder: seq<string>, inserted: seq<InsertedRow>): (r: seq<Habit>)
    ensures |r| == |hs| && forall i :: 0 <= i < |hs| ==> r[i] == ResolveHabit(hs[i], tempOrder, inserted)
  {
    seq(|hs|, i requires 0 <= i < |hs| => ResolveHabit(hs[i], tempOrder, inserted))
  }

  /** Only the id and the owner change; a permanent id or a temporary id the
      save did not send (added mid-save) stays; a sent one takes the row at
      its position. */
  lemma ResolveTaskFacts(t: Task, tempOrder: seq<string>, inserted: seq<InsertedRow>)
    ensures ResolveTask(t, tempOrder, inserted).(id := t.id, userId := t.userId) == t
    ensures !IsTempId(t.id) || t.id !in tempOrder ==> ResolveTask(t, tempOrder, inserted) == t
    ensures forall j :: 0 <= j < |tempOrder| && j < |inserted| && IsTempId(t.id) && tempOrder[j] == t.id
                        && Distinct(tempOrder) ==>
              ResolveTask(t, tempOrder, inserted).id == inserted[j].id
  {
    var idx := IndexOf(tempOrder, t.id);
    forall j | 0 <= j < |tempOrder| && j < |inserted| && IsTempId(t.id) && tempOrder[j] == t.id && Distinct(tempOrder)
      ensures ResolveTask(t, tempOrder, inserted).id == inserted[j].id
    {
      assert idx == j;
    }
  }

  lemma ResolveHabitFacts(h: Habit, tempOrder: seq<string>, inserted: seq<InsertedRow>)
    ensures ResolveHabit(h, tempOrder, inserted).(id := h.id, userId := h.userId) == h
    ensures !IsTempId(h.id) || h.id !in tempOrder ==> ResolveHabit(h, tempOrder, inserted) == h
    ensures forall j :: 0 <= j < |tempOrder| && j < |inserted| && IsTempId(h.id) && tempOrder[j] == h.id
                        && Distinct(tempOrder) ==>
              ResolveHabit(h, tempOrder, inserted).id == inserted[j].id
  {
    var idx := IndexOf(tempOrder, h.id);
    forall j | 0 <= j < |tempOrder| && j < |inserted| && IsTempId(h.id) && tempOrder[j] == h.id && Distinct(tempOrder)
      ensures ResolveHabit(h, tempOrder, inserted).id == inserted[j].id
    {
      assert idx == j;
    }
  }

  /** A habit and the log keys that refer to it are renamed alike: with
      distinct temporary ids, the commit's `indexOf` rename of a sent habit
      equals `habitIdMap` resolution used for the saved logs. */
  lemma RenameConsistent(h: Habit, tempOrder: seq<string>, inserted: seq<InsertedRow>)
    requires Distinct(tempOrder) && forall k :: k in tempOrder ==> IsTempId(k)
    ensures ResolveHabit(h, tempOrder, inserted).id == Resolve(IdMap(tempOrder, inserted), h.id)
  {
    IdMapFacts(tempOrder, inserted);
    var idx := IndexOf(tempOrder, h.id);
    if 0 <= idx < |inserted| {
      assert tempOrder[idx] in tempOrder;
      ResolveHabitFacts(h, tempOrder, inserted);
    }
  }

  /** When the server returns a permanent row for every insert, no task the
      save sent keeps a temporary id. */
  lemma SentTasksResolved(ts: seq<Task>, tempOrder: seq<string>, inserted: seq<InsertedRow>)
    requires |inserted| >= |tempOrder|
    requires forall r :: r in inserted ==> !IsTempId(r.id)
    ensures forall i :: 0 <= i < |ts| && ts[i].id in tempOrder ==>
              !IsTempId(RemapTaskIds(ts, tempOrder, inserted)[i].id)
  {
    forall i | 0 <= i < |ts| && ts[i].id in tempOrder
      ensures !IsTempId(RemapTaskIds(ts, tempOrder, inserted)[i].id)
    {
      var idx := IndexOf(tempOrder, ts[i].id);
      if IsTempId(ts[i].id) {
        assert inserted[idx] in inserted;
      }
    }
  }
}

=== FILE: sleep_score.dfy ===
/**
 * The sleep-quality card: hours slept, classified into four bands, or
 * "No data yet" when the session is incomplete.
 */
module SleepScore {
  import opened Wrappers
  import opened Records
  import opened DateUtils

  datatype Quality = Insufficient | Fair | Optimal | Excessive

  /** Position of a band, from too little sleep to too much. */
  function Rank(q: Quality): nat
  {
    match q
    case Insufficient => 0
    case Fair => 1
    case Optimal => 2
    case Excessive => 3
  }

  /** `getSleepQuality`: under 6 hours, under 7, up to 9 inclusive, above. */
  function SleepQuality(hours: real): (q: Quality)
    ensures q == Insufficient <==> hours < 6.0
    ensures q == Fair <==> 6.0 <= hours < 7.0
    ensures q == Optimal <==> 7.0 <= hours <= 9.0
    ensures q == Excessive <==> hours > 9.0
  {
    if hours < 6.0 then Insufficient
    else if hours < 7.0 then Fair
    else if hours <= 9.0 then Optimal
    else Excessive
  }

  /** More sleep never lands in an earlier band. */
  lemma SleepQualityMonotone(h1: real, h2: real)
    requires h1 <= h2
    ensures Rank(SleepQuality(h1)) <= Rank(SleepQuality(h2))
  {
  }

  function Label(q: Quality): string
  {
    match q
    case Insufficient => "Insufficient"
    case Fair => "Fair"
    case Optimal => "Optimal"
    case Excessive => "Excessive"
  }

  /** What the card shows. */
  datatype Card = NoData | Rated(caption: string, quality: Quality, hours: real)

  /** The card for a log; `startMs` and `endMs` are the instants its
      timestamps denote. */
  function ScoreCard(log: DailyLog, startMs: int, endMs: int): (c: Card)
    ensures c.NoData? <==> !Present(log.sleepStart) || !Present(log.sleepEnd)
    ensures c.Rated? ==> c.hours >= 0.0 && c.quality == SleepQuality(c.hours) && c.caption == Label(c.quality)
  {
    var hours := DurationHours(if Present(log.sleepStart) then Some(startMs) else None,
                               if Present(log.sleepEnd) then Some(endMs) else None);
    var quality := SleepQuality(hours);
    if !(Present(log.sleepStart) && Present(log.sleepEnd)) then NoData
    else Rated(Label(quality), quality, hours)
  }

  /** A night that ends before it starts is rated on zero hours. */
  lemma BackwardsNightInsufficient(log: DailyLog, startMs: int, endMs: int)
    requires Present(log.sleepStart) && Present(log.sleepEnd) && endMs <= startMs
    ensures ScoreCard(log, startMs, endMs) == Rated("Insufficient", Insufficient, 0.0)
  {
    DurationBounds(startMs, endMs);
  }
}

=== FILE: sleep_tracker.dfy ===
/**
 * The sleep tracker card: clock-time helpers, the start/stop button (which
 * throws away sessions shorter than ten minutes) and the wake-time editor
 * (which puts the wake time on the bed date or the day after). Instants
 * are milliseconds; the local clock time of a stored instant is passed in.
 */
module SleepTracker {
  import opened Wrappers
  import opened Text
  import opened Records
  import opened DateUtils
  import LifeStore

  /** A local wall-clock time. */
  datatype Clock = Clock(hour: nat, minute: nat)

  predicate ValidClock(c: Clock)
  {
    c.hour < 24 && c.minute < 60
  }

  function Minutes(c: Clock): int
  {
    c.hour * 60 + c.minute
  }

  /** `${pad(hours)}:${pad(minutes)}`, the value of a time input. */
  function ClockText(c: Clock): string
  {
    Pad2(c.hour) + (":" + Pad2(c.minute))
  }

  /** `timeToMinutes`: `split(":").map(Number)`, hours times 60 plus minutes,
      a missing minute part counting as 0. Parts are read as decimal digits. */
  function TimeToMinutes(t: string): int
  {
    var parts := Split(t, ':');
    DigitsValue(parts[0]) * 60 + (if |parts| > 1 then DigitsValue(parts[1]) else 0)
  }

  /** Reading back a rendered clock time gives its minutes since midnight. */
  lemma ClockMinutes(c: Clock)
    requires ValidClock(c)
    ensures TimeToMinutes(ClockText(c)) == Minutes(c)
  {
    var h, m := Pad2(c.hour), Pad2(c.minute);
    Pad2Shape(c.hour);
    Pad2Shape(c.minute);
    assert ':' !in h by { assert h == [h[0], h[1]]; }
    assert ':' !in m by { assert m == [m[0], m[1]]; }
    assert ClockText(c) == h + [':'] + m;
    SplitAtSep(h, m, ':');
    SplitNoSep(m, ':');
  }

  /** A time without a colon is whole hours. */
  lemma HoursOnly(c: Clock)
    requires ValidClock(c)
    ensures TimeToMinutes(Pad2(c.hour)) == c.hour * 60
  {
    var h := Pad2(c.hour);
    Pad2Shape(c.hour);
    assert ':' !in h by { assert h == [h[0], h[1]]; }
    SplitNoSep(h, ':');
  }

  /** `isoForDateAndTime`: a local date-time without offset, from which the
      date and the time can be read back. */
  function IsoForDateAndTime(date: string, time: string): (iso: string)
    ensures |iso| == |date| + |time| + 4
    ensures iso[..|date|] == date && iso[|date|] == 'T'
    ensures iso[|date| + 1..|iso| - 3] == time && iso[|iso| - 3..] == ":00"
  {
    date + "T" + time + ":00"
  }

  /** `timeFromIso`: "22:00" for a missing timestamp, otherwise the local
      clock time `local` of the instant it denotes. */
  function TimeFromIso(iso: Option<string>, local: Clock): string
  {
    if !Present(iso) then "22:00" else ClockText(local)
  }

  /** A missing start reads as ten in the evening. */
  lemma BedMinutes(iso: Option<string>, local: Clock)
    requires ValidClock(local)
    ensures TimeToMinutes(TimeFromIso(iso, local)) == if Present(iso) then Minutes(local) else 22 * 60
  {
    if Present(iso) {
      ClockMinutes(local);
    } else {
      assert "22:00" == ClockText(Clock(22, 0));
      ClockMinutes(Clock(22, 0));
    }
  }

  /** `isWakeNextDay`: waking at or before the bed time means the next day. */
  predicate IsWakeNextDay(bedTime: string, wakeTime: string)
  {
    TimeToMinutes(wakeTime) <= TimeToMinutes(bedTime)
  }

  lemma WakeNextDayClocks(bed: Clock, wake: Clock)
    requires ValidClock(bed) && ValidClock(wake)
    ensures IsWakeNextDay(ClockText(bed), ClockText(wake)) <==> Minutes(wake) <= Minutes(bed)
    ensures IsWakeNextDay(ClockText(bed), ClockText(bed))
  {
    ClockMinutes(bed);
    ClockMinutes(wake);
  }

  // ---------------------------------------------------------------------
  // Button state

  /** `isSleeping`: a start and no end. */
  predicate IsSleeping(log: DailyLog)
  {
    Present(log.sleepStart) && !Present(log.sleepEnd)
  }

  /** `startStopDisabled`: the button works only once loaded, while not
      loading, and on today's log. */
  function StartStopDisabled(s: LifeStore.Store, todayKey: string): (disabled: bool)
    reads s
    ensures !disabled <==> s.isInitialized && !s.loading && s.selectedDate == todayKey
  {
    var controlsDisabled := !s.isInitialized || s.loading;
    controlsDisabled || s.selectedDate != todayKey
  }

  // ---------------------------------------------------------------------
  // Ending a session

  /** `differenceInMinutes(now, start)`, one day added when negative. */
  function SessionMinutes(startMs: int, nowMs: int): int
  {
    var minutes := TruncDiv(nowMs - startMs, 60000);
    if minutes < 0 then minutes + 24 * 60 else minutes
  }

  predicate Discarded(startMs: int, nowMs: int)
  {
    SessionMinutes(startMs, nowMs) < 10
  }

  /** A session is thrown away when it lasted fewer than ten whole minutes,
      or when the clock went back by more than 23 hours and 50 minutes. */
  lemma DiscardRule(startMs: int, nowMs: int)
    ensures var m := TruncDiv(nowMs - startMs, 60000);
            Discarded(startMs, nowMs) <==> 0 <= m < 10 || m < -1430
    ensures nowMs - startMs >= 600000 ==> !Discarded(startMs, nowMs)
  {
    if nowMs - startMs >= 600000 {
      assert (nowMs - startMs) / 60000 >= 10;
    }
  }

  /** `handleSleep`: while sleeping, a short session clears both times and
      a longer one records the end; otherwise the start is recorded. Either
      way the new log is also the pending edit for the selected date.
      `startMs` is the instant of the stored start. */
  method HandleSleep(s: LifeStore.Store, nowIso: string, startMs: int, nowMs: int)
    modifies s`dailyLog, s`modifiedLogs, s`unsavedChanges
    ensures IsSleeping(old(s.dailyLog)) && Discarded(startMs, nowMs) ==>
              s.dailyLog == old(s.dailyLog).(sleepStart := None, sleepEnd := None)
    ensures IsSleeping(old(s.dailyLog)) && !Discarded(startMs, nowMs) ==>
              s.dailyLog == old(s.dailyLog).(sleepEnd := Some(nowIso))
    ensures !IsSleeping(old(s.dailyLog)) ==> s.dailyLog == old(s.dailyLog).(sleepStart := Some(nowIso))
    ensures s.modifiedLogs == old(s.modifiedLogs)[s.selectedDate := s.dailyLog] && s.unsavedChanges
    ensures nowIso != "" ==>
              (IsSleeping(old(s.dailyLog)) ==> !IsSleeping(s.dailyLog)) &&
              (!IsSleeping(old(s.dailyLog)) ==> (IsSleeping(s.dailyLog) <==> !Present(old(s.dailyLog).sleepEnd)))
  {
    if IsSleeping(s.dailyLog) {
      var minutes := TruncDiv(nowMs - startMs, 60000);
      if minutes < 0 {
        minutes := minutes + 24 * 60;
      }
      if minutes < 10 {
        s.RecordLog(s.dailyLog.(sleepStart := None, sleepEnd := None));
        return;
      }
      s.SetSleepEnd(nowIso);
    } else {
      s.SetSleepStart(nowIso);
    }
  }

  // ---------------------------------------------------------------------
  // Editing the wake time

  /** `new Date(key + "T12:00:00")` for a well-formed `YYYY-MM-DD` key. */
  function ParseDateKey(key: string): Option<Date>
  {
    if |key| == 10 && key[4] == '-' && key[7] == '-'
       && AllDigits(key[..4]) && AllDigits(key[5..7]) && AllDigits(key[8..])
    then
      var y, m, d := DigitsValue(key[..4]), DigitsValue(key[5..7]), DigitsValue(key[8..]);
      if 1 <= m <= 12 && 1 <= d <= DaysInMonth(y, m) then Some(Date(y, m, d)) else None
    else None
  }

  /** A digit string of length two read back. */
  lemma Pad2Digits(n: nat)
    requires n < 100
    ensures |Pad2(n)| == 2 && AllDigits(Pad2(n)) && DigitsValue(Pad2(n)) == n
  {
    Pad2Shape(n);
  }

  /** Keys of four-digit years parse back to their dates. */
  lemma ParseDateKeyRoundTrip(d: Date)
    requires Valid(d) && 1000 <= d.year <= 9999
    ensures ParseDateKey(DateKey(d)) == Some(d)
  {
    var y, m, dd := IntToString(d.year), Pad2(d.month), Pad2(d.day);
    FourDigits(d.year);
    NatToStringDigits(d.year);
    NatToStringRoundTrip(d.year);
    Pad2Digits(d.month);
    Pad2Digits(d.day);
    var k := DateKey(d);
    assert k == y + "-" + m + "-" + dd;
    assert k[..4] == y;
    assert k[5..7] == m;
    assert k[8..] == dd;
  }

  /** `getLocalDateKey(addDays(bed, 1))`; an unparsable bed date yields an
      invalid `Date`, whose key is "NaN-NaN-NaN". */
  function NextDateKey(bedDate: string): string
  {
    match ParseDateKey(bedDate)
    case Some(d) => DateKey(NextDay(d))
    case None => "NaN-NaN-NaN"
  }

  /** The bed time: the start's clock time, or "22:00" without a start. */
  function BedTime(log: DailyLog, startClock: Clock): string
  {
    if Present(log.sleepStart) then TimeFromIso(log.sleepStart, startClock) else "22:00"
  }

  /** The bed date: the first ten characters of the start, or the selected date. */
  function BedDate(log: DailyLog, selectedDate: string): string
  {
    if Present(log.sleepStart) then
      var iso := log.sleepStart.value;
      iso[..if |iso| < 10 then |iso| else 10]
    else selectedDate
  }

  function WakeDate(bedDate: string, bedTime: string, wakeTime: string): string
  {
    if IsWakeNextDay(bedTime, wakeTime) then NextDateKey(bedDate) else bedDate
  }

  /** The wake date is the bed date when the wake time is later in the day,
      and the calendar day after it otherwise. */
  lemma WakeDateForKey(d: Date, bed: Clock, wake: Clock)
    requires Valid(d) && 1000 <= d.year <= 9999 && ValidClock(bed) && ValidClock(wake)
    ensures WakeDate(DateKey(d), ClockText(bed), ClockText(wake))
            == if Minutes(wake) <= Minutes(bed) then DateKey(NextDay(d)) else DateKey(d)
  {
    WakeNextDayClocks(bed, wake);
    ParseDateKeyRoundTrip(d);
  }

  /** The bed-time input: the start is put on the selected date. */
  method HandleStartChange(s: LifeStore.Store, bedTime: string)
    modifies s`dailyLog, s`modifiedLogs, s`unsavedChanges
    ensures s.dailyLog == old(s.dailyLog).(sleepStart := Some(IsoForDateAndTime(s.selectedDate, bedTime)))
    ensures s.modifiedLogs == old(s.modifiedLogs)[s.selectedDate := s.dailyLog] && s.unsavedChanges
  {
    s.SetSleepStartAt(IsoForDateAndTime(s.selectedDate, bedTime));
  }

  /** `handleEndChange(wakeTime)`: records the wake instant on the bed date
      or the day after. `startClock` is the local clock time of the start. */
  method HandleEndChange(s: LifeStore.Store, wakeTime: string, startClock: Clock)
    modifies s`dailyLog, s`modifiedLogs, s`unsavedChanges
    ensures var bedDate := BedDate(old(s.dailyLog), s.selectedDate);
            var wakeDate := WakeDate(bedDate, BedTime(old(s.dailyLog), startClock), wakeTime);
            s.dailyLog == old(s.dailyLog).(sleepEnd := Some(IsoForDateAndTime(wakeDate, wakeTime)))
    ensures s.modifiedLogs == old(s.modifiedLogs)[s.selectedDate := s.dailyLog] && s.unsavedChanges
  {
    var hasStart := Present(s.dailyLog.sleepStart);
    var bedTimeStr := if hasStart then TimeFromIso(s.dailyLog.sleepStart, startClock) else "22:00";
    var bedDate := BedDate(s.dailyLog, s.selectedDate);
    var wakeDate := if IsWakeNextDay(bedTimeStr, wakeTime) then NextDateKey(bedDate) else bedDate;
    s.SetSleepEndAt(IsoForDateAndTime(wakeDate, wakeTime));
  }
}

=== FILE: store.dfy ===
/**
 * The local-first store: one object whose actions edit the current daily log,
 * the pending-edit ledger `modifiedLogs` (keyed by date), tasks, habit
 * definitions and the deletion queues. `loadInitialData` and `saveData` are
 * split at their awaits so that live state can be read after them; gateway
 * replies, fresh UUIDs and "now" are parameters.
 */
module LifeStore {
  import opened Wrappers
  import opened Text
  import opened Ordering
  import opened Records
  import opened HabitDedupe
  import Dashboard
  import opened SavePlan

  /** DEFAULT_USER_SETTINGS */
  const DefaultSettings := UserSettings("", 50, Some(8.0), None, "")

  /** DEFAULT_HABITS, given their fresh temporary ids and creation time. */
  function DefaultHabits(uuid1: string, uuid2: string, now: string): (hs: seq<Habit>)
    ensures |hs| == 2 && forall h :: h in hs ==> IsTempId(h.id) && h.createdAt == now
  {
    [Habit(MakeTempId(uuid1), "", "Exercise", Some("Dumbbell"), None, now),
     Habit(MakeTempId(uuid2), "", "English", Some("Languages"), None, now)]
  }

  lemma NamesOfDifferentLength(a: Habit, b: Habit)
    requires |a.name| != |b.name|
    ensures DistinctNames([a, b])
  {
    assert |NameKey(a)| != |NameKey(b)|;
  }

  lemma DefaultHabitsDistinct(uuid1: string, uuid2: string, now: string)
    ensures DistinctNames(DefaultHabits(uuid1, uuid2, now))
  {
    var hs := DefaultHabits(uuid1, uuid2, now);
    NamesOfDifferentLength(hs[0], hs[1]);
  }

  /** The elements whose key differs from x (`filter((t) => t.id !== id)`). */
  function Without<T(!new)>(s: seq<T>, key: T -> string, x: string): (r: seq<T>)
    ensures |r| <= |s|
    ensures forall y :: y in r <==> y in s && key(y) != x
  {
    if |s| == 0 then []
    else
      var p := s[..|s| - 1];
      assert s == p + [s[|s| - 1]];
      if key(s[|s| - 1]) != x then Without(p, key, x) + [s[|s| - 1]] else Without(p, key, x)
  }

  /** `{ ...h, ...updates }`: a field absent from the patch keeps its value. */
  datatype HabitPatch = HabitPatch(name: Option<string>, icon: Option<Option<string>>, color: Option<Option<string>>)

  function ApplyHabitPatch(h: Habit, p: HabitPatch): Habit
  {
    h.(name := p.name.GetOr(h.name), icon := p.icon.GetOr(h.icon), color := p.color.GetOr(h.color))
  }

  datatype SettingsPatch = SettingsPatch(pushupGoal: Option<int>, targetSleepHours: Option<real>)

  function ApplySettingsPatch(s: UserSettings, p: SettingsPatch): UserSettings
  {
    s.(pushupGoal := p.pushupGoal.GetOr(s.pushupGoal),
       targetSleepHours := if p.targetSleepHours.Some? then p.targetSleepHours else s.targetSleepHours)
  }

  /** `habits_status[habitId] = !(habits_status[habitId] ?? false)` */
  function Toggled(status: map<string, bool>, habitId: string): (r: map<string, bool>)
    ensures habitId in r && r[habitId] == !(habitId in status && status[habitId])
    ensures forall k :: k != habitId ==> (k in r <==> k in status) && (k in status ==> r[k] == status[k])
  {
    status[habitId := !(habitId in status && status[habitId])]
  }

  /** Toggling twice leaves the habit as it was (a missing entry becomes false). */
  lemma ToggledTwice(status: map<string, bool>, habitId: string)
    ensures Toggled(Toggled(status, habitId), habitId) == status[habitId := habitId in status && status[habitId]]
  {
  }

  /** `arr.find((l) => l.date === date)` */
  function FindByDate(logs: seq<DailyLog>, date: string): (r: Option<DailyLog>)
    ensures r.Some? ==> r.value in logs && r.value.date == date
    ensures r.None? ==> forall l :: l in logs ==> l.date != date
    ensures r.Some? ==> exists i :: 0 <= i < |logs| && logs[i] == r.value
                                   && forall j :: 0 <= j < i ==> logs[j].date != date
  {
    if |logs| == 0 then None
    else if logs[0].date == date then Some(logs[0])
    else FindByDate(logs[1..], date)
  }

  /** The local temporary habits whose names the server list does not have. */
  function NewLocalTemps(local: seq<Habit>, server: seq<Habit>): (r: seq<Habit>)
    ensures forall h :: h in r <==> h in local && IsTempId(h.id) && NameKey(h) !in NameKeys(server)
  {
    if |local| == 0 then []
    else
      var p := local[..|local| - 1];
      var h := local[|local| - 1];
      assert local == p + [h];
      if IsTempId(h.id) && NameKey(h) !in NameKeys(server) then NewLocalTemps(p, server) + [h]
      else NewLocalTemps(p, server)
  }

  /** `loadInitialData`'s habit definitions; `server` is the deduplicated server list. */
  function ChooseHabits(server: seq<Habit>, hasUnsaved: bool, initialized: bool,
                        local: seq<Habit>, defaults: seq<Habit>): seq<Habit>
  {
    if |server| > 0 then
      if hasUnsaved then Deduped(server + NewLocalTemps(local, server)) else server
    else if initialized && |local| > 0 then Deduped(local)
    else defaults
  }

  /** Server habits followed by habits with other names: the deduplicated
      list keeps the server habits first and deduplicates only the rest. */
  lemma MergedHabits(server: seq<Habit>, extra: seq<Habit>)
    requires DistinctNames(server) && NameKeys(server) !! NameKeys(extra)
    ensures var r := Deduped(server + extra);
            DistinctNames(r) && |r| >= |server| && r[..|server|] == server && r[|server|..] == Deduped(extra)
            && NameKeys(r) == NameKeys(server) + NameKeys(extra)
  {
    DedupedIdentity(server);
    DedupedAppendDisjoint(server, extra);
    DedupedFacts(server + extra);
    var r := server + Deduped(extra);
    assert r[..|server|] == server;
    assert r[|server|..] == Deduped(extra);
    assert NameKeys(server + extra) == NameKeys(server) + NameKeys(extra);
  }

  lemma ChooseHabitsDistinct(serverRows: seq<Habit>, hasUnsaved: bool, initialized: bool,
                             local: seq<Habit>, defaults: seq<Habit>)
    requires DistinctNames(defaults)
    ensures DistinctNames(ChooseHabits(Deduped(serverRows), hasUnsaved, initialized, local, defaults))
  {
    ChooseHabitsFacts(serverRows, hasUnsaved, initialized, local, defaults);
  }

  /** Whatever branch is taken, names are distinct. With server habits, they
      come first and unchanged, followed only by local temporary habits with
      new names, one for each such name when there are unsaved changes. */
  lemma ChooseHabitsFacts(serverRows: seq<Habit>, hasUnsaved: bool, initialized: bool,
                          local: seq<Habit>, defaults: seq<Habit>)
    requires DistinctNames(defaults)
    ensures var server := Deduped(serverRows);
            var r := ChooseHabits(server, hasUnsaved, initialized, local, defaults);
            DistinctNames(r) &&
            (|server| > 0 ==>
               |r| >= |server| && r[..|server|] == server &&
               (forall h :: h in r[|server|..] ==> h in local && IsTempId(h.id) && NameKey(h) !in NameKeys(serverRows))) &&
            (|server| > 0 && hasUnsaved ==>
               NameKeys(r) == NameKeys(serverRows) + NameKeys(NewLocalTemps(local, server)))
  {
    var server := Deduped(serverRows);
    DedupedFacts(serverRows);
    if |server| > 0 {
      if hasUnsaved {
        var extra := NewLocalTemps(local, server);
        MergedHabits(server, extra);
        DedupedFacts(extra);
      } else {
        assert server[|server|..] == [];
      }
    } else if initialized && |local| > 0 {
      DedupedFacts(local);
    }
  }

  /** `data?.habitDefinitions ?? []` and the like. */
  function ServerHabits(data: Option<Dashboard.DashboardData>): seq<Habit>
  {
    if data.Some? then data.value.habitDefinitions else []
  }

  function ServerTasks(data: Option<Dashboard.DashboardData>): seq<Task>
  {
    if data.Some? then data.value.tasks else []
  }

  function ServerLog(data: Option<Dashboard.DashboardData>, date: string): DailyLog
  {
    if data.Some? then data.value.dailyLog else EmptyDailyLog(date)
  }

  function ServerSettings(data: Option<Dashboard.DashboardData>): Option<UserSettings>
  {
    if data.Some? then data.value.userSettings else None
  }

  /** Some habit still has a temporary id (it is not on the server yet). */
  predicate AnyTemp(hs: seq<Habit>)
  {
    exists h :: h in hs && IsTempId(h.id)
  }

  /** The habit step of `loadInitialData`, as the code computes it. */
  method ReconcileHabits(serverRows: seq<Habit>, hasUnsaved: bool, initialized: bool,
                         local: seq<Habit>, defaults: seq<Habit>) returns (r: seq<Habit>)
    ensures r == ChooseHabits(Deduped(serverRows), hasUnsaved, initialized, local, defaults)
    ensures DistinctNames(defaults) ==> DistinctNames(r)
  {
    if DistinctNames(defaults) {
      ChooseHabitsDistinct(serverRows, hasUnsaved, initialized, local, defaults);
    }
    var server := DedupeHabits(serverRows);
    if |server| > 0 {
      if hasUnsaved {
        r := DedupeHabits(server + NewLocalTemps(local, server));
      } else {
        r := server;
      }
    } else if initialized && |local| > 0 {
      r := DedupeHabits(local);
    } else {
      r := defaults;
    }
  }

  /** How a server-action call ends: it resolves with a value, or the call
      itself rejects (`Some(message)` when the rejection is an `Error`). */
  datatype Settled<T> = Resolved(value: T) | Rejected(thrown: Option<string>)

  class Store {
    var isInitialized: bool
    var selectedDate: string
    var dailyLog: DailyLog
    var modifiedLogs: map<string, DailyLog>
    var tasks: seq<Task>
    var deletedTaskIds: seq<string>
    var habitDefinitions: seq<Habit>
    var deletedHabitIds: seq<string>
    var dailyLogsLast7: seq<DailyLog>
    var dailyLogsLast28: seq<DailyLog>
    var dailyLogsLast91: seq<DailyLog>
    var dailyLogsLast180: seq<DailyLog>
    var dailyLogsLast365: seq<DailyLog>
    var userSettings: Option<UserSettings>
    var unsavedChanges: bool
    var loading: bool
    var error: Option<string>

    /** The deletion queues only ever hold server (permanent) ids. */
    ghost predicate Valid()
      reads this`deletedTaskIds, this`deletedHabitIds
    {
      (forall id :: id in deletedTaskIds ==> !IsTempId(id))
      && (forall id :: id in deletedHabitIds ==> !IsTempId(id))
    }

    constructor ()
      ensures Valid()
      ensures !isInitialized && selectedDate == "" && dailyLog == EmptyDailyLog("")
      ensures modifiedLogs == map[] && tasks == [] && deletedTaskIds == []
      ensures habitDefinitions == [] && deletedHabitIds == []
      ensures dailyLogsLast7 == [] && dailyLogsLast28 == [] && dailyLogsLast91 == []
      ensures dailyLogsLast180 == [] && dailyLogsLast365 == []
      ensures userSettings == None && !unsavedChanges && !loading && error == None
    {
      isInitialized := false;
      selectedDate := "";
      dailyLog := EmptyDailyLog("");
      modifiedLogs := map[];
      tasks := [];
      deletedTaskIds := [];
      habitDefinitions := [];
      deletedHabitIds := [];
      dailyLogsLast7 := [];
      dailyLogsLast28 := [];
      dailyLogsLast91 := [];
      dailyLogsLast180 := [];
      dailyLogsLast365 := [];
      userSettings := None;
      unsavedChanges := false;
      loading := false;
      error := None;
    }

    // ---------------------------------------------------------------------
    // Selecting a date

    /** The cached server log for a date: the 365-day window first, then 91, 28, 7. */
    function CachedLog(date: string): Option<DailyLog>
      reads this
    {
      var a := FindByDate(dailyLogsLast365, date);
      if a.Some? then a
      else
        var b := FindByDate(dailyLogsLast91, date);
        if b.Some? then b
        else
          var c := FindByDate(dailyLogsLast28, date);
          if c.Some? then c else FindByDate(dailyLogsLast7, date)
    }

    /** Returns whether a `getLogForDate` request was issued (its reply is
        applied later by `CompleteLogFetch`). */
    method SetSelectedDate(date: string) returns (fetchIssued: bool)
      modifies this`selectedDate, this`dailyLog
      ensures selectedDate == date
      ensures !isInitialized || date == old(dailyLog.date) ==> dailyLog == old(dailyLog) && !fetchIssued
      ensures isInitialized && date != old(dailyLog.date) && date in modifiedLogs ==>
                dailyLog == modifiedLogs[date].(date := date) && !fetchIssued
      ensures isInitialized && date != old(dailyLog.date) && date !in modifiedLogs && CachedLog(date).Some? ==>
                dailyLog == CachedLog(date).value.(date := date) && !fetchIssued
      ensures fetchIssued <==>
                isInitialized && date != old(dailyLog.date) && date !in modifiedLogs && CachedLog(date).None?
      ensures fetchIssued ==> dailyLog == old(dailyLog)
    {
      var prevLogDate := dailyLog.date;
      selectedDate := date;
      fetchIssued := false;
      if !isInitialized || date == prevLogDate {
        return;
      }
      if date in modifiedLogs {
        dailyLog := modifiedLogs[date].(date := date);
        return;
      }
      var cached := CachedLog(date);
      if cached.Some? {
        dailyLog := cached.value.(date := date);
        return;
      }
      fetchIssued := true;
    }

    /** The `getLogForDate(date)` callback: an error is ignored; otherwise the
        reply replaces `dailyLog`, whatever date is selected by then. */
    method CompleteLogFetch(date: string, reply: Dashboard.Read<DailyLog>)
      modifies this`dailyLog
      ensures reply.error.Some? ==> dailyLog == old(dailyLog)
      ensures reply.error.None? ==> dailyLog == reply.data.GetOr(EmptyDailyLog(date))
    {
      if reply.error.Some? {
        return;
      }
      dailyLog := reply.data.GetOr(EmptyDailyLog(date));
    }

    // ---------------------------------------------------------------------
    // loadInitialData

    /** Up to the first await. Returns the date to fetch and whether the load
        goes ahead (it does not while another request is loading). */
    method BeginLoad(today: string) returns (started: bool, date: string)
      modifies this`selectedDate, this`dailyLog, this`loading, this`error
      ensures old(selectedDate) == "" ==> selectedDate == today && dailyLog == EmptyDailyLog(today)
      ensures old(selectedDate) != "" ==> selectedDate == old(selectedDate) && dailyLog == old(dailyLog)
      ensures date == selectedDate
      ensures started <==> !old(loading)
      ensures started ==> loading && error == None
      ensures !started ==> loading == old(loading) && error == old(error)
    {
      date := selectedDate;
      if date == "" {
        date := today;
        selectedDate := date;
        dailyLog := EmptyDailyLog(date);
      }
      if loading {
        return false, date;
      }
      loading, error := true, None;
      started := true;
    }

    /** After the fetch: reconcile the server data with unsynced local state. */
    method AdoptLoadedState(date: string, result: Dashboard.FetchResult, uuid1: string, uuid2: string, now: string)
      requires Valid()
      modifies this`dailyLog, this`tasks, this`deletedTaskIds, this`habitDefinitions, this`deletedHabitIds
      modifies this`modifiedLogs
      ensures Valid()
      ensures habitDefinitions == ChooseHabits(Deduped(ServerHabits(result.data)),
                                               old(unsavedChanges) && old(isInitialized), old(isInitialized),
                                               old(habitDefinitions), DefaultHabits(uuid1, uuid2, now))
      ensures dailyLog == if old(unsavedChanges) && old(isInitialized) && date in old(modifiedLogs)
                          then old(modifiedLogs)[date] else ServerLog(result.data, date)
      ensures tasks == ServerTasks(result.data)
                       + (if old(unsavedChanges) && old(isInitialized) then Temps(old(tasks), TaskId) else [])
      ensures old(unsavedChanges) && old(isInitialized) ==>
                deletedTaskIds == old(deletedTaskIds) && deletedHabitIds == old(deletedHabitIds)
                && modifiedLogs == old(modifiedLogs)
      ensures !(old(unsavedChanges) && old(isInitialized)) ==>
                deletedTaskIds == [] && deletedHabitIds == [] && modifiedLogs == map[]
      ensures DistinctNames(habitDefinitions)
    {
      var hasUnsaved := unsavedChanges && isInitialized;
      var data := result.data;
      DefaultHabitsDistinct(uuid1, uuid2, now);
      var finalHabits := ReconcileHabits(ServerHabits(data), hasUnsaved, isInitialized, habitDefinitions,
                                         DefaultHabits(uuid1, uuid2, now));
      var finalLog := if hasUnsaved && date in modifiedLogs then modifiedLogs[date] else ServerLog(data, date);
      var finalTasks := ServerTasks(data) + (if hasUnsaved then Temps(tasks, TaskId) else []);
      SetLocalState(finalLog, finalTasks, finalHabits, hasUnsaved);
    }

    /** The rest of the `set`: the windows are the fetched ones, or empty;
        settings fall back to the defaults; a missing settings row, a
        temporary habit or kept local changes leave the store unsaved. */
    method SetFetched(data: Option<Dashboard.DashboardData>, keep: bool, e: Option<string>)
      modifies this`dailyLogsLast7, this`dailyLogsLast28, this`dailyLogsLast91, this`dailyLogsLast180
      modifies this`dailyLogsLast365, this`userSettings, this`unsavedChanges, this`loading, this`isInitialized
      modifies this`error
      ensures data.Some? ==>
                dailyLogsLast7 == data.value.last7 && dailyLogsLast28 == data.value.last28
                && dailyLogsLast91 == data.value.last91 && dailyLogsLast180 == data.value.last180
                && dailyLogsLast365 == data.value.last365
      ensures data.None? ==>
                dailyLogsLast7 == [] && dailyLogsLast28 == [] && dailyLogsLast91 == []
                && dailyLogsLast180 == [] && dailyLogsLast365 == []
      ensures userSettings == Some(ServerSettings(data).GetOr(DefaultSettings))
      ensures unsavedChanges <==> keep || AnyTemp(habitDefinitions) || ServerSettings(data).None?
      ensures !loading && isInitialized && error == e
    {
      if data.Some? {
        SetWindows(data.value.last7, data.value.last28, data.value.last91, data.value.last180, data.value.last365);
      } else {
        SetWindows([], [], [], [], []);
      }
      var settings := ServerSettings(data);
      userSettings, unsavedChanges := Some(settings.GetOr(DefaultSettings)), keep || AnyTemp(habitDefinitions) || settings.None?;
      loading, isInitialized, error := false, true, e;
    }

    /** The log, tasks and habits a load settles on; the queues and the
        ledger are kept only when there are unsaved changes. */
    method SetLocalState(log: DailyLog, ts: seq<Task>, hs: seq<Habit>, keepPending: bool)
      requires Valid()
      modifies this`dailyLog, this`tasks, this`habitDefinitions, this`deletedTaskIds, this`deletedHabitIds
      modifies this`modifiedLogs
      ensures Valid()
      ensures dailyLog == log && tasks == ts && habitDefinitions == hs
      ensures keepPending ==> deletedTaskIds == old(deletedTaskIds) && deletedHabitIds == old(deletedHabitIds)
                              && modifiedLogs == old(modifiedLogs)
      ensures !keepPending ==> deletedTaskIds == [] && deletedHabitIds == [] && modifiedLogs == map[]
    {
      dailyLog, tasks, habitDefinitions := log, ts, hs;
      if !keepPending {
        deletedTaskIds, deletedHabitIds, modifiedLogs := [], [], map[];
      }
    }

    /** The catch of `loadInitialData`. */
    method FailLoad(thrown: Option<string>)
      modifies this`loading, this`isInitialized, this`error
      ensures !loading && isInitialized && error == Some(thrown.GetOr(Dashboard.FailedToLoad))
    {
      loading, isInitialized := false, true;
      error := Some(thrown.GetOr(Dashboard.FailedToLoad));
    }

    /** `loadInitialData`. The server action either settles with `replies`
        or its call rejects, which lands in the catch. */
    method LoadInitialData(today: string, serverToday: string, call: Settled<Dashboard.Replies>,
                           uuid1: string, uuid2: string, now: string) returns (started: bool)
      requires Valid()
      modifies this
      ensures Valid()
      ensures selectedDate == if old(selectedDate) == "" then today else old(selectedDate)
      ensures started <==> !old(loading)
      ensures !started || call.Rejected? ==>
                dailyLog == (if old(selectedDate) == "" then EmptyDailyLog(today) else old(dailyLog))
      ensures !started || call.Rejected? ==>
                unchanged(this`tasks, this`deletedTaskIds, this`habitDefinitions, this`deletedHabitIds,
                          this`modifiedLogs, this`userSettings, this`unsavedChanges)
                && unchanged(this`dailyLogsLast7, this`dailyLogsLast28, this`dailyLogsLast91,
                             this`dailyLogsLast180, this`dailyLogsLast365)
      ensures !started ==> loading && error == old(error) && isInitialized == old(isInitialized)
      ensures started && call.Rejected? ==>
                isInitialized && !loading && error == Some(call.thrown.GetOr(Dashboard.FailedToLoad))
      ensures started && call.Resolved? ==>
                var result := Dashboard.FetchFullDashboardData(Some(selectedDate), serverToday, call.value);
                var keep := old(unsavedChanges) && old(isInitialized);
                habitDefinitions == ChooseHabits(Deduped(ServerHabits(result.data)), keep, old(isInitialized),
                                                 old(habitDefinitions), DefaultHabits(uuid1, uuid2, now))
                && dailyLog == (if keep && selectedDate in old(modifiedLogs) then old(modifiedLogs)[selectedDate]
                                else ServerLog(result.data, selectedDate))
                && tasks == ServerTasks(result.data) + (if keep then Temps(old(tasks), TaskId) else [])
                && deletedTaskIds == (if keep then old(deletedTaskIds) else [])
                && deletedHabitIds == (if keep then old(deletedHabitIds) else [])
                && modifiedLogs == (if keep then old(modifiedLogs) else map[])
                && userSettings == Some(ServerSettings(result.data).GetOr(DefaultSettings))
                && error == result.error
      ensures started && call.Resolved? ==>
                var data := Dashboard.FetchFullDashboardData(Some(selectedDate), serverToday, call.value).data;
                dailyLogsLast7 == (if data.Some? then data.value.last7 else [])
                && dailyLogsLast28 == (if data.Some? then data.value.last28 else [])
                && dailyLogsLast91 == (if data.Some? then data.value.last91 else [])
                && dailyLogsLast180 == (if data.Some? then data.value.last180 else [])
                && dailyLogsLast365 == (if data.Some? then data.value.last365 else [])
      ensures started && call.Resolved? ==>
                isInitialized && !loading && DistinctNames(habitDefinitions)
                && (unsavedChanges <==>
                      (old(unsavedChanges) && old(isInitialized)) || AnyTemp(habitDefinitions)
                      || !(call.value.Replies? && !Dashboard.AnyFailed(call.value) && call.value.settings.data.Some?))
    {
      var date;
      started, date := BeginLoad(today);
      if !started {
        return;
      }
      if call.Rejected? {
        FailLoad(call.thrown);
        return;
      }
      assert unsavedChanges == old(unsavedChanges) && isInitialized == old(isInitialized)
             && habitDefinitions == old(habitDefinitions) && tasks == old(tasks) && modifiedLogs == old(modifiedLogs)
             && deletedTaskIds == old(deletedTaskIds) && deletedHabitIds == old(deletedHabitIds);
      var result := Dashboard.FetchFullDashboardData(Some(date), serverToday, call.value);
      Dashboard.SettingsForwarded(Some(date), serverToday, call.value);
      FinishLoad(date, result, uuid1, uuid2, now);
    }

    /** The `set` after a settled fetch: local habits, tasks, queues and
        ledger survive only when there were unsaved changes on an initialized
        store; the windows and settings come from the fetch. */
    method FinishLoad(date: string, result: Dashboard.FetchResult, uuid1: string, uuid2: string, now: string)
      requires Valid()
      modifies this`dailyLog, this`tasks, this`deletedTaskIds, this`habitDefinitions, this`deletedHabitIds
      modifies this`dailyLogsLast7, this`dailyLogsLast28, this`dailyLogsLast91, this`dailyLogsLast180
      modifies this`dailyLogsLast365, this`userSettings, this`unsavedChanges, this`modifiedLogs
      modifies this`loading, this`isInitialized, this`error
      ensures Valid() && DistinctNames(habitDefinitions)
      ensures isInitialized && !loading && error == result.error
      ensures unsavedChanges <==> (old(unsavedChanges) && old(isInitialized)) || AnyTemp(habitDefinitions)
                                  || ServerSettings(result.data).None?
      ensures habitDefinitions == ChooseHabits(Deduped(ServerHabits(result.data)),
                                               old(unsavedChanges) && old(isInitialized), old(isInitialized),
                                               old(habitDefinitions), DefaultHabits(uuid1, uuid2, now))
      ensures dailyLog == if old(unsavedChanges) && old(isInitialized) && date in old(modifiedLogs)
                          then old(modifiedLogs)[date] else ServerLog(result.data, date)
      ensures tasks == ServerTasks(result.data)
                       + (if old(unsavedChanges) && old(isInitialized) then Temps(old(tasks), TaskId) else [])
      ensures old(unsavedChanges) && old(isInitialized) ==>
                deletedTaskIds == old(deletedTaskIds) && deletedHabitIds == old(deletedHabitIds)
                && modifiedLogs == old(modifiedLogs)
      ensures !(old(unsavedChanges) && old(isInitialized)) ==>
                deletedTaskIds == [] && deletedHabitIds == [] && modifiedLogs == map[]
      ensures result.data.Some? ==>
                dailyLogsLast7 == result.data.value.last7 && dailyLogsLast28 == result.data.value.last28
                && dailyLogsLast91 == result.data.value.last91 && dailyLogsLast180 == result.data.value.last180
                && dailyLogsLast365 == result.data.value.last365
      ensures result.data.None? ==>
                dailyLogsLast7 == [] && dailyLogsLast28 == [] && dailyLogsLast91 == []
                && dailyLogsLast180 == [] && dailyLogsLast365 == []
      ensures userSettings == Some(ServerSettings(result.data).GetOr(DefaultSettings))
    {
      var hasUnsaved := unsavedChanges && isInitialized;
      AdoptLoadedState(date, result, uuid1, uuid2, now);
      SetFetched(result.data, hasUnsaved, result.error);
    }

    // ---------------------------------------------------------------------
    // Daily-log actions: each writes the new log to `dailyLog` and to
    // `modifiedLogs[selectedDate]` and marks unsaved changes.

    method RecordLog(next: DailyLog)
      modifies this`dailyLog, this`modifiedLogs, this`unsavedChanges
      ensures dailyLog == next && modifiedLogs == old(modifiedLogs)[selectedDate := next] && unsavedChanges
    {
      dailyLog := next;
      modifiedLogs := modifiedLogs[selectedDate := next];
      unsavedChanges := true;
    }

    method SetSleepStart(now: string)
      modifies this`dailyLog, this`modifiedLogs, this`unsavedChanges
      ensures dailyLog == old(dailyLog).(sleepStart := Some(now))
      ensures modifiedLogs == old(modifiedLogs)[selectedDate := dailyLog] && unsavedChanges
    {
      RecordLog(dailyLog.(sleepStart := Some(now)));
    }

    method SetSleepEnd(now: string)
      modifies this`dailyLog, this`modifiedLogs, this`unsavedChanges
      ensures dailyLog == old(dailyLog).(sleepEnd := Some(now))
      ensures modifiedLogs == old(modifiedLogs)[selectedDate := dailyLog] && unsavedChanges
    {
      RecordLog(dailyLog.(sleepEnd := Some(now)));
    }

    method SetSleepStartAt(iso: string)
      modifies this`dailyLog, this`modifiedLogs, this`unsavedChanges
      ensures dailyLog == old(dailyLog).(sleepStart := Some(iso))
      ensures modifiedLogs == old(modifiedLogs)[selectedDate := dailyLog] && unsavedChanges
    {
      RecordLog(dailyLog.(sleepStart := Some(iso)));
    }

    method SetSleepEndAt(iso: string)
      modifies this`dailyLog, this`modifiedLogs, this`unsavedChanges
      ensures dailyLog == old(dailyLog).(sleepEnd := Some(iso))
      ensures modifiedLogs == old(modifiedLogs)[selectedDate := dailyLog] && unsavedChanges
    {
      RecordLog(dailyLog.(sleepEnd := Some(iso)));
    }

    method ToggleHabit(habitId: string)
      modifies this`dailyLog, this`modifiedLogs, this`unsavedChanges
      ensures dailyLog == old(dailyLog).(habitsStatus := Toggled(old(dailyLog).habitsStatus, habitId))
      ensures modifiedLogs == old(modifiedLogs)[selectedDate := dailyLog] && unsavedChanges
    {
      RecordLog(dailyLog.(habitsStatus := Toggled(dailyLog.habitsStatus, habitId)));
    }

    method AddPushupCount(n: int)
      modifies this`dailyLog, this`modifiedLogs, this`unsavedChanges
      ensures dailyLog == old(dailyLog).(pushupCount := old(dailyLog).pushupCount + n)
      ensures modifiedLogs == old(modifiedLogs)[selectedDate := dailyLog] && unsavedChanges
    {
      RecordLog(dailyLog.(pushupCount := dailyLog.pushupCount + n));
    }

    method SetNotes(notes: Option<string>)
      modifies this`dailyLog, this`modifiedLogs, this`unsavedChanges
      ensures dailyLog == old(dailyLog).(notes := notes)
      ensures modifiedLogs == old(modifiedLogs)[selectedDate := dailyLog] && unsavedChanges
    {
      RecordLog(dailyLog.(notes := notes));
    }

    // ---------------------------------------------------------------------
    // Tasks

    method AddTask(title: string, priority: Option<Priority>, uuid: string, now: string)
      modifies this`tasks, this`unsavedChanges
      ensures tasks == [Task(MakeTempId(uuid), "", title, false, priority, None, now, None)] + old(tasks)
      ensures unsavedChanges
    {
      var newTask := Task(MakeTempId(uuid), "", title, false, priority, None, now, None);
      tasks := [newTask] + tasks;
      unsavedChanges := true;
    }

    method UpdateTaskPriority(id: string, priority: Priority)
      modifies this`tasks, this`unsavedChanges
      ensures |tasks| == |old(tasks)| && unsavedChanges
      ensures forall i :: 0 <= i < |tasks| ==>
                tasks[i] == if old(tasks)[i].id == id then old(tasks)[i].(priority := Some(priority)) else old(tasks)[i]
    {
      tasks := seq(|tasks|, i requires 0 <= i < |tasks| reads this =>
                 if tasks[i].id == id then tasks[i].(priority := Some(priority)) else tasks[i]);
      unsavedChanges := true;
    }

    /** A title that trims to nothing changes nothing, not even `unsavedChanges`. */
    method UpdateTaskTitle(id: string, newTitle: string)
      modifies this`tasks, this`unsavedChanges
      ensures Trim(newTitle) == [] ==> tasks == old(tasks) && unsavedChanges == old(unsavedChanges)
      ensures Trim(newTitle) != [] ==> unsavedChanges && |tasks| == |old(tasks)|
      ensures Trim(newTitle) != [] ==>
                forall i :: 0 <= i < |tasks| ==>
                  tasks[i] == if old(tasks)[i].id == id then old(tasks)[i].(title := Trim(newTitle)) else old(tasks)[i]
    {
      var trimmed := Trim(newTitle);
      if trimmed == [] {
        return;
      }
      tasks := seq(|tasks|, i requires 0 <= i < |tasks| reads this =>
                 if tasks[i].id == id then tasks[i].(title := trimmed) else tasks[i]);
      unsavedChanges := true;
    }

    method ToggleTaskCompletion(id: string, isCompleted: bool, now: string)
      modifies this`tasks, this`unsavedChanges
      ensures |tasks| == |old(tasks)| && unsavedChanges
      ensures forall i :: 0 <= i < |tasks| ==>
                tasks[i] == if old(tasks)[i].id == id
                            then old(tasks)[i].(isCompleted := !isCompleted,
                                                completedAt := if isCompleted then None else Some(now))
                            else old(tasks)[i]
    {
      tasks := seq(|tasks|, i requires 0 <= i < |tasks| reads this =>
                 if tasks[i].id == id
                 then tasks[i].(isCompleted := !isCompleted, completedAt := if isCompleted then None else Some(now))
                 else tasks[i]);
      unsavedChanges := true;
    }

    method RemoveTask(id: string)
      requires Valid()
      modifies this`tasks, this`deletedTaskIds, this`unsavedChanges
      ensures Valid()
      ensures tasks == Without(old(tasks), TaskId, id) && unsavedChanges
      ensures deletedTaskIds == if IsTempId(id) then old(deletedTaskIds) else old(deletedTaskIds) + [id]
    {
      tasks := Without(tasks, TaskId, id);
      if !IsTempId(id) {
        deletedTaskIds := deletedTaskIds + [id];
      }
      unsavedChanges := true;
    }

    // ---------------------------------------------------------------------
    // Habit definitions and settings

    method AddHabitDefinition(name: string, icon: Option<string>, color: Option<string>, uuid: string, now: string)
      modifies this`habitDefinitions, this`unsavedChanges
      ensures habitDefinitions == old(habitDefinitions) + [Habit(MakeTempId(uuid), "", name, icon, color, now)]
      ensures unsavedChanges
    {
      habitDefinitions := habitDefinitions + [Habit(MakeTempId(uuid), "", name, icon, color, now)];
      unsavedChanges := true;
    }

    method UpdateHabitDefinition(id: string, patch: HabitPatch)
      modifies this`habitDefinitions, this`unsavedChanges
      ensures |habitDefinitions| == |old(habitDefinitions)| && unsavedChanges
      ensures forall i :: 0 <= i < |habitDefinitions| ==>
                habitDefinitions[i] == if old(habitDefinitions)[i].id == id
                                       then ApplyHabitPatch(old(habitDefinitions)[i], patch)
                                       else old(habitDefinitions)[i]
    {
      habitDefinitions := seq(|habitDefinitions|, i requires 0 <= i < |habitDefinitions| reads this =>
                            if habitDefinitions[i].id == id then ApplyHabitPatch(habitDefinitions[i], patch)
                            else habitDefinitions[i]);
      unsavedChanges := true;
    }

    method RemoveHabitDefinition(id: string)
      requires Valid()
      modifies this`habitDefinitions, this`deletedHabitIds, this`dailyLog, this`modifiedLogs, this`unsavedChanges
      ensures Valid()
      ensures habitDefinitions == Without(old(habitDefinitions), HabitId, id)
      ensures deletedHabitIds == if IsTempId(id) then old(deletedHabitIds) else old(deletedHabitIds) + [id]
      ensures dailyLog == old(dailyLog).(habitsStatus := old(dailyLog).habitsStatus - {id})
      ensures modifiedLogs == old(modifiedLogs)[selectedDate := dailyLog] && unsavedChanges
    {
      var next := dailyLog.(habitsStatus := dailyLog.habitsStatus - {id});
      habitDefinitions := Without(habitDefinitions, HabitId, id);
      if !IsTempId(id) {
        deletedHabitIds := deletedHabitIds + [id];
      }
      RecordLog(next);
    }

    method UpdateUserSettings(patch: SettingsPatch)
      modifies this`userSettings, this`unsavedChanges
      ensures userSettings == Some(ApplySettingsPatch(old(userSettings).GetOr(DefaultSettings), patch))
      ensures unsavedChanges
    {
      userSettings := Some(ApplySettingsPatch(userSettings.GetOr(DefaultSettings), patch));
      unsavedChanges := true;
    }

    method SetError(e: Option<string>)
      modifies this`error
      ensures error == e
    {
      error := e;
    }

    /** The rehydrate hook: replace the habits by their deduplicated list when
        that is shorter. The list ends up deduplicated either way. */
    method Rehydrate()
      modifies this`habitDefinitions
      ensures habitDefinitions == Deduped(old(habitDefinitions))
      ensures DistinctNames(habitDefinitions)
    {
      DedupedFacts(habitDefinitions);
      if |habitDefinitions| > 0 {
        var deduped := DedupeHabits(habitDefinitions);
        if |deduped| != |habitDefinitions| {
          habitDefinitions := deduped;
        } else if !DistinctNames(habitDefinitions) {
          DedupedShrinks(habitDefinitions);
        } else {
          DedupedIdentity(habitDefinitions);
        }
      }
    }

    // ---------------------------------------------------------------------
    // saveData

    /** Up to the first await: the snapshot the phases work on. */
    method BeginSave() returns (snap: Snapshot)
      modifies this`loading, this`error
      ensures snap == Snapshot(modifiedLogs, tasks, deletedTaskIds, habitDefinitions, deletedHabitIds)
      ensures loading && error == None
    {
      snap := Snapshot(modifiedLogs, tasks, deletedTaskIds, habitDefinitions, deletedHabitIds);
      loading, error := true, None;
    }

    /** A phase failed: only `loading` and `error` change. */
    method FailSave(message: string)
      modifies this`loading, this`error
      ensures !loading && error == Some(message)
    {
      loading, error := false, Some(message);
    }

    /** The commit, against the live state: temporary ids are renamed by
        position, the queues are emptied, the windows are rebuilt from the
        refreshed logs (sorted by date before the commit) and exactly the
        captured ledger keys are removed. */
    method CommitSave(capturedKeys: set<string>,
                      habitTempOrder: seq<string>, habitInserted: seq<InsertedRow>,
                      taskTempOrder: seq<string>, taskInserted: seq<InsertedRow>,
                      sortedLogs: seq<DailyLog>)
      modifies this`tasks, this`habitDefinitions, this`deletedTaskIds, this`deletedHabitIds
      modifies this`dailyLogsLast7, this`dailyLogsLast28, this`dailyLogsLast91, this`dailyLogsLast180
      modifies this`dailyLogsLast365, this`modifiedLogs, this`unsavedChanges, this`loading
      ensures Valid()
      ensures tasks == RemapTaskIds(old(tasks), taskTempOrder, taskInserted)
      ensures habitDefinitions == RemapHabitIds(old(habitDefinitions), habitTempOrder, habitInserted)
      ensures deletedTaskIds == [] && deletedHabitIds == []
      ensures dailyLogsLast365 == sortedLogs
      ensures dailyLogsLast7 == Dashboard.LastN(sortedLogs, 7)
      ensures dailyLogsLast28 == Dashboard.LastN(sortedLogs, 28)
      ensures dailyLogsLast91 == Dashboard.LastN(sortedLogs, 91)
      ensures dailyLogsLast180 == Dashboard.LastN(sortedLogs, 180)
      ensures modifiedLogs == Remaining(old(modifiedLogs), capturedKeys)
      ensures !unsavedChanges && !loading
    {
      SetSynced(RemapTaskIds(tasks, taskTempOrder, taskInserted),
                RemapHabitIds(habitDefinitions, habitTempOrder, habitInserted),
                Remaining(modifiedLogs, capturedKeys));
      SetWindows(Dashboard.LastN(sortedLogs, 7), Dashboard.LastN(sortedLogs, 28), Dashboard.LastN(sortedLogs, 91),
                 Dashboard.LastN(sortedLogs, 180), sortedLogs);
    }

    /** Everything pending has been sent: the queues are empty and nothing is unsaved. */
    method SetSynced(ts: seq<Task>, hs: seq<Habit>, ledger: map<string, DailyLog>)
      modifies this`tasks, this`habitDefinitions, this`deletedTaskIds, this`deletedHabitIds
      modifies this`modifiedLogs, this`unsavedChanges, this`loading
      ensures Valid()
      ensures tasks == ts && habitDefinitions == hs && modifiedLogs == ledger
      ensures deletedTaskIds == [] && deletedHabitIds == [] && !unsavedChanges && !loading
    {
      tasks, habitDefinitions, modifiedLogs := ts, hs, ledger;
      deletedTaskIds, deletedHabitIds, unsavedChanges, loading := [], [], false, false;
    }

    method SetWindows(w7: seq<DailyLog>, w28: seq<DailyLog>, w91: seq<DailyLog>, w180: seq<DailyLog>, w365: seq<DailyLog>)
      modifies this`dailyLogsLast7, this`dailyLogsLast28, this`dailyLogsLast91, this`dailyLogsLast180
      modifies this`dailyLogsLast365
      ensures dailyLogsLast7 == w7 && dailyLogsLast28 == w28 && dailyLogsLast91 == w91
      ensures dailyLogsLast180 == w180 && dailyLogsLast365 == w365
    {
      dailyLogsLast7, dailyLogsLast28, dailyLogsLast91, dailyLogsLast180, dailyLogsLast365 := w7, w28, w91, w180, w365;
    }

    /** `saveData` run without anything happening between its awaits. */
    method SaveData(today: string, replies: SaveReplies) returns (ok: bool, calls: seq<GatewayCall>)
      requires Valid()
      modifies this`tasks, this`habitDefinitions, this`deletedTaskIds, this`deletedHabitIds
      modifies this`dailyLogsLast7, this`dailyLogsLast28, this`dailyLogsLast91, this`dailyLogsLast180
      modifies this`dailyLogsLast365, this`modifiedLogs, this`unsavedChanges, this`loading, this`error
      ensures Valid()
      ensures var snap := Snapshot(old(modifiedLogs), old(tasks), old(deletedTaskIds),
                                   old(habitDefinitions), old(deletedHabitIds));
              |calls| >= 1 && calls[0] == HabitSyncCall(snap)
      ensures var snap := Snapshot(old(modifiedLogs), old(tasks), old(deletedTaskIds),
                                   old(habitDefinitions), old(deletedHabitIds));
              |calls| >= 3 ==> calls[2] == TaskSyncCall(snap)
      ensures |calls| == PhasesRun(replies, old(userSettings).Some?)
      ensures var snap := Snapshot(old(modifiedLogs), old(tasks), old(deletedTaskIds),
                                   old(habitDefinitions), old(deletedHabitIds));
              replies.habits.Ok? ==> IsLogsCall(calls[1], snap, IdMap(HabitTempOrder(snap), replies.habits.value))
      ensures SendsNoTempDeletion(calls)
      ensures !ok ==> dailyLogsLast7 == old(dailyLogsLast7) && dailyLogsLast28 == old(dailyLogsLast28)
                      && dailyLogsLast91 == old(dailyLogsLast91) && dailyLogsLast180 == old(dailyLogsLast180)
                      && dailyLogsLast365 == old(dailyLogsLast365)
      ensures ok <==> Succeeds(replies, old(userSettings).Some?)
      ensures !ok ==> !loading && error == Some(FirstFailure(replies, old(userSettings).Some?))
      ensures !ok ==> modifiedLogs == old(modifiedLogs) && tasks == old(tasks) && habitDefinitions == old(habitDefinitions)
                      && deletedTaskIds == old(deletedTaskIds) && deletedHabitIds == old(deletedHabitIds)
                      && unsavedChanges == old(unsavedChanges)
      ensures ok ==> dailyLogsLast365 == SortedRefresh(replies.refresh)
                     && dailyLogsLast7 == Dashboard.LastN(SortedRefresh(replies.refresh), 7)
                     && dailyLogsLast28 == Dashboard.LastN(SortedRefresh(replies.refresh), 28)
                     && dailyLogsLast91 == Dashboard.LastN(SortedRefresh(replies.refresh), 91)
                     && dailyLogsLast180 == Dashboard.LastN(SortedRefresh(replies.refresh), 180)
      ensures ok ==> !loading
      ensures ok ==> error == None
      ensures ok ==> !unsavedChanges
      ensures ok ==> modifiedLogs == map[]
      ensures ok ==> deletedTaskIds == [] && deletedHabitIds == []
      ensures ok ==> tasks == RemapTaskIds(old(tasks), TaskTempOrder(Snapshot(old(modifiedLogs), old(tasks),
                                             old(deletedTaskIds), old(habitDefinitions), old(deletedHabitIds))),
                                           replies.tasks.value)
      ensures ok ==> habitDefinitions == RemapHabitIds(old(habitDefinitions),
                                                        HabitTempOrder(Snapshot(old(modifiedLogs), old(tasks),
                                                          old(deletedTaskIds), old(habitDefinitions), old(deletedHabitIds))),
                                                        replies.habits.value)
    {
      var snap := BeginSave();
      var outcome;
      outcome, calls := RunSavePhases(snap, userSettings, today, replies);
      QueuedPermanentNeverDeleted(snap, calls);
      match outcome
      case NotSaved(message) =>
        FailSave(message);
        ok := false;
      case Saved(habitTempOrder, habitInserted, taskTempOrder, taskInserted, sortedLogs) =>
        CommitSave(snap.modifiedLogs.Keys, habitTempOrder, habitInserted, taskTempOrder, taskInserted, sortedLogs);
        ok := true;
    }
  }

  /** The ledger entries a commit keeps: those whose date was not captured. */
  function Remaining(ledger: map<string, DailyLog>, captured: set<string>): (r: map<string, DailyLog>)
    ensures r.Keys == ledger.Keys - captured
    ensures forall d :: d in r ==> r[d] == ledger[d]
    ensures ledger.Keys <= captured ==> r == map[]
  {
    var r := map d | d in ledger && d !in captured :: ledger[d];
    if ledger.Keys <= captured then assert r.Keys == {}; r else r
  }

  /** A note written while a save is in flight. If the selected date was not
      in the ledger when the save began, the edit survives the commit; if it
      was, the commit removes that ledger entry although the saved version is
      the one from before the edit. Either way `unsavedChanges` ends false. */
  method SaveWithEditInFlight(s: Store, note: Option<string>, replies: SaveReplies)
    returns (ok: bool)
    requires s.Valid()
    modifies s
    ensures s.Valid()
    ensures ok <==> Succeeds(replies, old(s.userSettings).Some?)
    ensures s.dailyLog.notes == note
    ensures ok ==> !s.unsavedChanges
    ensures ok ==> (s.selectedDate in s.modifiedLogs <==> old(s.selectedDate) !in old(s.modifiedLogs))
    ensures ok && s.selectedDate in s.modifiedLogs ==> s.modifiedLogs[s.selectedDate] == s.dailyLog
  {
    var snap := s.BeginSave();
    s.SetNotes(note);
    ghost var edited := s.modifiedLogs;
    var outcome := PhaseOutcome(snap, s.userSettings.Some?, replies);
    assert outcome.Saved? <==> Succeeds(replies, old(s.userSettings).Some?);
    if outcome.NotSaved? {
      s.FailSave(outcome.error);
      ok := false;
    } else {
      s.CommitSave(snap.modifiedLogs.Keys, outcome.habitTempOrder, outcome.habitInserted,
                   outcome.taskTempOrder, outcome.taskInserted, outcome.sortedLogs);
      assert s.modifiedLogs == Remaining(edited, snap.modifiedLogs.Keys);
      ok := true;
    }
  }
}

=== FILE: text.dfy ===
/**
 * String helpers used by the store and the components: the order in which
 * date keys are sorted, ASCII case folding, `trim`, `split` and decimal
 * rendering and parsing of numbers.
 */
module Text {

  /** Strict code-unit lexicographic order. On the digit-and-hyphen date keys
      this program compares, `localeCompare` agrees with it. */
  predicate Less(a: string, b: string)
  {
    if |a| == 0 then |b| > 0
    else if |b| == 0 then false
    else if a[0] != b[0] then a[0] < b[0]
    else Less(a[1..], b[1..])
  }

  lemma {:induction false} LessIrreflexive(a: string)
    ensures !Less(a, a)
  {
    if |a| > 0 {
      LessIrreflexive(a[1..]);
    }
  }

  lemma {:induction false} LessTransitive(a: string, b: string, c: string)
    requires Less(a, b) && Less(b, c)
    ensures Less(a, c)
  {
    if |a| > 0 && |b| > 0 && |c| > 0 && a[0] == b[0] && b[0] == c[0] {
      LessTransitive(a[1..], b[1..], c[1..]);
    }
  }

  lemma {:induction false} LessTotal(a: string, b: string)
    ensures a == b || Less(a, b) || Less(b, a)
  {
    if |a| > 0 && |b| > 0 && a[0] == b[0] {
      LessTotal(a[1..], b[1..]);
      if a[1..] == b[1..] {
        assert a == [a[0]] + a[1..] && b == [b[0]] + b[1..];
      }
    }
  }

  /** A common prefix does not change the order of two strings. */
  lemma {:induction false} LessPrefix(p: string, a: string, b: string)
    ensures Less(p + a, p + b) <==> Less(a, b)
  {
    if |p| > 0 {
      assert (p + a)[1..] == p[1..] + a && (p + b)[1..] == p[1..] + b;
      LessPrefix(p[1..], a, b);
    } else {
      assert p + a == a && p + b == b;
    }
  }

  /** Two strings that first differ at position i are ordered by that position. */
  lemma {:induction false} LessAtFirstDifference(a: string, b: string, i: nat)
    requires i < |a| && i < |b| && a[..i] == b[..i] && a[i] < b[i]
    ensures Less(a, b)
  {
    if i > 0 {
      assert a[1..][..i - 1] == a[..i][1..] && b[1..][..i - 1] == b[..i][1..];
      LessAtFirstDifference(a[1..], b[1..], i - 1);
    }
  }

  // ---------------------------------------------------------------------
  // Case folding and whitespace

  /** `toLowerCase` restricted to ASCII letters. */
  function LowerChar(c: char): char
  {
    if 'A' <= c <= 'Z' then (c as int + 32) as char else c
  }

  function ToLower(s: string): (r: string)
    ensures |r| == |s|
    ensures forall i :: 0 <= i < |s| ==> r[i] == LowerChar(s[i])
  {
    if |s| == 0 then [] else [LowerChar(s[0])] + ToLower(s[1..])
  }

  lemma ToLowerIdempotent(s: string)
    ensures ToLower(ToLower(s)) == ToLower(s)
  {
  }

  predicate IsSpace(c: char)
  {
    c == ' ' || c == '\t' || c == '\n' || c == '\r' || c == '\U{000B}' || c == '\U{000C}'
  }

  function TrimStart(s: string): (r: string)
    decreases |s|
  {
    if |s| > 0 && IsSpace(s[0]) then TrimStart(s[1..]) else s
  }

  function TrimEnd(s: string): (r: string)
    decreases |s|
  {
    if |s| > 0 && IsSpace(s[|s| - 1]) then TrimEnd(s[..|s| - 1]) else s
  }

  /** `String.prototype.trim` over ASCII whitespace. */
  function Trim(s: string): string
  {
    TrimEnd(TrimStart(s))
  }

  predicate AllSpace(s: string)
  {
    forall i :: 0 <= i < |s| ==> IsSpace(s[i])
  }

  lemma {:induction false} TrimStartFacts(s: string) returns (k: nat)
    ensures k <= |s| && TrimStart(s) == s[k..] && AllSpace(s[..k])
    ensures TrimStart(s) == [] <==> AllSpace(s)
    ensures TrimStart(s) != [] ==> !IsSpace(TrimStart(s)[0])
    decreases |s|
  {
    if |s| > 0 && IsSpace(s[0]) {
      var j := TrimStartFacts(s[1..]);
      k := j + 1;
      assert TrimStart(s) == s[k..];
      forall i | 0 <= i < k ensures IsSpace(s[..k][i]) {
        if i > 0 { assert s[..k][i] == s[1..][..j][i - 1]; }
      }
      if AllSpace(s[1..]) {
        forall i | 0 <= i < |s| ensures IsSpace(s[i]) {
          if i > 0 { assert s[i] == s[1..][i - 1]; }
        }
      }
    } else {
      k := 0;
      assert TrimStart(s) == s[0..];
    }
  }

  lemma {:induction false} TrimEndFacts(s: string) returns (k: nat)
    ensures k <= |s| && TrimEnd(s) == s[..k] && AllSpace(s[k..])
    ensures TrimEnd(s) == [] <==> AllSpace(s)
    ensures TrimEnd(s) != [] ==> !IsSpace(TrimEnd(s)[|TrimEnd(s)| - 1])
    decreases |s|
  {
    if |s| > 0 && IsSpace(s[|s| - 1]) {
      var t := s[..|s| - 1];
      k := TrimEndFacts(t);
      assert TrimEnd(s) == s[..k];
      forall i | 0 <= i < |s| - k ensures IsSpace(s[k..][i]) {
        if k + i < |s| - 1 { assert s[k..][i] == t[k..][i]; }
      }
      if AllSpace(t) {
        forall i | 0 <= i < |s| ensures IsSpace(s[i]) {
          if i < |s| - 1 { assert s[i] == t[i]; }
        }
      }
    } else {
      k := |s|;
      assert TrimEnd(s) == s[..|s|];
    }
  }

  /** `trim` is empty exactly for all-whitespace input, and otherwise neither
      starts nor ends with whitespace. */
  lemma TrimFacts(s: string)
    ensures Trim(s) == [] <==> AllSpace(s)
    ensures Trim(s) != [] ==> !IsSpace(Trim(s)[0]) && !IsSpace(Trim(s)[|Trim(s)| - 1])
  {
    var u := TrimStart(s);
    var k := TrimStartFacts(s);
    var j := TrimEndFacts(u);
    if Trim(s) != [] {
      assert Trim(s)[0] == u[0];
    }
  }

  // ---------------------------------------------------------------------
  // split(":")

  /** `s.split(sep)` for a one-character separator. */
  function Split(s: string, sep: char): (parts: seq<string>)
    ensures |parts| >= 1
    decreases |s|
  {
    if |s| == 0 then [""]
    else
      var rest := Split(s[1..], sep);
      if s[0] == sep then [""] + rest
      else [[s[0]] + rest[0]] + rest[1..]
  }

  lemma {:induction false} SplitNoSep(a: string, sep: char)
    requires sep !in a
    ensures Split(a, sep) == [a]
    decreases |a|
  {
    if |a| > 0 {
      SplitNoSep(a[1..], sep);
      assert [a[0]] + a[1..] == a;
    }
  }

  lemma {:induction false} SplitAtSep(a: string, b: string, sep: char)
    requires sep !in a
    ensures Split(a + [sep] + b, sep) == [a] + Split(b, sep)
    decreases |a|
  {
    if |a| == 0 {
      assert a + [sep] + b == [sep] + b;
      assert ([sep] + b)[1..] == b;
    } else {
      assert (a + [sep] + b)[1..] == a[1..] + [sep] + b;
      SplitAtSep(a[1..], b, sep);
      assert [a[0]] + a[1..] == a;
    }
  }

  // ---------------------------------------------------------------------
  // Decimal numbers

  predicate IsDigit(c: char)
  {
    '0' <= c <= '9'
  }

  predicate AllDigits(s: string)
  {
    forall i :: 0 <= i < |s| ==> IsDigit(s[i])
  }

  function DigitChar(d: nat): char
    requires d < 10
  {
    ('0' as int + d) as char
  }

  /** Decimal rendering of a natural number, as `String(n)`. */
  function NatToString(n: nat): (s: string)
  {
    if n < 10 then [DigitChar(n)] else NatToString(n / 10) + [DigitChar(n % 10)]
  }

  /** Decimal rendering of an integer, as `${n}`. */
  function IntToString(n: int): string
  {
    if n < 0 then "-" + NatToString(-n) else NatToString(n)
  }

  /** The value of a string of decimal digits (the empty string is 0, as `Number("")`). */
  function DigitsValue(s: string): int
  {
    if |s| == 0 then 0 else DigitsValue(s[..|s| - 1]) * 10 + (s[|s| - 1] as int - '0' as int)
  }

  lemma {:induction false} NatToStringDigits(n: nat)
    ensures |NatToString(n)| >= 1 && AllDigits(NatToString(n))
  {
    if n >= 10 {
      NatToStringDigits(n / 10);
    }
  }

  /** Reading back what `NatToString` wrote gives the number: rendering is injective. */
  lemma {:induction false} NatToStringRoundTrip(n: nat)
    ensures DigitsValue(NatToString(n)) == n
  {
    if n >= 10 {
      var s := NatToString(n);
      assert s[..|s| - 1] == NatToString(n / 10);
      NatToStringRoundTrip(n / 10);
    }
  }

  /** Strings that differ within equally long prefixes are ordered by those prefixes. */
  lemma {:induction false} LessExtend(s: string, t: string, x: string, y: string)
    requires |s| == |t| && Less(s, t)
    ensures Less(s + x, t + y)
  {
    if s[0] == t[0] {
      assert (s + x)[1..] == s[1..] + x && (t + y)[1..] == t[1..] + y;
      LessExtend(s[1..], t[1..], x, y);
    }
  }

  lemma {:induction false} DigitsValueInjective(s: string, t: string)
    requires AllDigits(s) && AllDigits(t) && |s| == |t| && DigitsValue(s) == DigitsValue(t)
    ensures s == t
    decreases |s|
  {
    if |s| > 0 {
      var n := |s| - 1;
      assert DigitsValue(s[..n]) == DigitsValue(t[..n]);
      DigitsValueInjective(s[..n], t[..n]);
      assert s == s[..n] + [s[n]] && t == t[..n] + [t[n]];
    }
  }

  /** For digit strings of one length, numeric order is string order. */
  lemma {:induction false} LessByValue(s: string, t: string)
    requires AllDigits(s) && AllDigits(t) && |s| == |t| && DigitsValue(s) < DigitsValue(t)
    ensures Less(s, t)
    decreases |s|
  {
    var n := |s| - 1;
    var s', t' := s[..n], t[..n];
    assert s == s' + [s[n]] && t == t' + [t[n]];
    if DigitsValue(s') < DigitsValue(t') {
      LessByValue(s', t');
      LessExtend(s', t', [s[n]], [t[n]]);
    } else {
      DigitsValueInjective(s', t');
      LessPrefix(s', [s[n]], [t[n]]);
    }
  }

  /** Four-digit numbers are written with four characters. */
  lemma FourDigits(n: nat)
    requires 1000 <= n <= 9999
    ensures |NatToString(n)| == 4
  {
    assert |NatToString(n / 1000)| == 1;
    assert NatToString(n / 100) == NatToString(n / 100 / 10) + [DigitChar(n / 100 % 10)];
    assert NatToString(n / 10) == NatToString(n / 10 / 10) + [DigitChar(n / 10 % 10)];
  }

  /** Four-digit numbers are ordered as their renderings. */
  lemma FourDigitsLess(a: nat, b: nat)
    requires 1000 <= a < b <= 9999
    ensures Less(NatToString(a), NatToString(b))
  {
    FourDigits(a);
    FourDigits(b);
    NatToStringRoundTrip(a);
    NatToStringRoundTrip(b);
    NatToStringDigits(a);
    NatToStringDigits(b);
    LessByValue(NatToString(a), NatToString(b));
  }

  /** `String(n).padStart(2, "0")`. */
  function Pad2(n: nat): (s: string)
  {
    if n < 10 then "0" + NatToString(n) else NatToString(n)
  }

  lemma Pad2Shape(n: nat)
    requires n < 100
    ensures |Pad2(n)| == 2
    ensures Pad2(n)[0] == DigitChar(n / 10) && Pad2(n)[1] == DigitChar(n % 10)
    ensures DigitsValue(Pad2(n)) == n
  {
    if n >= 10 {
      assert NatToString(n / 10) == [DigitChar(n / 10)];
      assert Pad2(n)[..1] == [DigitChar(n / 10)];
    } else {
      assert Pad2(n)[..1] == "0";
    }
    assert DigitsValue(Pad2(n)[..1]) == n / 10;
  }

  /** Two-digit padding is monotone in the lexicographic order. */
  lemma Pad2Less(a: nat, b: nat)
    requires a < b < 100
    ensures Less(Pad2(a), Pad2(b))
  {
    Pad2Shape(a);
    Pad2Shape(b);
    var x, y := Pad2(a), Pad2(b);
    if a / 10 < b / 10 {
      LessAtFirstDifference(x, y, 0);
    } else {
      assert x[..1] == y[..1];
      LessAtFirstDifference(x, y, 1);
    }
  }
}

=== FILE: todo_list.dfy ===
/**
 * The to-do list's display order: urgent tasks first, then high, then normal
 * (a task without a priority counts as normal), each group in store order;
 * at most ten shown unless the list is expanded.
 */
module TodoList {
  import opened Wrappers
  import opened Text
  import opened Records
  import LifeStore

  const MaxVisible := 10

  /** `t.priority ?? "normal"` */
  function Effective(t: Task): Priority
  {
    if t.priority.Some? then t.priority.value else Normal
  }

  /** Position in `PRIORITY_ORDER`. */
  function Rank(p: Priority): nat
  {
    match p
    case Urgent => 0
    case High => 1
    case Normal => 2
  }

  /** `tasks.filter((t) => (t.priority ?? "normal") === p)` */
  function WithPriority(ts: seq<Task>, p: Priority): (r: seq<Task>)
    ensures forall i :: 0 <= i < |r| ==> Effective(r[i]) == p
  {
    if |ts| == 0 then []
    else WithPriority(ts[..|ts| - 1], p) + (if Effective(ts[|ts| - 1]) == p then [ts[|ts| - 1]] else [])
  }

  /** `PRIORITY_ORDER.flatMap(...)` */
  function SortedByPriority(ts: seq<Task>): seq<Task>
  {
    WithPriority(ts, Urgent) + WithPriority(ts, High) + WithPriority(ts, Normal)
  }

  lemma {:induction false} WithPriorityConcat(a: seq<Task>, b: seq<Task>, p: Priority)
    ensures WithPriority(a + b, p) == WithPriority(a, p) + WithPriority(b, p)
    decreases |b|
  {
    if |b| > 0 {
      assert (a + b)[..|a + b| - 1] == a + b[..|b| - 1];
      WithPriorityConcat(a, b[..|b| - 1], p);
    } else {
      assert a + b == a;
    }
  }

  /** A single task passes the filter exactly when it has the priority. */
  lemma WithPriorityOne(t: Task, p: Priority)
    ensures WithPriority([t], p) == if Effective(t) == p then [t] else []
  {
    assert [t][..0] == [];
  }

  /** Filtering a group again keeps it whole or empties it. */
  lemma {:induction false} WithPriorityTwice(ts: seq<Task>, p: Priority, q: Priority)
    ensures WithPriority(WithPriority(ts, q), p) == if p == q then WithPriority(ts, p) else []
    decreases |ts|
  {
    if |ts| > 0 {
      var init, last := ts[..|ts| - 1], ts[|ts| - 1];
      var g := WithPriority(init, q);
      WithPriorityTwice(init, p, q);
      if Effective(last) == q {
        assert WithPriority(ts, q) == g + [last];
        WithPriorityConcat(g, [last], p);
        WithPriorityOne(last, p);
      } else {
        assert WithPriority(ts, q) == g + [];
        assert g + [] == g;
      }
    }
  }

  /** The three groups together hold every task exactly once. */
  lemma WithPriorityLast(ts: seq<Task>, p: Priority)
    requires |ts| > 0
    ensures var last := ts[|ts| - 1];
            multiset(WithPriority(ts, p)) == multiset(WithPriority(ts[..|ts| - 1], p))
              + if Effective(last) == p then multiset{last} else multiset{}
  {
  }

  lemma MultisetLast(ts: seq<Task>)
    requires |ts| > 0
    ensures multiset(ts) == multiset(ts[..|ts| - 1]) + multiset{ts[|ts| - 1]}
  {
    assert ts == ts[..|ts| - 1] + [ts[|ts| - 1]];
  }

  lemma {:induction false} GroupsPartition(ts: seq<Task>)
    ensures multiset(WithPriority(ts, Urgent)) + multiset(WithPriority(ts, High))
            + multiset(WithPriority(ts, Normal)) == multiset(ts)
    decreases |ts|
  {
    if |ts| > 0 {
      var init, last := ts[..|ts| - 1], ts[|ts| - 1];
      GroupsPartition(init);
      MultisetLast(ts);
      WithPriorityLast(ts, Urgent);
      WithPriorityLast(ts, High);
      WithPriorityLast(ts, Normal);
    }
  }

  /** The display order is a permutation of the store's tasks. */
  lemma SortedIsPermutation(ts: seq<Task>)
    ensures multiset(SortedByPriority(ts)) == multiset(ts)
    ensures |SortedByPriority(ts)| == |ts|
  {
    GroupsPartition(ts);
    assert |SortedByPriority(ts)| == |multiset(SortedByPriority(ts))|;
  }

  /** Every urgent task comes before every high one, before every normal one. */
  lemma SortedGrouped(ts: seq<Task>)
    ensures var r := SortedByPriority(ts);
            forall i, j :: 0 <= i < j < |r| ==> Rank(Effective(r[i])) <= Rank(Effective(r[j]))
  {
    var u, h, n := WithPriority(ts, Urgent), WithPriority(ts, High), WithPriority(ts, Normal);
    var r := u + h + n;
    forall i | 0 <= i < |r|
      ensures Rank(Effective(r[i])) == if i < |u| then 0 else if i < |u| + |h| then 1 else 2
    {
      if i < |u| {
        assert r[i] == u[i];
      } else if i < |u| + |h| {
        assert r[i] == h[i - |u|];
      } else {
        assert r[i] == n[i - |u| - |h|];
      }
    }
  }

  /** Within one priority the store order is kept. */
  lemma SortedStable(ts: seq<Task>, p: Priority)
    ensures WithPriority(SortedByPriority(ts), p) == WithPriority(ts, p)
  {
    var u, h, n := WithPriority(ts, Urgent), WithPriority(ts, High), WithPriority(ts, Normal);
    WithPriorityConcat(u + h, n, p);
    WithPriorityConcat(u, h, p);
    WithPriorityTwice(ts, p, Urgent);
    WithPriorityTwice(ts, p, High);
    WithPriorityTwice(ts, p, Normal);
  }

  /** `visibleTasks`: everything when expanded, else the first ten. */
  function VisibleTasks(ts: seq<Task>, showAll: bool): seq<Task>
  {
    var sorted := SortedByPriority(ts);
    if showAll then sorted else sorted[..if |sorted| < MaxVisible then |sorted| else MaxVisible]
  }

  /** `hasMore` */
  predicate HasMore(ts: seq<Task>, showAll: bool)
  {
    |ts| > MaxVisible && !showAll
  }

  /** The "show more" control appears exactly when some tasks are hidden,
      and the visible ones lead the display order. */
  lemma VisibleFacts(ts: seq<Task>, showAll: bool)
    ensures var v := VisibleTasks(ts, showAll);
            var sorted := SortedByPriority(ts);
            v == sorted[..|v|] && |v| <= |ts| &&
            (HasMore(ts, showAll) <==> |v| < |ts|) &&
            (showAll ==> v == sorted) &&
            (!showAll ==> |v| == if |ts| < MaxVisible then |ts| else MaxVisible)
  {
    SortedIsPermutation(ts);
  }

  // ---------------------------------------------------------------------
  // Adding a task

  /** `handleSubmit`: a title that trims to nothing is ignored; otherwise the
      trimmed title is added with the chosen priority. */
  method HandleSubmit(s: LifeStore.Store, title: string, priority: Priority, uuid: string, now: string)
    modifies s`tasks, s`unsavedChanges
    ensures Trim(title) == [] ==> s.tasks == old(s.tasks) && s.unsavedChanges == old(s.unsavedChanges)
    ensures Trim(title) != [] ==>
              s.tasks == [Task(MakeTempId(uuid), "", Trim(title), false, Some(priority), None, now, None)] + old(s.tasks)
              && s.unsavedChanges
  {
    var trimmed := Trim(title);
    if trimmed == [] {
      return;
    }
    s.AddTask(trimmed, Some(priority), uuid, now);
  }

  /** A task added at the front is shown first within its priority group,
      and the other groups are unchanged. */
  lemma NewTaskLeadsItsGroup(t: Task, ts: seq<Task>, p: Priority)
    ensures WithPriority([t] + ts, p) == if Effective(t) == p then [t] + WithPriority(ts, p) else WithPriority(ts, p)
  {
    WithPriorityConcat([t], ts, p);
    WithPriorityOne(t, p);
  }
}

=== FILE: wrappers.dfy ===
/** Optional values: JavaScript's `null` / `undefined` for the fields and results of the model. */
module Wrappers {

  datatype Option<+T> = None | Some(value: T) {

    /** `x ?? d` */
    function GetOr(default: T): T
    {
      match this
      case Some(v) => v
      case None => default
    }
  }
}
